=== FILE: README.md ===
# Universal Tau Tracker — a verified model of its discrete core

The Universal Tau Tracker collects crowd-sourced readings from the game Tau
Station: distances between stations, fuel prices, vendor inventories and
career-task bonuses. Offline scripts then turn these readings into orbital
parameters and fuel-price estimates. This project models, in Dafny, the
exact logic that surrounds the numerical routines:

- the streak clustering primitive in two forms:
  - `find_most_common_number` with its `median`, using a 5% tolerance and a tie check;
  - `find_similar_numbers`, using a 0.5% tolerance and re-centring on the closer half;
- the fuel-price interval narrowing in `run-fuel-price-strategy.py`:
  - `read_items` and `entries_by_key`;
  - slug cleaning and the station-combination skip;
  - the stop-at-convergence loop and the choice of each station's price;
- the orbital-fit bookkeeping:
  - initial guesses, bounds, the invalid-region sentinel, the derivation of distances, phase normalisation and the write gate in `autofit.py`;
  - radius candidates, the symmetric relative-period map, the residual vector and the fit error in `analzye-system.py`;
  - the baseline/amplitude algebra of `StationPair` in `utt/model.py`;
- GCT timestamps (`utt/gct.py`) on whole units since the epoch;
- the export and import of pair fits (`station-pair-export.py` and `station-pair-import.py`);
- the state transitions of the web handlers, with the database as sequences of rows:
  - `get_station` and `get_station_pair`;
  - the career-task baselines, factors, `system_factors` and `summary`;
  - vendor inventory versioning;
- `min_dt`, `max_dt` and the choice of the newest complete day in `vendor-fuel-correlation-report.py`.

The model's conventions:

- Python floats are `real`.
- A Python exception is a `Raise` value of `Result` (`wrappers.dfy`), named after the Python exception class.
- JSON payloads are the `Json` datatype (`payload.dfy`).
- Anything that comes from outside the program is a parameter:
  - the scraped item price range (`minmax`);
  - the human answer to a prompt;
  - the clock;
  - the day a timestamp falls on in the report's time zone (`dayOf`);
  - `float` on a string (`parse`), which reads numeric strings such as "1500";
  - the order in which `get_fuel_prices` visits the stations when it builds its result (`visit`);
  - square roots (a root together with its defining property).

Modules follow the program: `Streaks`, `MostCommon`, `Intervals`, `Grouping` and
`FuelStrategy` for the fuel script; `SystemFit`, `Autofit`, `Gct`, `Model`,
`FitTransfer`, `Career`, `Vendors` and `CorrelationReport` for the other files;
`Sorting`, `Numeric`, `Strings`, `Payload` and `Wrappers` hold what they share.

`autofit.py` as written stops at its first reading, because it passes `as_gct` a keyword argument that `as_gct` does not take (see "## Findings"). `Autofit` models the script with the call it evidently intends: each reading's `x` is its GCT unit count since the epoch.

The fuel-price pipeline takes the median as a parameter (`MostCommon.MedianVersion`). With `AsWritten` it is the program's `median`, including its IndexError; with `Corrected` it is the median the docstring describes (see "## Findings").

Two behaviours of the code worth noting:

- `find_similar_numbers` does not reject two equally long streaks. It takes the first, lowest-valued one (`SystemFit.FindSimilarAcceptsTies`).
- The normalised phase lies in the closed range [0, 2π]: the first loop tests `phase > tau`, so exactly 2π is kept (`Autofit.NormalizePhase`).

## Model

| member | source | states |
|---|---|---|
| Streaks.Split | run-fuel-price-strategy.py:132-147 | a successful split of the sorted list has at least one streak |
| Streaks.SplitOkIff | run-fuel-price-strategy.py:135-140 | the streak walk succeeds exactly when no value after the first is zero, the divisor of the relative step |
| Streaks.SplitRaisesOnlyZeroDivision | run-fuel-price-strategy.py:140 | the only error the streak walk can raise is ZeroDivisionError |
| Streaks.SplitSnoc | run-fuel-price-strategy.py:135-146 | appending a value either extends the last streak (relative step within the tolerance) or opens a new one, or raises on a zero value |
| Streaks.SplitIsStreakSplit | run-fuel-price-strategy.py:132-147 | the streaks concatenate back to the input, no streak is empty, each step inside a streak is within the tolerance and each boundary step exceeds it |
| Streaks.StreakSplitIsSplit | run-fuel-price-strategy.py:132-147 | any split with those properties is the one the walk produces, so the split is unique |
| Streaks.SplitCharacterised | analzye-system.py:29-44 | the walk returns a split if and only if that split concatenates to the input with in-tolerance steps inside and out-of-tolerance steps between streaks |
| Streaks.LongestIndex | run-fuel-price-strategy.py:149-150 | the stable sort by descending length puts first the earliest of the longest streaks |
| Streaks.RunnerUpIndex | run-fuel-price-strategy.py:149-155 | the second entry of the stable sort is the earliest longest streak among the others |
| MostCommon.MedianAsWritten | run-fuel-price-strategy.py:115-123 | the median as written succeeds exactly on lists of three or more values and raises IndexError otherwise; on a sorted list its value lies between the true median and the largest element |
| MostCommon.Median | run-fuel-price-strategy.py:115-123 | the corrected median succeeds on every non-empty list; on a sorted list it has the lower half at or below it and the upper half at or above it, and for an even length it is the mean of the largest of the lower half and the smallest of the upper half |
| MostCommon.MedianAsWrittenMissesMiddle | run-fuel-price-strategy.py:120-121 | on [1, 2, 3] the code as written returns 3, which is not the median; the corrected median returns 2 |
| MostCommon.CommonStreak | run-fuel-price-strategy.py:149-158 | choosing the winning streak can only raise ZeroDivisionError |
| MostCommon.CommonStreakOutcome | run-fuel-price-strategy.py:149-158 | no streak is chosen iff no streak is dominant (longer than one and at least 3 longer than the runner-up); otherwise the dominant streak is the first longest |
| MostCommon.FindMostCommonNumber | run-fuel-price-strategy.py:125-160 | the corrected guess raises only ZeroDivisionError and gives None on an empty list |
| MostCommon.FindMostCommonNumberOkIff | run-fuel-price-strategy.py:135-140 | the guess is computed exactly when no sorted value after the first is zero |
| MostCommon.FindMostCommonNumberIsMedian | run-fuel-price-strategy.py:149-160 | a guess is always the median of a dominant streak of the sorted input |
| MostCommon.FindMostCommonNumberAsWritten | run-fuel-price-strategy.py:125-160 | the function as written raises only ZeroDivisionError or IndexError |
| MostCommon.DominantIsClearLead | run-fuel-price-strategy.py:149-158 | only the first longest streak can be dominant, and it is dominant exactly when it is not a singleton and leads the runner-up by at least 3, the test the script makes |
| MostCommon.FindMostCommonNumberAsWrittenIsUpperMedian | run-fuel-price-strategy.py:149-160 | a number found as written is the median as written of the dominant streak, which has at least three elements, and lies between that streak's median and its largest element |
| MostCommon.AsWrittenAgainstCorrected | run-fuel-price-strategy.py:115-160 | both versions fail alike on a zero divisor; the version as written also raises IndexError exactly when the dominant streak has fewer than three elements; otherwise both agree on whether there is a number, and the number as written is never below the corrected one |
| MostCommon.MostCommonNumber | run-fuel-price-strategy.py:125-160 | with either median the errors are ZeroDivisionError, plus IndexError as written; on an empty list the version as written raises IndexError and the corrected one finds nothing |
| MostCommon.EmptyListRaises | run-fuel-price-strategy.py:147-160 | on an empty list the code as written raises IndexError, while the corrected version returns None |
| MostCommon.TwoClosePricesRaise | run-fuel-price-strategy.py:149-160 | two prices within 5% raise IndexError as written; corrected, their mean is the guess |
| Intervals.UpdateNarrows | run-fuel-price-strategy.py:169-175 | an update never lowers the minimum, never raises the maximum, makes the minimum at least a and the maximum at most b, and appends exactly a, b to the prices seen |
| Intervals.ConvergedIff | run-fuel-price-strategy.py:181-184 | an interval is converged iff both ends are finite and max − min < 0.5, so an inverted interval counts as converged |
| Intervals.MidpointOfConverged | run-fuel-price-strategy.py:187-188 | a converged interval has a finite midpoint (min + max)/2, which lies between its ends when they are in order |
| Intervals.UpdateAllBounds | run-fuel-price-strategy.py:163-175 | after updates from the unbounded interval, the minimum is the largest lower bound applied, the maximum the smallest upper bound, and the prices seen are all the bounds in order |
| Grouping.EntriesByKeyPartitions | run-fuel-price-strategy.py:105-113 | the groups have distinct keys, each key occurs in the input, each group holds exactly the entries with its key in input order, and the group sizes sum to the input length |
| Grouping.LookupEntriesByKey | run-fuel-price-strategy.py:105-113 | looking up any key in the groups gives exactly the input entries with that key, in order, and nothing for an absent key |
| Sorting.SortBy | run-fuel-price-strategy.py:246-247 | sorting returns a permutation of its input that is ordered by any total preorder, and is stable: the elements ranked equal to any value keep their input order |
| Sorting.Sort | run-fuel-price-strategy.py:135 | the sorted list is an ascending permutation of the input |
| FuelStrategy.ReadLoop | run-fuel-price-strategy.py:83-102 | reading the stations can only raise ZeroDivisionError, from a zero fuel price |
| FuelStrategy.InventoryEntriesWellPriced | run-fuel-price-strategy.py:90-101 | one entry per listed item, each carrying the station's name and system and the coefficient item price / fuel price |
| FuelStrategy.ReadLoopMissing | run-fuel-price-strategy.py:86-88 | a station with missing data makes reading return an empty list, whatever was read before |
| FuelStrategy.ReadLoopComplete | run-fuel-price-strategy.py:83-102 | without missing data, reading succeeds iff every station listing items has a non-zero fuel price, and then returns one entry per item |
| FuelStrategy.ReadItemsSpec | run-fuel-price-strategy.py:80-102 | every entry read is well priced; missing data yields no entries; otherwise success and the entry count are as above |
| FuelStrategy.UnambiguousIff | run-fuel-price-strategy.py:235-237 | a slug's entries have one distinct price iff they are non-empty and all share one price |
| FuelStrategy.Clean | run-fuel-price-strategy.py:233-241 | cleaning keeps only input groups, and none of them empty |
| FuelStrategy.CleanKeeps | run-fuel-price-strategy.py:234-240 | a slug survives cleaning iff it has exactly one entry or all its entries share one price |
| FuelStrategy.Narrow | run-fuel-price-strategy.py:251-269 | the narrowing loop keeps the interval reachable and can only raise ZeroDivisionError |
| FuelStrategy.NarrowStopsAtFirstConvergence | run-fuel-price-strategy.py:267-269 | the loop stops at the first converged interval: no earlier interval in its trace is converged |
| FuelStrategy.NarrowConsidersAll | run-fuel-price-strategy.py:251-269 | a loop that ends unconverged has applied or skipped every slug, and the used slugs and station combinations only grow |
| FuelStrategy.NarrowCombosDistinct | run-fuel-price-strategy.py:253-259 | a multi-station slug whose station combination was already used is skipped, so the recorded combinations stay pairwise distinct |
| FuelStrategy.StationSlugsOrdered | run-fuel-price-strategy.py:244-247 | a station's slugs come in ascending availability and, at equal availability, in descending price; slugs equal in both keep their dict order, as the two stable sorts leave them; the station sells each of them |
| FuelStrategy.StationSlugsSold | run-fuel-price-strategy.py:213-220 | each slug in a station's loop lists that station among the stations selling it |
| FuelStrategy.Guess | run-fuel-price-strategy.py:177-178 | the guess fails only with ZeroDivisionError, or IndexError with the median as written; with no prices seen the program's guess raises IndexError and the corrected one gives none |
| FuelStrategy.StationPrice | run-fuel-price-strategy.py:276-286 | a station's price can only fail with ZeroDivisionError, or with IndexError from the program's median |
| FuelStrategy.StationPriceConverged | run-fuel-price-strategy.py:277-279 | a converged station's price is the midpoint of its finite interval and lies between its ends when they are ordered |
| FuelStrategy.PriceOfConverged | run-fuel-price-strategy.py:277-279 | a converged station gets exactly the midpoint of its interval |
| FuelStrategy.StationStopsAtFirstConvergence | run-fuel-price-strategy.py:249-272 | no interval of a station's loop before the last one is converged |
| FuelStrategy.StationPriceGuessed | run-fuel-price-strategy.py:280-283 | an unconverged station the program prices gets the median as written of the dominant streak of all the prices it saw; that streak has at least three elements and the price lies between its median and its largest element |
| FuelStrategy.StationPriceGuessedCorrected | run-fuel-price-strategy.py:280-283 | with the corrected median, an unconverged station's price is a median of the dominant streak of all the prices it saw |
| FuelStrategy.StationWithoutSlugs | run-fuel-price-strategy.py:233-251 | a station whose slugs are all ambiguous never converges and sees no price, so the program's guess raises IndexError and the corrected one gives no price |
| FuelStrategy.PriceLoop | run-fuel-price-strategy.py:276-286 | the result loop succeeds iff every visited station's price does, raises the error of the first station that fails, and enters exactly the visited stations that have a price, each with that price |
| FuelStrategy.GetFuelPrices | run-fuel-price-strategy.py:200-287 | no entries exits; errors are only exit, division by zero, or IndexError from the program's median; every station priced has vendor entries |
| FuelStrategy.GetFuelPricesDomain | run-fuel-price-strategy.py:275-286 | a station is priced iff it has entries and its interval converged or the guess is not None, and its value is its own price |
| FuelStrategy.AmbiguousStationEndsRun | run-fuel-price-strategy.py:276-286 | one station whose slugs are all ambiguous makes the program's run raise; the corrected run leaves that station out |
| SystemFit.WinningStreak | analzye-system.py:28-47 | the winning streak has more than one element and is drawn from the input; failures are the assertion or a division by zero |
| SystemFit.SimilarCenter | analzye-system.py:46-48 | the centre, the mean of the winning streak, lies between the input's minimum and maximum |
| SystemFit.FindSimilarNumbers | analzye-system.py:28-51 | the result has exactly len(l)//2 elements (at least one), drawn from the whole input, and fails exactly when the centre fails |
| SystemFit.FindSimilarKeepsClosest | analzye-system.py:48-50 | every kept value is at least as close to the centre as every dropped value |
| SystemFit.FindSimilarAcceptsTies | analzye-system.py:46-47 | the first of the longest streaks wins even when another is as long; the assertion fails only when it has one element |
| SystemFit.Fitted | analzye-system.py:56 | the pairs considered are exactly the pairs of the system that have a fitted period |
| SystemFit.Radii | analzye-system.py:64-65 | the two candidates are (max − min)/2 and (max + min)/2, so they sum to max and differ by min; a missing distance raises TypeError |
| SystemFit.CollectRaises | analzye-system.py:63-65 | collecting fails iff some pair lacks a distance, and then with TypeError |
| SystemFit.CollectStations | analzye-system.py:63-69 | the stations collected are exactly those touched by some pair, each once, and each has a candidate list |
| SystemFit.CollectCandidates | analzye-system.py:68-69 | each station's candidates are the radii of every pair touching it, added for both of the pair's stations |
| SystemFit.CollectRelativeDomain | analzye-system.py:70-71 | a relative period is recorded for (x, y) iff some pair links x and y in either order |
| SystemFit.CollectRelativeLast | analzye-system.py:70-71 | the recorded relative period is that of the last pair linking the two stations |
| SystemFit.RelativeSymmetric | analzye-system.py:70-71 | relative_period[a][b] and relative_period[b][a] are both present and equal |
| SystemFit.StationRadius | analzye-system.py:73-77 | a station's radius exists iff its candidates cluster, and lies within the range of its candidates |
| SystemFit.RadiusOkIff | analzye-system.py:73-77 | the radius table is built iff every station's candidates cluster |
| SystemFit.RadiusValues | analzye-system.py:73-77 | the radius table covers exactly the collected stations and each radius lies within that station's candidates |
| SystemFit.AnalyzeStations | analzye-system.py:79 | station_ids is a permutation of the touched stations and each has a radius |
| SystemFit.AnalyzeOrdersByRadius | analzye-system.py:79 | station_ids is in ascending order of mean radius |
| SystemFit.AnalyzeInitialGrid | analzye-system.py:80-81 | the initial guess has one entry per station and runs from the smallest to the largest pairwise period |
| SystemFit.IndexPairsMembers | analzye-system.py:86-87 | the metric's double loop visits exactly the index pairs i < j |
| SystemFit.Residuals | analzye-system.py:92-96 | a pair yields two residuals exactly when both periods, their reciprocal difference and both cubed radii are non-zero |
| SystemFit.ResidualsZeroIff | analzye-system.py:92-96 | both residuals are zero iff t = 1/(1/tᵢ − 1/tⱼ) and tᵢ²/rᵢ³ = tⱼ²/rⱼ³ |
| SystemFit.DistinctPeriodsHaveResiduals | analzye-system.py:92 | distinct non-zero periods with non-zero radii always give residuals |
| SystemFit.LinkedPairs | analzye-system.py:88-91 | the pairs the metric keeps are exactly the visited index pairs with a relative period |
| SystemFit.MetricOverShape | analzye-system.py:84-97 | the metric emits exactly two residuals per kept pair, in order, and none for pairs without a relative period |
| SystemFit.FitError | analzye-system.py:101 | the fit error, the mean absolute residual, exists for a non-empty residual vector and is non-negative |
| SystemFit.FitErrorZeroIff | analzye-system.py:101 | the fit error is zero iff every residual is zero |
| Numeric.Linspace | analzye-system.py:81 | a grid of n points from a to b: first a, last b, ascending and within [a, b] when a ≤ b |
| Autofit.InitialShapeAsWritten | autofit.py:22-28 | the script as written raises for every pair: TypeError from the first reading's `as_gct` call, and ValueError from `min(y)` when there is no reading; it raises TypeError exactly where `Autofit.InitialShape` succeeds |
| Autofit.InitialShape | autofit.py:28-33 | no readings raise ValueError; stored distances, when both present, give the baseline and amplitude |
| Autofit.InitialShapeSpansReadings | autofit.py:28-31 | without stored distances, baseline − amplitude = min(y), baseline + amplitude = max(y), amplitude ≥ 0, and every squared distance lies between them |
| Autofit.PeriodSeed | autofit.py:35-45 | a stored non-zero period is the seed with factor 2; a zero period count without one raises ZeroDivisionError |
| Autofit.PeriodSeedFromSpan | autofit.py:43-45 | without a stored period the seed is the time span divided by the period count, with factor 10 |
| Autofit.InitialPhase | autofit.py:47 | the stored phase, or 0 when none is stored |
| Autofit.Frequencies | autofit.py:49-50 | 800 frequencies from the estimated frequency divided by the factor to it multiplied by the factor; a zero period raises ZeroDivisionError |
| Autofit.FrequenciesInRange | autofit.py:49-50 | every grid frequency lies between the two ends |
| Autofit.ArgMax | autofit.py:53 | the index of the first maximal power |
| Autofit.BestPeriod | autofit.py:53 | the new period is the reciprocal of the frequency of maximal power |
| Autofit.BestPeriodNearSeed | autofit.py:49-53 | the chosen period lies between the seed divided by the factor and the seed times the factor |
| Autofit.BoundsContainInitial | autofit.py:62-64 | lower ≤ initial ≤ upper componentwise iff period, amplitude and baseline are non-negative and the phase is within ±21π; the bounds are strictly ordered iff those three are positive |
| Autofit.ModelValue | autofit.py:57-60 | the model returns the 1e20 sentinel whenever amplitude > baseline; otherwise, for a non-negative amplitude and a cosine in [−1, 1], it stays within baseline ± amplitude |
| Autofit.Sqrt | autofit.py:67-68 | a square root exists exactly for non-negative arguments; a negative one raises ValueError |
| Autofit.Distances | autofit.py:67-68 | the distances are defined iff −baseline ≤ amplitude ≤ baseline, and otherwise raise ValueError |
| Autofit.DistancesOrdered | autofit.py:67-68 | the distances are non-negative, square to baseline ∓ amplitude, and min ≤ max when amplitude ≥ 0 |
| Autofit.NormalizePhase | autofit.py:88-93 | the loops end with a phase in [0, 2π] that differs from the input by a whole number of turns, leaving one already in range unchanged |
| Autofit.Save | autofit.py:84-95 | nothing changes unless the answer is exactly "y"; then all four fit fields are written together and the phase is normalised |
| Autofit.SavedShapeRoundTrip | autofit.py:67-68 | the saved distances give back the fitted baseline and amplitude through baseline_amptlitude_pair |
| Model.FreshId | utt/model.py:26 | a new row id is positive and greater than every existing id |
| Model.FindSystem | utt/model.py:9 | the system found has the requested name up to case; none is found iff no system matches |
| Model.FindStation | utt/model.py:14 | the station found is in the system with the lower-cased name; none is found iff no station matches |
| Model.GetStationFinds | utt/model.py:8-22 | the station returned exists afterwards, with the lower-cased name, in a system whose name matches up to case; at most one system and one station are added |
| Model.GetStationNoCreate | utt/model.py:8-16 | without create, the store is unchanged, and AssertionError is raised iff the system or the station is missing |
| Model.GetStationRejectsImproperName | utt/model.py:15-19 | a new station whose name contains "Confined to the" or "Doing activity" raises AssertionError |
| Model.GetStationIdempotent | utt/model.py:8-22 | asking again for the same station returns it without changing the store |
| Model.GetStationNameClash | utt/model.py:15-35 | a creating lookup raises IntegrityError exactly when it would add a station whose name or lower-case name some station of any system already has, since both columns are unique over the whole table |
| Model.SameStationNameInTwoSystems | utt/model.py:14-21 | with "Abc" stored in Sol, asking for "Abc" in Vega raises IntegrityError instead of storing a second "Abc" |
| Model.GetStationKeepsNamesUnique | utt/model.py:33-35 | a successful lookup keeps every station name and lower-case name unique in the table |
| Model.FindPair | utt/model.py:95 | the pair found has the two station ids in order; none is found iff no pair has them |
| Model.GetStationPairSymmetric | utt/model.py:93-95 | for two stations whose lower-cased names differ, as two rows of a table with unique names do, (a, b) and (b, a) are ordered by lower-cased name to the same pair, with the same id |
| Model.GetStationPairIdempotent | utt/model.py:95-103 | an existing pair is reused, at most one pair is added, and a repeated call changes nothing |
| Model.BaselineAmplitudePair | utt/model.py:138-140 | no baseline/amplitude pair iff either distance is missing |
| Model.BaselineAmplitudeRoundTrip | utt/model.py:141-146 | baseline + amplitude = max², baseline − amplitude = min², so square roots recover non-negative distances |
| Model.BaselineAmplitudeOnlyDistances | utt/model.py:138-146 | period and phase do not affect the baseline and amplitude |
| Model.Factor | utt/model.py:79-90 | factor × baseline = bonus; a missing baseline falls back to the minimum recorded bonus of the task, which is returned for caching, and with no readings it raises TypeError |
| Model.FactorAtLeastOne | utt/model.py:80-90 | a positive bonus at least its positive baseline has a factor of at least 1 |
| Career.NewBaseline | utt/career.py:62-71 | the updated baseline is at most the bonus and at most the old baseline, and is one of the two |
| Career.RecordTasks | utt/career.py:58-79 | one bonus and one factor per item of the tasks dict; with distinct task names, as a dict's items have, each task's baseline becomes exactly the lesser of the stored baseline and its bonus (the bonus when none is stored), a non-zero value, and its reading's factor is the bonus divided by that baseline; tasks not submitted keep their baseline |
| Career.RepeatedTaskRecordedOnce | utt/career.py:60 | a task given twice is recorded once with its last value: stored baseline 4 and values 5, then 3 give one reading of 3 with factor 1 |
| Career.RecordTasksBaselines | utt/career.py:60-71 | baselines never increase, each task's baseline ends at most its bonus, and tasks not submitted keep their baseline; with distinct task names each ends exactly at the lesser of its stored baseline and its bonus |
| Career.RecordTasksBonuses | utt/career.py:60-61 | each recorded bonus is `float` of the submitted value, numeric strings included |
| Career.RecordTasksFactorsAtLeastOne | utt/career.py:70-79 | when every value converts to a positive float and the stored baselines are positive, every reading's factor is at least 1 |
| Career.Latest | utt/career.py:97-98 | the batch chosen satisfies the filter and is the newest such batch; none iff no batch passes |
| Career.TaskBonuses | utt/model.py:83 | exactly the bonuses recorded for the task |
| Career.ReadingsOf | utt/career.py:100 | exactly the readings of the batch |
| Career.ReadingFactors | utt/career.py:100 | one factor per reading, or the error of some reading |
| Career.FactorsOf | utt/career.py:100 | the generator loop: one value per reading, each that reading's factor, or the error of some reading |
| Career.CollectFactors | utt/career.py:94-101 | the stations reported are exactly those that pass the filter |
| Career.CollectFactorsValues | utt/career.py:99-101 | each reported station's value is its computed factor |
| Career.SystemFactors | utt/career.py:88-103 | no station named exactly as submitted is included, and a station of the system is included iff it has a batch since the start of the day and another name than the submitted one |
| Career.SubmitterReportedUnderOtherCase | utt/career.py:94-99 | the exclusion compares exact names: the stored station "Abc", submitted as "abc" (which the case-blind `get_station` resolves to it), is reported with its own batch of today |
| Career.SystemFactorsValues | utt/career.py:99-101 | each included station's value is the maximum reading factor of its newest batch since the start of the day |
| Career.CompleteIffNoneMissing | utt/career.py:28-30 | the missing list is empty iff every mandatory attribute is present and truthy |
| Career.AddRejectsMissing | utt/career.py:28-32 | a request is rejected for missing attributes iff one is missing or falsy; the list is exactly those attributes and nothing is stored |
| Career.AddRejectsImproperName | utt/career.py:43-44 | a station name containing "Confined to the" or "Doing activity" is rejected before any write |
| Career.FinishRecorded | utt/career.py:80-105 | the batch factor is the maximum of the task factors, and one batch is appended with it at the request time. No station named exactly as submitted is among the system factors |
| Career.FinishBaselines | utt/career.py:94-105 | the stored baselines are the loop's, except that a task read by `system_factors` that had no baseline now holds its least recorded bonus; only such tasks change |
| Career.CacheBaselines | utt/model.py:81-88 | computing factors keeps every existing baseline and gives each task read without one its least recorded bonus; no other task changes |
| Career.CachedBaselinesKeepFactors | utt/model.py:81-90 | a cached baseline gives every reading the same factor as the fallback computed without it |
| Career.ReportedReadings | utt/career.py:94-100 | exactly the readings of the newest batch of today of each reported station |
| Career.AddBaselines | utt/career.py:60-71 | after a submission no baseline has increased, and each submitted task's baseline is exactly the lesser of its stored baseline and `float` of the last value given for it (that value when none was stored) |
| Career.AddFactor | utt/career.py:58-86 | the answered factor is the greatest of `float` of each submitted value over its task's stored baseline, and one task attains it |
| Career.AddFactorAtLeastOne | utt/career.py:70-81 | when every submitted task's value converts to a positive float and the stored baselines are positive, the batch factor is at least 1 |
| Career.FindSystemById | utt/career.py:127 | the system found has the station's system id; none iff no system has it |
| Career.FreshBatch | utt/career.py:122-126 | the batch used for a station is its latest factor-bearing batch, at most 6 hours old; there is none exactly when every factor-bearing batch of the station is older than 6 hours |
| Career.FreshLines | utt/career.py:121-127 | the summary lines are exactly those of stations with a fresh factor-bearing batch |
| Career.SummaryLines | utt/career.py:110-133 | a missing token or a token without read permission fails the assertion; the lines are those of fresh stations, sorted by system, then station |
| Gct.RoundUnits | utt/gct.py:17 | adding 0.5 and truncating rounds to the nearest unit, with halves rounded up for non-negative values |
| Gct.ParseIgnoresTail | utt/gct.py:8-9 | text after the first 13 characters never changes the result, because the match is anchored only at the start |
| Gct.NatStrValue | utt/gct.py:17 | the decimal string of a count is all digits and reads back as the count |
| Gct.LayoutTen | utt/gct.py:18-20 | a ten-digit string is split as 3 digits, '.', 2, '/', 2, ':', 3 |
| Gct.LayoutShape | utt/gct.py:18-20 | the formatted ten-digit string has the DDD.DD/DD:DDD shape and its digits are the input's |
| Gct.ParseLayout | utt/gct.py:6-20 | parsing a formatted ten-digit string gives back its value |
| Gct.FormatParseRoundTrip | utt/gct.py:6-20 | parsing the formatted count succeeds iff the count has exactly ten digits, and then returns the count |
| Gct.LayoutRejected | utt/gct.py:6 | a formatted digit string of any other length does not match the pattern |
| Gct.NegativeRejected | utt/gct.py:17-20 | a negative count never formats to a parsable string |
| Gct.ParseSplits | utt/gct.py:11-12 | the parsed value is days × 100000 + u, with days the five digits around the dot and u < 100000 the five digits around the colon |
| Gct.ParseInjective | utt/gct.py:6-13 | two matching strings with the same value have the same stamp |
| Gct.ParseFormatRoundTrip | utt/gct.py:8-20 | formatting a parsed value of ten digits gives back the parsed stamp |
| FitTransfer.Assign | station-pair-import.py:19-20 | each assigned field takes the record's value and every other field keeps its value |
| FitTransfer.FullFits | station-pair-export.py:11-12 | the pairs exported are exactly those with all four fit fields |
| FitTransfer.FullFitsSorted | station-pair-export.py:11-12 | filtering keeps the id order |
| FitTransfer.ToRecord | station-pair-export.py:13-19 | a record has the pair's id and exactly the four fit fields, copied unchanged |
| FitTransfer.Export | station-pair-export.py:9-19 | every exported record has an id and exactly the four fit fields |
| FitTransfer.ExportSound | station-pair-export.py:11-19 | every record comes from a fully fitted pair |
| FitTransfer.ExportComplete | station-pair-export.py:11-19 | every fully fitted pair is exported |
| FitTransfer.ExportAscending | station-pair-export.py:11 | the records come out in strictly ascending id order |
| FitTransfer.FindIndex | station-pair-import.py:16 | the first pair with the id, or none iff no pair has it |
| FitTransfer.ApplyRecord | station-pair-import.py:16-20 | the ids and stations of all pairs are kept; other pairs are unchanged; the matching pair gets the record's fields |
| FitTransfer.Import | station-pair-import.py:15-20 | import fails with KeyError iff some record has no id, and otherwise never changes ids or stations |
| FitTransfer.ImportLastWriteWins | station-pair-import.py:15-20 | each field ends with the value of the last record for the pair that sets it, or keeps its value |
| FitTransfer.ImportUntouched | station-pair-import.py:15-20 | a pair that no record names is unchanged |
| FitTransfer.ImportSkipsUnknown | station-pair-import.py:16-18 | a record for an unknown id has no effect |
| FitTransfer.ExportImportRoundTrip | station-pair-import.py:15-20 | importing an export restores the fit of every fully fitted pair and leaves all other pairs unchanged |
| Payload.Lookup | utt/vendor.py:43 | a key is absent iff no entry has it; otherwise the value is the last entry with the key |
| Payload.Field | utt/vendor.py:26-32 | reading a payload key succeeds iff the key is present, and otherwise raises KeyError |
| Payload.ToFloat | utt/career.py:61 | `float` succeeds on numbers, booleans and the strings `parse` reads; other strings raise ValueError and other values TypeError |
| Payload.Items | utt/career.py:60 | the decoded dict's items have distinct keys, the same keys as the object, and each key's value is that of its last entry |
| Payload.RepeatedKeyKeepsLast | utt/career.py:60 | a key given twice appears once, with the second value |
| Vendors.CollectSlugs | utt/vendor.py:43 | the slug set is exactly the slugs of the items, duplicates collapsed; it fails with the error of the first item without a string slug |
| Vendors.Slugs | utt/vendor.py:43-45 | 'vip-3' is never in the slug set, which otherwise holds exactly the items' slugs |
| Vendors.SlugsOrderFree | utt/vendor.py:43 | item order and repetition do not change the slug set |
| Vendors.FindVendor | utt/vendor.py:34 | the vendor found has the station and the name; none iff no vendor matches |
| Vendors.VendorFor | utt/vendor.py:34-41 | a vendor is created iff none with the name exists at the station; it gets a fresh id and is appended, otherwise the vendors are unchanged |
| Vendors.Latest | utt/vendor.py:57-58 | the latest inventory belongs to the vendor and has the greatest last_seen, the first such on ties; none iff the vendor has no inventory |
| Vendors.LatestIsNewest | utt/vendor.py:57-58 | an inventory newer than all others of the vendor is the latest |
| Vendors.PrepareFields | utt/vendor.py:25-45 | a prepared request read the token, the system, station, vendor and inventory fields, resolved the station, and created the vendor iff it was missing |
| Vendors.PrepareAgain | utt/vendor.py:31-45 | repeating the request on the resulting store finds the same station and vendor and creates nothing |
| Vendors.AddUnknownItems | utt/vendor.py:47-55 | the request is not recorded iff some slug is unknown; then the unknown list is exactly those slugs and nothing is stored |
| Vendors.AddMessages | utt/vendor.py:36-83 | the reply starts with "Vendor created." iff the vendor was created, and ends with the timestamp or new-inventory message |
| Vendors.AddRefreshesLatest | utt/vendor.py:62-65 | when the latest inventory has the same slug set, only its last_seen changes |
| Vendors.AddNewInventory | utt/vendor.py:66-79 | otherwise one new inventory with a fresh id and first_seen = last_seen = now is appended, with exactly one item row per slug |
| Vendors.FreshItemRows | utt/vendor.py:75-79 | the rows added for a fresh inventory give back exactly its slug set |
| Vendors.AddPreservesValid | utt/vendor.py:23-83 | every item row still belongs to an inventory and every inventory to a vendor |
| Vendors.StorePreservesValid | utt/vendor.py:60-79 | refreshing or recording an inventory keeps the rows referring to existing inventories and vendors |
| Vendors.AddRepeatedRefreshes | utt/vendor.py:57-65 | repeating a recorded request only refreshes the timestamp: the reply is the timestamp message alone and no row is added |
| CorrelationReport.MinDt | vendor-fuel-correlation-report.py:31-36 | a non-empty list yields a member that is at most every element and loses its first element; an empty one raises IndexError |
| CorrelationReport.MaxDt | vendor-fuel-correlation-report.py:37-42 | a non-empty list yields a member that is at least every element and loses its first element; an empty one raises IndexError |
| CorrelationReport.Greatest | vendor-fuel-correlation-report.py:37-42 | the greatest element is a member that bounds every element |
| CorrelationReport.FuelSince | vendor-fuel-correlation-report.py:66-69 | exactly the station's fuel readings since the first date |
| CorrelationReport.DayKeys | vendor-fuel-correlation-report.py:78-82 | the days grouped are exactly the days of the readings |
| CorrelationReport.FirstWhere | vendor-fuel-correlation-report.py:84-97 | the first day that passes the check, or none iff no day passes |
| CorrelationReport.ChooseNewest | vendor-fuel-correlation-report.py:84-97 | trying the days newest first picks a reading's day that passes, and no newer reading's day passes |
| CorrelationReport.StationFirstDate | vendor-fuel-correlation-report.py:64 | first_date is the latest first_seen among the station's current inventories |
| CorrelationReport.StationDayChoice | vendor-fuel-correlation-report.py:84-117 | missing_data iff no fuel-reading day since first_date has full prices; otherwise the chosen day has full prices and a reading, and no newer reading day does |
| CorrelationReport.PricesOf | vendor-fuel-correlation-report.py:111 | the prices hold exactly the slugs with a credit price read for the inventory's items on the day |
| CorrelationReport.VendorPrices | vendor-fuel-correlation-report.py:103-112 | there is one price table for each vendor name among the inventories |
| CorrelationReport.Report | vendor-fuel-correlation-report.py:49-56 | one record per station that has current inventories |
| CorrelationReport.ReportCovers | vendor-fuel-correlation-report.py:49-56 | every station with a current inventory has a record |
| CorrelationReport.ReportDistinct | vendor-fuel-correlation-report.py:50-56 | no station has two records |
| CorrelationReport.ReportGroups | vendor-fuel-correlation-report.py:49-56 | each record is computed from exactly that station's inventories |
| CorrelationReport.CountAcceptsGap | vendor-fuel-correlation-report.py:88-94 | the check counts rows rather than items, so two readings of one item pass for an inventory of two items when the other has no reading |

## Left out

- Curve fitting and spectra are floating-point library calls and are left out: Lomb–Scargle (`autofit.py:52`), `curve_fit` (`autofit.py:65`), `leastsq` (`analzye-system.py:99`), `np.std` and `cos`. The power spectrum is a parameter of `Autofit.BestPeriod`, and the fit result is a parameter of `Autofit.Distances` and `Autofit.Save`.
- Plotting, printing, the `input` prompts and PrettyTable output are user interface and are left out. The human answers (the period count, the write confirmation) are parameters.
- Item price scraping (`_get_minmax`, `get_minmax`), its cache, the URL fetch and `write_fuel_prices` are network and database I/O. The price range of a slug is the oracle `minmax`.
- The `--write` flag and the store writes of `analzye-system.py` are I/O and are left out. The radius and period tables they would write are the model's results.
- Token verification, `record_script_version`, session commits and the Flask request and response plumbing are left out. A verified token is an input (`Career.Add`'s character, `Vendors.Prepare`'s token result).
- Clocks and time zones are parameters:
  - `now()` and `datetime.utcnow()`;
  - `today_datetime()`;
  - the Europe/Paris day of a timestamp (`dayOf`).
- The GCT epoch (`catastrophe`) and the 0.864 s per unit scaling are left out. GCT is modelled on whole units since the epoch, and `as_gct` from the unit count onward.
- Python's grammar of numeric strings is left out: `float` on a string is the parameter `parse`, and `Payload.ToFloat` raises ValueError exactly where `parse` rejects.
- Model.Factor: the fallback baseline is returned with the factor. `Career.Finish` stores the baselines the factors of `system_factors` cache (`Career.CacheBaselines`). The factors themselves are computed against the baselines before caching, which gives the same values (`Career.CachedBaselinesKeepFactors`).
- Model.GetStation: IntegrityError is raised when the clashing station is created. The program raises it at the session's next flush, which in `add_vendory_inventory` is the vendor query that follows.
- Career.Add: a new station whose name another system already uses raises IntegrityError as soon as it is created. The program raises it at the first task query, so a task list that fails before that (a bonus that is not a number, or `tasks` that is not an object) reports its own error instead. Either way the request fails and nothing is stored.
- Career.Add: a non-string station name raises TypeError once the token is accepted. In Python a list or object passes the phrase test and fails with AttributeError in `get_station`.
- FitTransfer.Import models the fit attributes only. A record's other keys would be set as arbitrary attributes by `setattr`, which has no counterpart in the model.
- Ties among rows that SQL would return in unspecified order are resolved to the first row in table order. This affects `first()` after `order_by(last_seen.desc())` and `order_by(when.desc())` (`Vendors.Latest`, `Career.Latest`).
- SystemFit.CollectRelativeLast: the pairs are taken in the order the query returns them, which SQL leaves unspecified. "Last" refers to that order.
- Model.FindSystem: case folding maps only the ASCII letters A–Z. `str.lower()` also folds other letters, such as "É", and can lengthen a string. Unicode case tables are not modelled.
- Model.FindStation: the `name_lower` it compares comes from the same ASCII-only lower-casing, so non-ASCII names differing only in case are treated as different stations.
- FuelStrategy.NarrowCombosDistinct: station combinations are compared as sets. The program compares them as names joined by "++", which can coincide for different sets when a station name contains "++" (`{"a++b", "c"}` and `{"a", "b++c"}`). `FuelStrategy.Narrow` shares this.
- FuelStrategy.GetFuelPrices: the order of the result loop is the parameter `visit`, a permutation of the stations. The program sorts the stations of a set by interval midpoint, which leaves the order of unbounded intervals (midpoint NaN or infinite) unspecified. When several stations' guesses fail, the error raised is that of the first one in `visit`.
- Names must be strings. A non-string system or station name raises AttributeError (`Vendors.NameArg`); the handlers' behaviour on other JSON types is not distinguished further.
- Vendors.Slugs: a non-string slug is a TypeError. In Python a numeric slug is hashable and would only fail at the item lookup.
- Vendors.Prepare: the vendor name must be a string, and a non-string one is a TypeError; the ORM would store whatever it is given.
- `VendorInventory.item_slugs` and the `Item`, `Vendor`, `VendorInventory` and `VendorItemPriceReading` classes are not part of this model. An inventory's slug set is taken as the slugs of its item rows, and the known items are a set of slugs.
- CorrelationReport.StationReport returns the fuel prices of the chosen day rather than their `np.median`, which is a floating-point library call.
- The report's debug output, the station's name, system and short display fields, and the JSON dump are left out. The `desc` ordering of the fuel query does not affect the chosen day and is left out too.
- `summary` formats each factor to two decimals. The model keeps the line's fields (factor, system, station) instead of the formatted text.
- `career_stats_by_player`, `career_station_needs_update`, `career_overview` and `system_career_graph` are read-only views. They are outside the modelled core.
- SystemFit.Residuals: where numpy would produce inf or nan (a zero period, equal periods, a zero radius) the model returns None rather than a floating-point infinity.
- Intervals: ±∞ and NaN are modelled only as far as `Interval` needs them (`Intervals.Add`). Other float edge cases such as overflow and signed zero are not modelled.

## Findings

| source | as written | input that shows it | evidently intended | confidence | as-written member | corrected member |
|---|---|---|---|---|---|---|
| run-fuel-price-strategy.py:115-123 | `median` reads `numbers[l // 2 + 1]`, one past the middle, and for even lengths averages the upper middle with the element after it | `[1.0, 2.0, 3.0]` returns 3.0; the two close prices `[10.0, 10.1]` (a winning streak of two) raise IndexError; an empty list raises IndexError, which ends `get_fuel_prices` for any station whose slugs are all ambiguous | the middle element for odd lengths, the mean of the two middle elements for even lengths | not executed | MostCommon.MedianAsWritten, MostCommon.MedianAsWrittenMissesMiddle, MostCommon.TwoClosePricesRaise, FuelStrategy.AmbiguousStationEndsRun | MostCommon.Median, MostCommon.FindMostCommonNumberIsMedian, FuelStrategy.StationPriceGuessedCorrected |
| autofit.py:25 | each reading's time is converted with `as_gct(reading.when, format=False)`, but `as_gct` (utt/gct.py:15) takes the single parameter `dt` | any pair with at least one reading: the first iteration raises TypeError (an unexpected keyword argument), so the script never reaches a fit; with no readings, `min(y)` raises ValueError | `x` is the reading's time as a number of GCT units since the epoch, as the unformatted form of `as_gct` | not executed | Autofit.InitialShapeAsWritten | Autofit.InitialShape, Autofit.InitialShapeSpansReadings |

=== FILE: autofit.dfy ===
/** autofit.py: fitting one station pair's distance curve. The readings give
    squared distances over time; the script seeds a period, a baseline and an
    amplitude, refines the period on a Lomb-Scargle frequency grid, fits
    `cos(x * 2 pi / period + phase) * amplitude + baseline` within bounds, and
    on confirmation stores the fit with the phase brought into [0, 2 pi].
    The spectrum, the least-squares fit, `cos` and `sqrt` are parameters:
    their values are passed in together with the facts the model needs about
    them. */
module Autofit {
  import opened Wrappers
  import opened Numeric
  import opened Model

  /** `np.pi` and `tau = 2 * np.pi` as the doubles they are. */
  const Pi: real := 3.141592653589793
  const Tau: real := 6.283185307179586

  /** Points of the frequency grid. */
  const GridSize: nat := 800

  /** What `f` returns in the region `amplitude > baseline`. */
  const Sentinel: real := 100000000000000000000.0

  /** One stored distance reading: its GCT time in units and its distance. */
  datatype Reading = Reading(x: real, distanceKm: int)

  /** The four parameters in the order `curve_fit` sees them. */
  datatype Params = Params(period: real, amplitude: real, baseline: real, phase: real)

  /** A period seed and the factor the frequency grid extends by on either
      side of it. */
  datatype Seed = Seed(period: real, fudge: real)

  function Xs(rs: seq<Reading>): (r: seq<real>)
    ensures |r| == |rs|
    ensures forall i :: 0 <= i < |rs| ==> r[i] == rs[i].x
  {
    seq(|rs|, i requires 0 <= i < |rs| => rs[i].x)
  }

  /** `y`: the squared distances. */
  function Ys(rs: seq<Reading>): (r: seq<real>)
    ensures |r| == |rs|
    ensures forall i :: 0 <= i < |rs| ==> r[i] == Square(rs[i].distanceKm as real)
  {
    seq(|rs|, i requires 0 <= i < |rs| => Square(rs[i].distanceKm as real))
  }

  /** The initial baseline and amplitude: the middle and half-range of the
      squared distances, replaced by the pair's stored fit when both of its
      distances are present. `min(y)` of no readings raises ValueError
      first. */
  function InitialShape(rs: seq<Reading>, pair: StationPair): (r: Result<(real, real)>)
    ensures r.Raise? <==> rs == []
    ensures r.Raise? ==> r.error == ValueError
    ensures r.Ok? && BaselineAmplitudePair(pair).Some? ==> r.value == BaselineAmplitudePair(pair).value
  {
    var y := Ys(rs);
    if y == [] then Raise(ValueError)
    else
      var (minY, maxY) := (MinOf(y), MaxOf(y));
      if pair.fit.minDistance.Some? && pair.fit.maxDistance.Some? then Ok(BaselineAmplitudePair(pair).value)
      else Ok(((minY + maxY) / 2.0, (maxY - minY) / 2.0))
  }

  /** The start of the script as written. The loop calls
      `as_gct(reading.when, format=False)`, but `as_gct` has the single
      parameter `dt`, so the first reading raises TypeError; with no
      readings the loop ends and `min(y)` raises ValueError. The script stops
      with an error for every pair, and with TypeError exactly where
      `InitialShape`, which takes `x` to be the unit count since the GCT
      epoch, starts a fit. */
  function InitialShapeAsWritten(rs: seq<Reading>, pair: StationPair): (r: Result<(real, real)>)
    ensures r.Raise?
    ensures r.error == TypeError <==> InitialShape(rs, pair).Ok?
    ensures r.error != TypeError ==> r == InitialShape(rs, pair)
  {
    if rs != [] then Raise(TypeError)
    else InitialShape(rs, pair)
  }

  /** Without stored distances the initial curve spans the readings exactly:
      `baseline - amplitude` is the least squared distance, `baseline +
      amplitude` the greatest, and the amplitude is not negative. */
  lemma InitialShapeSpansReadings(rs: seq<Reading>, pair: StationPair)
    requires rs != [] && BaselineAmplitudePair(pair).None?
    ensures var (baseline, amplitude) := InitialShape(rs, pair).value;
      && baseline - amplitude == MinOf(Ys(rs))
      && baseline + amplitude == MaxOf(Ys(rs))
      && amplitude >= 0.0
      && forall i :: 0 <= i < |rs| ==> baseline - amplitude <= Square(rs[i].distanceKm as real) <= baseline + amplitude
  {
    var y := Ys(rs);
    assert MinOf(y) <= y[0] <= MaxOf(y);
  }

  /** The period seed and the grid's fudge factor: a stored non-zero period
      with factor 2, or else the span of the readings over the number of
      periods the user counted, with factor 10. */
  function PeriodSeed(storedPeriod: Option<real>, rs: seq<Reading>, countPeriods: real): (r: Result<Seed>)
    requires rs != []
    ensures r.Raise? <==> (storedPeriod.None? || storedPeriod.value == 0.0) && countPeriods == 0.0
    ensures r.Raise? ==> r.error == ZeroDivisionError
    ensures r.Ok? && storedPeriod.Some? && storedPeriod.value != 0.0 ==> r.value == Seed(storedPeriod.value, 2.0)
  {
    if storedPeriod.Some? && storedPeriod.value != 0.0 then Ok(Seed(storedPeriod.value, 2.0))
    else if countPeriods == 0.0 then Raise(ZeroDivisionError)
    else
      Ok(Seed(PerPeriod(Span(Xs(rs)), countPeriods), 10.0))
  }

  /** Without a stored period, the seed times the number of periods counted
      is the span of the readings, and the grid is ten times wider. */
  lemma PeriodSeedFromSpan(storedPeriod: Option<real>, rs: seq<Reading>, countPeriods: real)
    requires rs != [] && PeriodSeed(storedPeriod, rs, countPeriods).Ok?
    requires storedPeriod.None? || storedPeriod.value == 0.0
    ensures PeriodSeed(storedPeriod, rs, countPeriods).value.fudge == 10.0
    ensures PeriodSeed(storedPeriod, rs, countPeriods).value.period * countPeriods == Span(Xs(rs))
  {
    var seed := PeriodSeed(storedPeriod, rs, countPeriods).value;
    assert seed == Seed(PerPeriod(Span(Xs(rs)), countPeriods), 10.0);
    PerPeriodTimesCount(seed.period, Span(Xs(rs)), countPeriods);
  }

  lemma PerPeriodTimesCount(p: real, span: real, count: real)
    requires count != 0.0 && p == PerPeriod(span, count)
    ensures p * count == span
  {
  }

  /** `max(x) - min(x)`. */
  function Span(xs: seq<real>): (r: real)
    requires xs != []
    ensures r >= 0.0
    ensures forall i, j :: 0 <= i < |xs| && 0 <= j < |xs| ==> xs[i] - xs[j] <= r
  {
    MaxOf(xs) - MinOf(xs)
  }

  /** `span / count`. */
  function PerPeriod(span: real, count: real): (r: real)
    requires count != 0.0
    ensures r * count == span
  {
    span / count
  }

  /** `pair.fit_phase or 0.0`. */
  function InitialPhase(stored: Option<real>): (r: real)
    ensures stored.Some? ==> r == stored.value
    ensures stored.None? ==> r == 0.0
  {
    if stored.Some? then stored.value else 0.0
  }

  /** The 800 frequencies from `est_freq / fudge` to `est_freq * fudge`,
      `est_freq = 1 / period`. */
  function Frequencies(period: real, fudge: real): (r: Result<seq<real>>)
    requires fudge > 0.0
    ensures r.Raise? <==> period == 0.0
    ensures r.Raise? ==> r.error == ZeroDivisionError
    ensures r.Ok? ==> |r.value| == GridSize
    ensures r.Ok? ==> r.value[0] == (1.0 / period) / fudge && r.value[GridSize - 1] == (1.0 / period) * fudge
  {
    if period == 0.0 then Raise(ZeroDivisionError)
    else
      var est := 1.0 / period;
      Ok(Linspace(est / fudge, est * fudge, GridSize))
  }

  /** For a positive period and a fudge factor of at least 1 every
      frequency of the grid lies between the two ends. */
  lemma FrequenciesInRange(period: real, fudge: real)
    requires period > 0.0 && fudge >= 1.0
    ensures var freqs := Frequencies(period, fudge).value;
      forall i :: 0 <= i < |freqs| ==> (1.0 / period) / fudge <= freqs[i] <= (1.0 / period) * fudge
  {
    var est := 1.0 / period;
    assert est / fudge <= est <= est * fudge by {
      DivideShrinks(est, fudge);
      MulGrows(est, fudge);
    }
  }

  lemma DivideShrinks(x: real, f: real)
    requires x > 0.0 && f >= 1.0
    ensures 0.0 < x / f <= x
  {
  }

  lemma MulGrows(x: real, f: real)
    requires x > 0.0 && f >= 1.0
    ensures x <= x * f
  {
    MulMonotone(1.0, f, x);
  }

  /** `np.argmax`: the first index of a greatest value. */
  function ArgMax(xs: seq<real>): (r: nat)
    requires |xs| > 0
    ensures r < |xs|
    ensures forall i :: 0 <= i < |xs| ==> xs[i] <= xs[r]
    ensures forall i :: 0 <= i < r ==> xs[i] < xs[r]
  {
    if |xs| == 1 then 0
    else
      var r := ArgMax(xs[..|xs| - 1]);
      assert forall i :: 0 <= i < |xs| - 1 ==> xs[..|xs| - 1][i] == xs[i];
      if xs[|xs| - 1] > xs[r] then |xs| - 1 else r
  }

  /** The period the Lomb-Scargle power selects: the reciprocal of the
      frequency of greatest power (the spectrum is a parameter). Python's
      `1/f` raises ZeroDivisionError on a zero float, where numpy would give
      inf. The branch is not taken on the grid `Frequencies` builds for a
      positive period, whose frequencies are all positive
      (`BestPeriodNearSeed`). */
  function BestPeriod(freqs: seq<real>, power: seq<real>): (r: Result<real>)
    requires |freqs| > 0 && |power| == |freqs|
    ensures r.Raise? <==> freqs[ArgMax(power)] == 0.0
    ensures r.Raise? ==> r.error == ZeroDivisionError
    ensures r.Ok? ==> r.value * freqs[ArgMax(power)] == 1.0
  {
    var f := freqs[ArgMax(power)];
    if f == 0.0 then Raise(ZeroDivisionError) else Ok(1.0 / f)
  }

  /** The refined period stays within a factor `fudge` of the seed: at most
      2x away from a stored period, 10x from a counted one. */
  lemma BestPeriodNearSeed(period: real, fudge: real, power: seq<real>)
    requires period > 0.0 && fudge >= 1.0
    requires |power| == GridSize
    ensures var freqs := Frequencies(period, fudge).value;
      && BestPeriod(freqs, power).Ok?
      && period / fudge <= BestPeriod(freqs, power).value <= period * fudge
  {
    var freqs := Frequencies(period, fudge).value;
    FrequenciesInRange(period, fudge);
    var f := freqs[ArgMax(power)];
    ReciprocalWithin(period, fudge, f);
    assert BestPeriod(freqs, power) == Ok(1.0 / f);
  }

  /** A frequency within a factor `fudge` of `1 / period` is the reciprocal
      of a period within a factor `fudge` of `period`. */
  lemma ReciprocalWithin(period: real, fudge: real, f: real)
    requires period > 0.0 && fudge >= 1.0
    requires (1.0 / period) / fudge <= f <= (1.0 / period) * fudge
    ensures f > 0.0
    ensures period / fudge <= 1.0 / f <= period * fudge
  {
    var est := 1.0 / period;
    DivideShrinks(est, fudge);
    ReciprocalAntitone(est / fudge, f);
    ReciprocalAntitone(f, est * fudge);
    ReciprocalOfRatio(period, fudge);
  }

  lemma ReciprocalOfRatio(period: real, fudge: real)
    requires period > 0.0 && fudge > 0.0
    ensures 1.0 / ((1.0 / period) / fudge) == period * fudge
    ensures 1.0 / ((1.0 / period) * fudge) == period / fudge
  {
  }

  lemma ReciprocalAntitone(a: real, b: real)
    requires 0.0 < a <= b
    ensures 1.0 / b <= 1.0 / a
  {
  }

  /** `initial`, `lower` and `upper` as passed to `curve_fit`. */
  function Initial(p: Params): seq<real>
  {
    [p.period, p.amplitude, p.baseline, p.phase]
  }

  function Lower(p: Params): seq<real>
  {
    [0.5 * p.period, 0.8 * p.amplitude, 0.5 * p.baseline, -21.0 * Pi]
  }

  function Upper(p: Params): seq<real>
  {
    [2.0 * p.period, 10.0 * p.amplitude, 10.0 * p.baseline, 21.0 * Pi]
  }

  /** The initial guess lies within the bounds exactly when period,
      amplitude and baseline are not negative and the phase is within
      21 pi of zero; the bounds are strictly ordered exactly when the first
      three are positive. */
  lemma BoundsContainInitial(p: Params)
    ensures |Lower(p)| == |Initial(p)| == |Upper(p)| == 4
    ensures (forall k :: 0 <= k < 4 ==> Lower(p)[k] <= Initial(p)[k] <= Upper(p)[k]) <==>
      p.period >= 0.0 && p.amplitude >= 0.0 && p.baseline >= 0.0 && -21.0 * Pi <= p.phase <= 21.0 * Pi
    ensures (forall k :: 0 <= k < 4 ==> Lower(p)[k] < Upper(p)[k]) <==>
      p.period > 0.0 && p.amplitude > 0.0 && p.baseline > 0.0
  {
    if forall k :: 0 <= k < 4 ==> Lower(p)[k] <= Initial(p)[k] <= Upper(p)[k] {
      assert Lower(p)[0] <= Initial(p)[0] && Lower(p)[1] <= Initial(p)[1] && Lower(p)[2] <= Initial(p)[2];
      assert Lower(p)[3] <= Initial(p)[3] <= Upper(p)[3];
    }
    if forall k :: 0 <= k < 4 ==> Lower(p)[k] < Upper(p)[k] {
      assert Lower(p)[0] < Upper(p)[0] && Lower(p)[1] < Upper(p)[1] && Lower(p)[2] < Upper(p)[2];
    }
  }

  /** The fitted model at one point, given `cos` of the point's angle: the
      sentinel wherever the amplitude exceeds the baseline. */
  function ModelValue(cosine: real, amplitude: real, baseline: real): (r: real)
    ensures amplitude > baseline ==> r == Sentinel
    ensures amplitude <= baseline && 0.0 <= amplitude && -1.0 <= cosine <= 1.0 ==>
      baseline - amplitude <= r <= baseline + amplitude
    ensures amplitude <= baseline && 0.0 <= amplitude ==> r >= 0.0 || cosine < -1.0
  {
    if amplitude > baseline then Sentinel
    else
      CosineScaled(cosine, amplitude);
      cosine * amplitude + baseline
  }

  lemma CosineScaled(c: real, a: real)
    ensures a >= 0.0 && -1.0 <= c <= 1.0 ==> -a <= c * a <= a
    ensures a >= 0.0 && c >= -1.0 ==> c * a >= -a
  {
    if a >= 0.0 && c >= -1.0 {
      MulMonotone(-1.0, c, a);
      if c <= 1.0 {
        MulMonotone(c, 1.0, a);
      }
    }
  }

  /** `math.sqrt(x)` given the square root the caller computed: ValueError
      on a negative argument. */
  function Sqrt(x: real, root: real): (r: Result<real>)
    requires x >= 0.0 ==> IsSqrt(root, x)
    ensures r.Ok? <==> x >= 0.0
    ensures r.Ok? ==> IsSqrt(r.value, x)
    ensures r.Raise? ==> r.error == ValueError
  {
    if x < 0.0 then Raise(ValueError) else Ok(root)
  }

  /** `min_distance` and `max_distance` of the fitted baseline and amplitude. */
  function Distances(fit: Params, lowRoot: real, highRoot: real): (r: Result<(real, real)>)
    requires fit.baseline - fit.amplitude >= 0.0 ==> IsSqrt(lowRoot, fit.baseline - fit.amplitude)
    requires fit.baseline + fit.amplitude >= 0.0 ==> IsSqrt(highRoot, fit.baseline + fit.amplitude)
    ensures r.Ok? <==> -fit.baseline <= fit.amplitude <= fit.baseline
    ensures r.Raise? ==> r.error == ValueError
  {
    var minD :- Sqrt(fit.baseline - fit.amplitude, lowRoot);
    var maxD :- Sqrt(fit.baseline + fit.amplitude, highRoot);
    Ok((minD, maxD))
  }

  /** Both distances are non-negative, and with a non-negative amplitude
      the minimum does not exceed the maximum. */
  lemma DistancesOrdered(fit: Params, lowRoot: real, highRoot: real)
    requires fit.baseline - fit.amplitude >= 0.0 ==> IsSqrt(lowRoot, fit.baseline - fit.amplitude)
    requires fit.baseline + fit.amplitude >= 0.0 ==> IsSqrt(highRoot, fit.baseline + fit.amplitude)
    requires Distances(fit, lowRoot, highRoot).Ok?
    ensures var (minD, maxD) := Distances(fit, lowRoot, highRoot).value;
      && minD >= 0.0 && maxD >= 0.0
      && Square(minD) == fit.baseline - fit.amplitude && Square(maxD) == fit.baseline + fit.amplitude
      && (fit.amplitude >= 0.0 ==> minD <= maxD)
  {
    var (minD, maxD) := Distances(fit, lowRoot, highRoot).value;
    if fit.amplitude >= 0.0 && minD > maxD {
      SquareMonotone(maxD, minD);
    }
  }

  lemma SquareMonotone(a: real, b: real)
    requires 0.0 <= a < b
    ensures Square(a) < Square(b)
  {
    ProductMonotone(a, b);
  }

  lemma ProductMonotone(a: real, b: real)
    requires 0.0 <= a < b
    ensures a * a < b * b
  {
    MulPositive(b - a, b + a);
  }

  lemma MulPositive(x: real, y: real)
    requires x > 0.0 && y > 0.0
    ensures x * y > 0.0
  {
  }

  /** `phase` moved by a whole number of turns. */
  function Turned(phase: real, turns: int): real
  {
    phase + (turns as real) * Tau
  }

  /** The phase normalisation loops: subtract `tau` while the phase is above
      `tau`, then add it while the phase is negative. */
  method NormalizePhase(phase: real) returns (r: real, turns: int)
    ensures 0.0 <= r <= Tau
    ensures r == Turned(phase, turns)
    ensures 0.0 <= phase <= Tau ==> r == phase && turns == 0
  {
    r := phase;
    turns := 0;
    while r > Tau
      invariant r == phase + (turns as real) * Tau
      invariant phase <= Tau ==> turns == 0
      invariant phase >= 0.0 ==> r >= 0.0
      decreases r.Floor
    {
      r := r - Tau;
      turns := turns - 1;
    }
    while r < 0.0
      invariant r == phase + (turns as real) * Tau
      invariant r <= Tau
      invariant phase >= 0.0 ==> turns == 0 || phase > Tau
      invariant 0.0 <= phase <= Tau ==> r == phase
      decreases (-r).Floor
    {
      r := r + Tau;
      turns := turns + 1;
    }
  }

  /** The write gate: nothing changes unless the answer is exactly "y"; on
      "y" all four fit fields are set together, the phase normalised into
      [0, tau], and nothing else of the pair changes. */
  method Save(pair: StationPair, answer: string, fit: Params, minD: real, maxD: real) returns (saved: StationPair)
    ensures answer != "y" ==> saved == pair
    ensures answer == "y" ==>
      && saved.id == pair.id && saved.systemId == pair.systemId
      && saved.stationA == pair.stationA && saved.stationB == pair.stationB
      && HasFullFit(saved)
      && saved.fit.period == Some(fit.period)
      && saved.fit.minDistance == Some(minD) && saved.fit.maxDistance == Some(maxD)
      && 0.0 <= saved.fit.phase.value <= Tau
      && exists turns: int :: saved.fit.phase.value == Turned(fit.phase, turns)
  {
    if answer != "y" {
      return pair;
    }
    var phase, turns := NormalizePhase(fit.phase);
    saved := pair.(fit := Fit(Some(fit.period), Some(minD), Some(maxD), Some(phase)));
  }

  /** Distances saved from a fit give back that fit's baseline and
      amplitude, which is what the next run starts from. */
  lemma SavedShapeRoundTrip(pair: StationPair, fit: Params, lowRoot: real, highRoot: real, saved: StationPair)
    requires fit.baseline - fit.amplitude >= 0.0 ==> IsSqrt(lowRoot, fit.baseline - fit.amplitude)
    requires fit.baseline + fit.amplitude >= 0.0 ==> IsSqrt(highRoot, fit.baseline + fit.amplitude)
    requires Distances(fit, lowRoot, highRoot).Ok?
    requires saved.fit.minDistance == Some(Distances(fit, lowRoot, highRoot).value.0)
    requires saved.fit.maxDistance == Some(Distances(fit, lowRoot, highRoot).value.1)
    ensures BaselineAmplitudePair(saved) == Some((fit.baseline, fit.amplitude))
  {
    DistancesOrdered(fit, lowRoot, highRoot);
  }
}

=== FILE: career.dfy ===
/** The career-task handlers of utt/career.py: `career_task_add`, which
    validates a submission of task bonuses, keeps each task's bonus
    baseline and records a batch with its factor, and `summary`, which
    lists the fresh factors of all stations. The database is a value
    (`CareerState`); the token check, the clock and the start of today are
    parameters. */
module Career {
  import opened Wrappers
  import opened Payload
  import opened Strings
  import opened Numeric
  import opened Sorting
  import opened Model

  const Mandatory: set<string> := {"token", "station", "system", "career", "rank", "tasks"}

  /** The attributes reported missing: those mandatory ones the payload
      lacks or holds a falsy value for. */
  function Missing(payload: map<string, Json>): set<string>
  {
    set a | a in Mandatory && (a !in payload || Falsy(payload[a]))
  }

  // ------------------------------------------------------------ baselines

  /** A task's baseline column by name: `None` for an unknown task. */
  function Baseline(baselines: map<string, Option<real>>, task: string): Option<real>
  {
    if task in baselines then baselines[task] else None
  }

  /** The baseline after a reading of `bonus`: the bonus for a new task or
      one without a baseline, the lesser of the two otherwise. */
  function NewBaseline(stored: Option<real>, bonus: real): (b: real)
    ensures b <= bonus
    ensures stored.Some? ==> b <= stored.value
    ensures b == bonus || stored == Some(b)
  {
    if stored.Some? && !(stored.value > bonus) then stored.value else bonus
  }

  /** The outcome of the loop over the submitted tasks: the baselines after
      it, and per task in order its bonus and its reading's factor. */
  datatype TaskRun = TaskRun(baselines: map<string, Option<real>>, bonuses: seq<real>, factors: seq<real>)

  /** The task names of the items are pairwise distinct, as those of a
      dict's items are (`Payload.Items`). */
  predicate DistinctKeys(entries: seq<(string, Json)>)
  {
    forall i, j :: 0 <= i < j < |entries| ==> entries[i].0 != entries[j].0
  }

  /** Task `t` is among the submitted items. */
  predicate Submitted(entries: seq<(string, Json)>, t: string)
  {
    exists i :: 0 <= i < |entries| && entries[i].0 == t
  }

  /** After the loop, task `t` read at position `i` has the baseline
      `NewBaseline` gives from its stored one and the bonus, a non-zero
      one, and its reading's factor is the bonus over that baseline. */
  predicate TaskRecorded(before: map<string, Option<real>>, run: TaskRun, t: string, i: int)
  {
    && 0 <= i < |run.bonuses| && i < |run.factors|
    && var nb := NewBaseline(Baseline(before, t), run.bonuses[i]);
    && Baseline(run.baselines, t) == Some(nb)
    && nb != 0.0
    && run.factors[i] == run.bonuses[i] / nb
  }

  /** The loop over `payload['tasks'].items()`, given the dict's items
      (`Payload.Items`); `parse` is `float` on a string. Each task's
      baseline becomes the lesser of the stored one and its bonus (the
      bonus when there was none) and its reading's factor is the bonus over
      that baseline; tasks not submitted keep their baseline. */
  function RecordTasks(baselines: map<string, Option<real>>, entries: seq<(string, Json)>, parse: string -> Option<real>): (r: Result<TaskRun>)
    ensures r.Ok? ==> |r.value.bonuses| == |entries| && |r.value.factors| == |entries|
    ensures r.Ok? ==> forall t :: !Submitted(entries, t) ==> Baseline(r.value.baselines, t) == Baseline(baselines, t)
    ensures r.Ok? && DistinctKeys(entries) ==> forall i :: 0 <= i < |entries| ==> TaskRecorded(baselines, r.value, entries[i].0, i)
    decreases |entries|
  {
    if entries == [] then Ok(TaskRun(baselines, [], []))
    else
      var bonus :- ToFloat(entries[0].1, parse);
      var b := NewBaseline(Baseline(baselines, entries[0].0), bonus);
      var (f, _) :- Factor(bonus, Some(b), []);
      var rest :- RecordTasks(baselines[entries[0].0 := Some(b)], entries[1..], parse);
      RecordStep(baselines, entries, bonus, b, f, rest);
      Ok(TaskStep(bonus, f, rest))
  }

  /** The contract of `RecordTasks` carries over from the rest of the run
      to the whole: the first task's baseline is the one it set, since a
      later task has another name. */
  lemma RecordStep(baselines: map<string, Option<real>>, entries: seq<(string, Json)>, bonus: real, b: real, f: real, rest: TaskRun)
    requires entries != [] && b == NewBaseline(Baseline(baselines, entries[0].0), bonus) && b != 0.0 && f == bonus / b
    requires |rest.bonuses| == |entries| - 1 && |rest.factors| == |entries| - 1
    requires var next := baselines[entries[0].0 := Some(b)];
      && (forall t :: !Submitted(entries[1..], t) ==> Baseline(rest.baselines, t) == Baseline(next, t))
      && (DistinctKeys(entries[1..]) ==> forall i :: 0 <= i < |entries[1..]| ==> TaskRecorded(next, rest, entries[1..][i].0, i))
    ensures var run := TaskStep(bonus, f, rest);
      && (forall t :: !Submitted(entries, t) ==> Baseline(run.baselines, t) == Baseline(baselines, t))
      && (DistinctKeys(entries) ==> forall i :: 0 <= i < |entries| ==> TaskRecorded(baselines, run, entries[i].0, i))
  {
    var name := entries[0].0;
    var next := baselines[name := Some(b)];
    var run := TaskStep(bonus, f, rest);
    assert forall i :: 1 <= i < |entries| ==> entries[i] == entries[1..][i - 1];
    forall t | !Submitted(entries, t)
      ensures Baseline(run.baselines, t) == Baseline(baselines, t)
    {
      assert !Submitted(entries[1..], t) && t != name;
    }
    if DistinctKeys(entries) {
      assert DistinctKeys(entries[1..]);
      assert !Submitted(entries[1..], name);
      forall i | 0 <= i < |entries|
        ensures TaskRecorded(baselines, run, entries[i].0, i)
      {
        if i > 0 {
          assert TaskRecorded(next, rest, entries[1..][i - 1].0, i - 1);
          assert entries[i].0 != name;
        }
      }
    }
  }

  /** Baselines never increase; every task submitted ends with a baseline
      no greater than any bonus submitted for it, and no other task
      changes. With distinct task names each ends with exactly the lesser
      of its stored baseline and its bonus. */
  lemma {:induction false} RecordTasksBaselines(baselines: map<string, Option<real>>, entries: seq<(string, Json)>, parse: string -> Option<real>)
    requires RecordTasks(baselines, entries, parse).Ok?
    ensures var run := RecordTasks(baselines, entries, parse).value;
      && (forall t :: t in baselines && baselines[t].Some? ==>
            Baseline(run.baselines, t).Some? && Baseline(run.baselines, t).value <= baselines[t].value)
      && (forall i :: 0 <= i < |entries| ==>
            Baseline(run.baselines, entries[i].0).Some? && Baseline(run.baselines, entries[i].0).value <= run.bonuses[i])
      && (forall t :: (forall i :: 0 <= i < |entries| ==> entries[i].0 != t) ==> Baseline(run.baselines, t) == Baseline(baselines, t))
    ensures var run := RecordTasks(baselines, entries, parse).value;
      DistinctKeys(entries) ==> forall i :: 0 <= i < |entries| ==>
        Baseline(run.baselines, entries[i].0) == Some(NewBaseline(Baseline(baselines, entries[i].0), run.bonuses[i]))
    decreases |entries|
  {
    if entries != [] {
      var name := entries[0].0;
      var bonus := ToFloat(entries[0].1, parse).value;
      var b := NewBaseline(Baseline(baselines, name), bonus);
      var next := baselines[name := Some(b)];
      var f := Factor(bonus, Some(b), []).value.0;
      assert RecordTasks(baselines, entries, parse).value == TaskStep(bonus, f, RecordTasks(next, entries[1..], parse).value);
      RecordTasksBaselines(next, entries[1..], parse);
      StepBaselines(baselines, entries, bonus, b, f, RecordTasks(next, entries[1..], parse).value);
    }
  }

  /** The first task of a recorded run: its bonus comes first, and the
      rest of the run is recorded against the baselines it leaves. */
  lemma RecordTasksStep(baselines: map<string, Option<real>>, entries: seq<(string, Json)>, parse: string -> Option<real>)
    requires entries != [] && RecordTasks(baselines, entries, parse).Ok?
    ensures ToFloat(entries[0].1, parse).Ok?
    ensures var bonus := ToFloat(entries[0].1, parse).value;
      var next := baselines[entries[0].0 := Some(NewBaseline(Baseline(baselines, entries[0].0), bonus))];
      && RecordTasks(next, entries[1..], parse).Ok?
      && RecordTasks(baselines, entries, parse).value.bonuses == [bonus] + RecordTasks(next, entries[1..], parse).value.bonuses
  {
  }

  /** The first task's factor comes first in a recorded run. */
  lemma RecordTasksFactorStep(baselines: map<string, Option<real>>, entries: seq<(string, Json)>, parse: string -> Option<real>)
    requires entries != [] && RecordTasks(baselines, entries, parse).Ok?
    ensures ToFloat(entries[0].1, parse).Ok?
    ensures var bonus := ToFloat(entries[0].1, parse).value;
      var b := NewBaseline(Baseline(baselines, entries[0].0), bonus);
      && Factor(bonus, Some(b), []).Ok?
      && RecordTasks(baselines[entries[0].0 := Some(b)], entries[1..], parse).Ok?
      && RecordTasks(baselines, entries, parse).value.factors
         == [Factor(bonus, Some(b), []).value.0] + RecordTasks(baselines[entries[0].0 := Some(b)], entries[1..], parse).value.factors
  {
  }

  /** One step of the loop, given the rest's outcome. */
  function TaskStep(bonus: real, f: real, rest: TaskRun): TaskRun
  {
    TaskRun(rest.baselines, [bonus] + rest.bonuses, [f] + rest.factors)
  }

  lemma StepBaselines(baselines: map<string, Option<real>>, entries: seq<(string, Json)>, bonus: real, b: real, f: real, rest: TaskRun)
    requires entries != [] && b == NewBaseline(Baseline(baselines, entries[0].0), bonus)
    requires |rest.bonuses| == |entries| - 1
    requires var next := baselines[entries[0].0 := Some(b)];
      && (forall t :: t in next && next[t].Some? ==>
            Baseline(rest.baselines, t).Some? && Baseline(rest.baselines, t).value <= next[t].value)
      && (forall i :: 0 <= i < |entries| - 1 ==>
            Baseline(rest.baselines, entries[1..][i].0).Some? && Baseline(rest.baselines, entries[1..][i].0).value <= rest.bonuses[i])
      && (forall t :: (forall i :: 0 <= i < |entries| - 1 ==> entries[1..][i].0 != t) ==> Baseline(rest.baselines, t) == Baseline(next, t))
    ensures var run := TaskStep(bonus, f, rest);
      && (forall t :: t in baselines && baselines[t].Some? ==>
            Baseline(run.baselines, t).Some? && Baseline(run.baselines, t).value <= baselines[t].value)
      && (forall i :: 0 <= i < |entries| ==>
            Baseline(run.baselines, entries[i].0).Some? && Baseline(run.baselines, entries[i].0).value <= run.bonuses[i])
      && (forall t :: (forall i :: 0 <= i < |entries| ==> entries[i].0 != t) ==> Baseline(run.baselines, t) == Baseline(baselines, t))
  {
    var name := entries[0].0;
    var next := baselines[name := Some(b)];
    var run := TaskStep(bonus, f, rest);
    assert name in next && next[name] == Some(b);
    forall t | t in baselines && baselines[t].Some?
      ensures Baseline(run.baselines, t).Some? && Baseline(run.baselines, t).value <= baselines[t].value
    {
      assert t in next && next[t].Some? && next[t].value <= baselines[t].value;
    }
    forall i | 0 <= i < |entries|
      ensures Baseline(run.baselines, entries[i].0).Some? && Baseline(run.baselines, entries[i].0).value <= run.bonuses[i]
    {
      if i > 0 {
        assert entries[i] == entries[1..][i - 1];
      }
    }
    forall t | forall i :: 0 <= i < |entries| ==> entries[i].0 != t
      ensures Baseline(run.baselines, t) == Baseline(baselines, t)
    {
      assert forall i :: 0 <= i < |entries| - 1 ==> entries[1..][i].0 != t by {
        forall i | 0 <= i < |entries| - 1
          ensures entries[1..][i].0 != t
        {
          assert entries[1..][i] == entries[i + 1];
        }
      }
      assert name != t;
    }
  }

  /** With bonuses that `float` turns into positive numbers and positive
      stored baselines every reading's factor is at least 1, since its
      baseline is at most its bonus. */
  lemma {:induction false} RecordTasksFactorsAtLeastOne(baselines: map<string, Option<real>>, entries: seq<(string, Json)>, parse: string -> Option<real>)
    requires forall t :: t in baselines && baselines[t].Some? ==> baselines[t].value > 0.0
    requires forall i :: 0 <= i < |entries| ==> ToFloat(entries[i].1, parse).Ok? && ToFloat(entries[i].1, parse).value > 0.0
    ensures RecordTasks(baselines, entries, parse).Ok?
    ensures forall i :: 0 <= i < |entries| ==> RecordTasks(baselines, entries, parse).value.factors[i] >= 1.0
    decreases |entries|
  {
    if entries != [] {
      var name := entries[0].0;
      var bonus := ToFloat(entries[0].1, parse).value;
      var b := NewBaseline(Baseline(baselines, name), bonus);
      assert 0.0 < b <= bonus;
      FactorAtLeastOne(bonus, Some(b), []);
      var next := baselines[name := Some(b)];
      RecordTasksFactorsAtLeastOne(next, entries[1..], parse);
      assert forall i :: 1 <= i < |entries| ==> entries[i] == entries[1..][i - 1];
      RecordTasksFactorStep(baselines, entries, parse);
    }
  }

  // --------------------------------------------------------- batches

  /** A row of `CareerBatchSubmission`: the time is in seconds. */
  datatype Batch = Batch(id: int, stationId: int, when: int, factor: Option<real>)

  /** A row of `CareerTaskReading`. */
  datatype Reading = Reading(batchId: int, task: string, bonus: real)

  /** `query.filter(keep).order_by(when.desc()).first()`: the latest batch
      that `keep` admits, the first in table order among equally late ones. */
  function Latest(batches: seq<Batch>, keep: Batch -> bool): (r: Option<Batch>)
    ensures r.Some? ==> r.value in batches && keep(r.value)
    ensures r.Some? ==> forall i :: 0 <= i < |batches| && keep(batches[i]) ==> batches[i].when <= r.value.when
    ensures r.None? ==> forall i :: 0 <= i < |batches| ==> !keep(batches[i])
  {
    if batches == [] then None
    else
      var init, last := batches[..|batches| - 1], batches[|batches| - 1];
      var r := Latest(init, keep);
      assert forall i :: 0 <= i < |init| ==> batches[i] == init[i];
      if keep(last) && (r.None? || last.when > r.value.when) then Some(last) else r
  }

  /** The bonuses recorded for a task. */
  function TaskBonuses(readings: seq<Reading>, task: string): (r: seq<real>)
    ensures forall x :: x in r <==> exists i :: 0 <= i < |readings| && readings[i].task == task && readings[i].bonus == x
  {
    if readings == [] then []
    else
      var rest := TaskBonuses(readings[1..], task);
      assert forall i :: 1 <= i < |readings| ==> readings[i] == readings[1..][i - 1];
      if readings[0].task == task then [readings[0].bonus] + rest else rest
  }

  /** The readings of a batch (`bs.readings`). */
  function ReadingsOf(readings: seq<Reading>, batchId: int): (r: seq<Reading>)
    ensures forall x :: x in r <==> x in readings && x.batchId == batchId
  {
    if readings == [] then []
    else
      var rest := ReadingsOf(readings[1..], batchId);
      assert readings == [readings[0]] + readings[1..];
      if readings[0].batchId == batchId then [readings[0]] + rest else rest
  }

  /** `o.factor` of one reading, against the current baselines. */
  function ReadingFactor(rd: Reading, all: seq<Reading>, baselines: map<string, Option<real>>): Result<real>
  {
    var (f, _) :- Factor(rd.bonus, Baseline(baselines, rd.task), TaskBonuses(all, rd.task));
    Ok(f)
  }

  /** The factors of a batch's readings, in order; the first reading whose
      factor raises ends the request. */
  function ReadingFactors(rs: seq<Reading>, all: seq<Reading>, baselines: map<string, Option<real>>): (r: Result<seq<real>>)
    ensures r.Ok? ==> |r.value| == |rs|
    ensures r.Ok? ==> forall i :: 0 <= i < |rs| ==> ReadingFactor(rs[i], all, baselines) == Ok(r.value[i])
    ensures r.Raise? ==> exists i :: 0 <= i < |rs| && ReadingFactor(rs[i], all, baselines).Raise?
  {
    FactorsOf(rs, (rd: Reading) => ReadingFactor(rd, all, baselines))
  }

  /** A loop applying `factor` to each reading in order; the first that
      raises ends it. */
  function FactorsOf(rs: seq<Reading>, factor: Reading -> Result<real>): (r: Result<seq<real>>)
    ensures r.Ok? ==> |r.value| == |rs|
    ensures r.Ok? ==> forall i :: 0 <= i < |rs| ==> factor(rs[i]) == Ok(r.value[i])
    ensures r.Raise? ==> exists i :: 0 <= i < |rs| && factor(rs[i]).Raise?
  {
    if rs == [] then Ok([])
    else
      var f :- factor(rs[0]);
      var fs :- FactorsOf(rs[1..], factor);
      assert forall i :: 1 <= i < |rs| ==> rs[i] == rs[1..][i - 1];
      Ok([f] + fs)
  }

  /** `max(o.factor for o in bs.readings)`; a batch without readings makes
      `max` raise ValueError. */
  function BatchFactor(b: Batch, readings: seq<Reading>, baselines: map<string, Option<real>>): Result<real>
  {
    var fs :- ReadingFactors(ReadingsOf(readings, b.id), readings, baselines);
    if fs == [] then Raise(ValueError) else Ok(MaxOf(fs))
  }

  function SinceFor(stationId: int, limit: int): Batch -> bool
  {
    (b: Batch) => b.stationId == stationId && b.when > limit
  }

  /** The stations `system_factors` reports: of the submitting station's
      system, with another name than the one submitted, and with a batch
      since the start of today. */
  predicate Reported(st: Station, systemId: int, stationName: string, limit: int, batches: seq<Batch>)
  {
    st.systemId == systemId && st.name != stationName && Latest(batches, SinceFor(st.id, limit)).Some?
  }

  /** The factor `system_factors` gives a reported station: that of its
      latest batch of today. */
  function StationFactor(st: Station, limit: int, batches: seq<Batch>, readings: seq<Reading>,
                         baselines: map<string, Option<real>>): Result<real>
  {
    match Latest(batches, SinceFor(st.id, limit))
    case None => Raise(ValueError)
    case Some(bs) => BatchFactor(bs, readings, baselines)
  }

  /** The station is left out by its exact name only: a submission for
      the stored station "Abc" spelled "abc", which the case-blind station
      lookup resolves to "Abc", still reports "Abc" with its batch of
      today. */
  lemma SubmitterReportedUnderOtherCase()
    ensures Reported(Station(1, 1, "Abc", "abc"), 1, "abc", 0, [Batch(1, 1, 10, Some(2.0))])
  {
    assert "Abc" != "abc" by {
      assert "Abc"[0] != "abc"[0];
    }
    var batches := [Batch(1, 1, 10, Some(2.0))];
    assert batches[..0] == [];
    assert Latest(batches, SinceFor(1, 0)) == Some(batches[0]);
  }

  /** The loop building `system_factors`, stations in table order. */
  function SystemFactors(stations: seq<Station>, systemId: int, stationName: string, limit: int,
                         batches: seq<Batch>, readings: seq<Reading>, baselines: map<string, Option<real>>): (r: Result<map<string, real>>)
    ensures r.Ok? ==> stationName !in r.value
    ensures r.Ok? ==> forall n :: n in r.value <==>
      exists i :: 0 <= i < |stations| && stations[i].name == n && Reported(stations[i], systemId, stationName, limit, batches)
  {
    CollectFactors(stations,
      (st: Station) => Reported(st, systemId, stationName, limit, batches),
      (st: Station) => StationFactor(st, limit, batches, readings, baselines))
  }

  /** A loop that maps each station `reported` admits, by name, to its
      `factor`; the first factor that raises ends it. */
  function CollectFactors(stations: seq<Station>, reported: Station -> bool, factor: Station -> Result<real>): (r: Result<map<string, real>>)
    ensures r.Ok? ==> forall n :: n in r.value <==>
      exists i :: 0 <= i < |stations| && stations[i].name == n && reported(stations[i])
  {
    if stations == [] then Ok(map[])
    else
      var init, st := stations[..|stations| - 1], stations[|stations| - 1];
      var m :- CollectFactors(init, reported, factor);
      assert forall i :: 0 <= i < |init| ==> stations[i] == init[i];
      if !reported(st) then Ok(m)
      else
        var f :- factor(st);
        Ok(m[st.name := f])
  }

  /** With unique station names each collected value is the station's
      factor. */
  lemma {:induction false} CollectFactorsValues(stations: seq<Station>, reported: Station -> bool, factor: Station -> Result<real>)
    requires forall i, j :: 0 <= i < j < |stations| ==> stations[i].name != stations[j].name
    requires CollectFactors(stations, reported, factor).Ok?
    ensures forall i :: 0 <= i < |stations| && reported(stations[i]) ==>
      factor(stations[i]) == Ok(CollectFactors(stations, reported, factor).value[stations[i].name])
  {
    if stations != [] {
      var init, st := stations[..|stations| - 1], stations[|stations| - 1];
      CollectFactorsValues(init, reported, factor);
      assert forall i :: 0 <= i < |init| ==> stations[i] == init[i];
    }
  }

  /** Each reported factor is that of the station's latest batch of today
      (station names are unique). */
  lemma SystemFactorsValues(stations: seq<Station>, systemId: int, stationName: string, limit: int,
                            batches: seq<Batch>, readings: seq<Reading>, baselines: map<string, Option<real>>)
    requires forall i, j :: 0 <= i < j < |stations| ==> stations[i].name != stations[j].name
    requires SystemFactors(stations, systemId, stationName, limit, batches, readings, baselines).Ok?
    ensures var m := SystemFactors(stations, systemId, stationName, limit, batches, readings, baselines).value;
      forall i :: 0 <= i < |stations| && Reported(stations[i], systemId, stationName, limit, batches) ==>
        BatchFactor(Latest(batches, SinceFor(stations[i].id, limit)).value, readings, baselines) == Ok(m[stations[i].name])
  {
    CollectFactorsValues(stations,
      (st: Station) => Reported(st, systemId, stationName, limit, batches),
      (st: Station) => StationFactor(st, limit, batches, readings, baselines));
  }

  // ------------------------------------------------- the cached baselines

  /** The write `o.factor` makes for a reading whose task has no baseline:
      the least bonus recorded for the task becomes its baseline. */
  function CacheBaseline(baselines: map<string, Option<real>>, rd: Reading, all: seq<Reading>): map<string, Option<real>>
  {
    var bs := TaskBonuses(all, rd.task);
    if Baseline(baselines, rd.task).None? && bs != [] then baselines[rd.task := Some(MinOf(bs))] else baselines
  }

  /** The baselines after computing the factors of `rs` in order: a task
      with a baseline keeps it, and a task of `rs` without one gets its
      least recorded bonus; nothing else changes. */
  function CacheBaselines(baselines: map<string, Option<real>>, rs: seq<Reading>, all: seq<Reading>): (r: map<string, Option<real>>)
    ensures forall t :: Baseline(baselines, t).Some? ==> Baseline(r, t) == Baseline(baselines, t)
    ensures forall i :: 0 <= i < |rs| && TaskBonuses(all, rs[i].task) != [] ==> Baseline(r, rs[i].task).Some?
    ensures forall t :: Baseline(r, t) != Baseline(baselines, t) ==>
      && Baseline(baselines, t).None?
      && (exists i :: 0 <= i < |rs| && rs[i].task == t)
      && TaskBonuses(all, t) != [] && Baseline(r, t) == Some(MinOf(TaskBonuses(all, t)))
    decreases |rs|
  {
    if rs == [] then baselines
    else
      var next := CacheBaseline(baselines, rs[0], all);
      var r := CacheBaselines(next, rs[1..], all);
      assert forall i :: 1 <= i < |rs| ==> rs[i] == rs[1..][i - 1];
      r
  }

  /** A cached baseline gives every reading the factor it had without
      it: the cached value is the least bonus the fallback would compute
      again. */
  lemma CachedBaselinesKeepFactors(baselines: map<string, Option<real>>, rs: seq<Reading>, all: seq<Reading>, rd: Reading)
    ensures ReadingFactor(rd, all, CacheBaselines(baselines, rs, all)) == ReadingFactor(rd, all, baselines)
  {
  }

  /** The readings whose factors `system_factors` computes: those of the
      latest batch of today of each reported station, stations in table
      order. */
  function ReportedReadings(stations: seq<Station>, systemId: int, stationName: string, limit: int,
                            batches: seq<Batch>, readings: seq<Reading>): (r: seq<Reading>)
    ensures forall rd :: rd in r <==>
      exists i :: 0 <= i < |stations| && Reported(stations[i], systemId, stationName, limit, batches)
        && rd in ReadingsOf(readings, Latest(batches, SinceFor(stations[i].id, limit)).value.id)
  {
    if stations == [] then []
    else
      var init, st := stations[..|stations| - 1], stations[|stations| - 1];
      var rs := ReportedReadings(init, systemId, stationName, limit, batches, readings);
      assert forall i :: 0 <= i < |init| ==> stations[i] == init[i];
      if Reported(st, systemId, stationName, limit, batches)
      then rs + ReadingsOf(readings, Latest(batches, SinceFor(st.id, limit)).value.id)
      else rs
  }

  // ------------------------------------------------------------ the handler

  datatype CareerState = CareerState(db: Db, baselines: map<string, Option<real>>, batches: seq<Batch>, readings: seq<Reading>)

  /** The JSON answer of `career_task_add`. */
  datatype Response =
    | Rejected(missing: set<string>)
    | InvalidToken
    | ImproperName(station: string)
    | Recorded(character: string, factor: real, systemFactors: map<string, real>)

  /** Every mandatory attribute is present and truthy. */
  predicate Complete(payload: map<string, Json>)
  {
    && "token" in payload && !Falsy(payload["token"])
    && "station" in payload && !Falsy(payload["station"])
    && "system" in payload && !Falsy(payload["system"])
    && "career" in payload && !Falsy(payload["career"])
    && "rank" in payload && !Falsy(payload["rank"])
    && "tasks" in payload && !Falsy(payload["tasks"])
  }

  lemma CompleteIffNoneMissing(payload: map<string, Json>)
    ensures Missing(payload) == {} <==> Complete(payload)
  {
    if !Complete(payload) {
      var a :| a in Mandatory && (a !in payload || Falsy(payload[a]));
      assert a in Missing(payload);
    }
  }

  /** `career_task_add`. `character` is the name of the character whose
      token verifies, `None` when the token is invalid; `now` is the time of
      the request and `today` the start of the current day; `parse` is
      `float` on a string. A raised error ends the request before the
      commit, so nothing is stored. */
  function Add(s: CareerState, payload: map<string, Json>, character: Option<string>, now: int, today: int,
               parse: string -> Option<real>): Result<(CareerState, Response)>
  {
    if Missing(payload) != {} then Ok((s, Rejected(Missing(payload))))
    else
      CompleteIffNoneMissing(payload);
      if character.None? then Ok((s, InvalidToken))
      else
        var stationName :- AsString(payload["station"]);
        if !ProperStationName(stationName) then Ok((s, ImproperName(stationName)))
      else Submit(s, payload, character.value, stationName, now, today, parse)
  }

  /** The part of `career_task_add` after validation: the station lookup
      and the loop over the tasks. */
  function Submit(s: CareerState, payload: map<string, Json>, character: string, stationName: string, now: int, today: int,
                  parse: string -> Option<real>): Result<(CareerState, Response)>
    requires Complete(payload)
  {
    var systemName :- AsString(payload["system"]);
    var (db, station) :- GetStation(s.db, systemName, stationName, true);
    var entries :- AsObject(payload["tasks"]);
    var tasks := Items(entries);
    assert HasKey(entries, entries[0].0);
    var run :- RecordTasks(s.baselines, tasks, parse);
    Finish(s, db, station, tasks, run, character, stationName, now, today)
  }

  /** The batch with the greatest of the readings' factors, the readings,
      and `system_factors`. The factors of the other stations are computed
      against the baselines after the task loop
      (`CachedBaselinesKeepFactors`); the baselines their fallback caches
      are stored with the rest. */
  function Finish(s: CareerState, db: Db, station: Station, entries: seq<(string, Json)>, run: TaskRun,
                  character: string, stationName: string, now: int, today: int): Result<(CareerState, Response)>
    requires entries != [] && |run.bonuses| == |entries| && |run.factors| == |entries|
  {
    var factor := MaxOf(run.factors);
    var batchId := FreshId(seq(|s.batches|, i requires 0 <= i < |s.batches| => s.batches[i].id));
    var batches := s.batches + [Batch(batchId, station.id, now, Some(factor))];
    var readings := s.readings + seq(|entries|, i requires 0 <= i < |entries| => Reading(batchId, entries[i].0, run.bonuses[i]));
    var sf :- SystemFactors(db.stations, station.systemId, stationName, today, batches, readings, run.baselines);
    var baselines := CacheBaselines(run.baselines, ReportedReadings(db.stations, station.systemId, stationName, today, batches, readings), readings);
    Ok((CareerState(db, baselines, batches, readings), Recorded(character, factor, sf)))
  }

  /** A submission is rejected for missing attributes exactly when one is
      missing or falsy, the reported list is exactly those, and nothing is
      stored. */
  lemma AddRejectsMissing(s: CareerState, payload: map<string, Json>, character: Option<string>, now: int, today: int,
                          parse: string -> Option<real>)
    ensures var r := Add(s, payload, character, now, today, parse);
      (r.Ok? && r.value.1.Rejected?) <==> exists a :: a in Mandatory && (a !in payload || Falsy(payload[a]))
    ensures var r := Add(s, payload, character, now, today, parse);
      r.Ok? && r.value.1.Rejected? ==>
        r.value.0 == s && forall a :: a in r.value.1.missing <==> a in Mandatory && (a !in payload || Falsy(payload[a]))
  {
    if exists a :: a in Mandatory && (a !in payload || Falsy(payload[a])) {
      var a :| a in Mandatory && (a !in payload || Falsy(payload[a]));
      assert a in Missing(payload);
    } else {
      assert Missing(payload) == {};
    }
  }

  /** A station name with a refused phrase is answered before anything is
      written, once the attributes and the token are accepted. */
  lemma AddRejectsImproperName(s: CareerState, payload: map<string, Json>, character: string, now: int, today: int,
                               parse: string -> Option<real>)
    requires Complete(payload) && payload["station"].Str? && !ProperStationName(payload["station"].s)
    ensures Add(s, payload, Some(character), now, today, parse) == Ok((s, ImproperName(payload["station"].s)))
  {
    CompleteIffNoneMissing(payload);
  }

  /** A recorded submission adds one batch, stamped with the request time
      and carrying the answered factor, the greatest of its readings'
      factors; it keeps the earlier batches and readings, and the
      submitted station's own name is not among the system factors. */
  lemma FinishRecorded(s: CareerState, db: Db, station: Station, entries: seq<(string, Json)>, run: TaskRun,
                       character: string, stationName: string, now: int, today: int)
    requires entries != [] && |run.bonuses| == |entries| && |run.factors| == |entries|
    requires Finish(s, db, station, entries, run, character, stationName, now, today).Ok?
    ensures var (s', resp) := Finish(s, db, station, entries, run, character, stationName, now, today).value;
      && resp.Recorded?
      && resp.factor in run.factors
      && (forall i :: 0 <= i < |run.factors| ==> run.factors[i] <= resp.factor)
      && stationName !in resp.systemFactors
      && |s'.batches| == |s.batches| + 1 && s'.batches[..|s.batches|] == s.batches
      && s'.batches[|s.batches|].factor == Some(resp.factor)
      && s'.batches[|s.batches|].when == now
      && s.readings <= s'.readings
  {
  }

  /** The stored baselines are the loop's, except that each task of a
      reading `system_factors` reads that had no baseline now has its least
      recorded bonus; no other task changes. */
  lemma FinishBaselines(s: CareerState, db: Db, station: Station, entries: seq<(string, Json)>, run: TaskRun,
                        character: string, stationName: string, now: int, today: int)
    requires entries != [] && |run.bonuses| == |entries| && |run.factors| == |entries|
    requires Finish(s, db, station, entries, run, character, stationName, now, today).Ok?
    ensures var s' := Finish(s, db, station, entries, run, character, stationName, now, today).value.0;
      && (forall t :: Baseline(run.baselines, t).Some? ==> Baseline(s'.baselines, t) == Baseline(run.baselines, t))
      && (forall t :: Baseline(s'.baselines, t) != Baseline(run.baselines, t) ==>
            && (exists rd :: rd in ReportedReadings(db.stations, station.systemId, stationName, today, s'.batches, s'.readings) && rd.task == t)
            && TaskBonuses(s'.readings, t) != [] && Baseline(s'.baselines, t) == Some(MinOf(TaskBonuses(s'.readings, t))))
      && (forall rd :: rd in ReportedReadings(db.stations, station.systemId, stationName, today, s'.batches, s'.readings) ==>
            Baseline(s'.baselines, rd.task).Some?)
  {
    var s' := Finish(s, db, station, entries, run, character, stationName, now, today).value.0;
    var rs := ReportedReadings(db.stations, station.systemId, stationName, today, s'.batches, s'.readings);
    forall rd | rd in rs
      ensures Baseline(s'.baselines, rd.task).Some?
    {
      var i :| 0 <= i < |rs| && rs[i] == rd;
      assert rd in s'.readings;
      var k :| 0 <= k < |s'.readings| && s'.readings[k] == rd;
      assert rd.bonus in TaskBonuses(s'.readings, rd.task);
    }
  }

  /** After a recorded submission no task's baseline has grown, and every
      submitted task's baseline is at most its bonus: `float` of the value
      the decoded dict keeps for it, the last one given. */
  lemma AddBaselines(s: CareerState, payload: map<string, Json>, character: string, stationName: string, now: int, today: int,
                     parse: string -> Option<real>)
    requires Complete(payload)
    requires Submit(s, payload, character, stationName, now, today, parse).Ok?
    ensures var s' := Submit(s, payload, character, stationName, now, today, parse).value.0;
      && (forall t :: t in s.baselines && s.baselines[t].Some? ==>
            Baseline(s'.baselines, t).Some? && Baseline(s'.baselines, t).value <= s.baselines[t].value)
      && (forall t :: HasKey(payload["tasks"].entries, t) ==>
            && Lookup(payload["tasks"].entries, t).Some?
            && Baseline(s'.baselines, t).Some?
            && ToFloat(Lookup(payload["tasks"].entries, t).value, parse).Ok?
            && Baseline(s'.baselines, t).value <= ToFloat(Lookup(payload["tasks"].entries, t).value, parse).value
            && Baseline(s'.baselines, t)
               == Some(NewBaseline(Baseline(s.baselines, t), ToFloat(Lookup(payload["tasks"].entries, t).value, parse).value)))
  {
    var r := Submit(s, payload, character, stationName, now, today, parse);
    var (db, station) := GetStation(s.db, payload["system"].s, stationName, true).value;
    var entries := payload["tasks"].entries;
    var tasks := Items(entries);
    assert HasKey(entries, entries[0].0);
    var run := RecordTasks(s.baselines, tasks, parse).value;
    assert r == Finish(s, db, station, tasks, run, character, stationName, now, today);
    FinishBaselines(s, db, station, tasks, run, character, stationName, now, today);
    RecordTasksBaselines(s.baselines, tasks, parse);
    RecordTasksBonuses(s.baselines, tasks, parse);
    var s' := r.value.0;
    assert DistinctKeys(tasks);
    forall t | HasKey(entries, t)
      ensures && Lookup(entries, t).Some?
              && Baseline(s'.baselines, t).Some?
              && ToFloat(Lookup(entries, t).value, parse).Ok?
              && Baseline(s'.baselines, t).value <= ToFloat(Lookup(entries, t).value, parse).value
              && Baseline(s'.baselines, t) == Some(NewBaseline(Baseline(s.baselines, t), ToFloat(Lookup(entries, t).value, parse).value))
    {
      assert HasKey(tasks, t);
      var i :| 0 <= i < |tasks| && tasks[i].0 == t;
      assert TaskRecorded(s.baselines, run, t, i);
    }
  }

  /** The answered factor is the greatest, over the submitted tasks, of
      `float` of the value kept for the task over the task's stored
      baseline, and is attained by one of them. */
  lemma AddFactor(s: CareerState, payload: map<string, Json>, character: string, stationName: string, now: int, today: int,
                  parse: string -> Option<real>)
    requires Complete(payload)
    requires Submit(s, payload, character, stationName, now, today, parse).Ok?
    ensures var (s', resp) := Submit(s, payload, character, stationName, now, today, parse).value;
      && resp.Recorded?
      && (forall t :: HasKey(payload["tasks"].entries, t) ==> TaskFactor(payload["tasks"].entries, s'.baselines, t, parse).Some?)
      && (forall t :: HasKey(payload["tasks"].entries, t) ==>
            TaskFactor(payload["tasks"].entries, s'.baselines, t, parse).value <= resp.factor)
      && (exists t :: HasKey(payload["tasks"].entries, t) && TaskFactor(payload["tasks"].entries, s'.baselines, t, parse) == Some(resp.factor))
  {
    var r := Submit(s, payload, character, stationName, now, today, parse);
    var (db, station) := GetStation(s.db, payload["system"].s, stationName, true).value;
    var entries := payload["tasks"].entries;
    var tasks := Items(entries);
    assert HasKey(entries, entries[0].0);
    var run := RecordTasks(s.baselines, tasks, parse).value;
    assert r == Finish(s, db, station, tasks, run, character, stationName, now, today);
    FinishRecorded(s, db, station, tasks, run, character, stationName, now, today);
    FinishBaselines(s, db, station, tasks, run, character, stationName, now, today);
    var (s', resp) := r.value;
    ItemFactors(entries, s.baselines, s'.baselines, parse);
    forall t | HasKey(entries, t)
      ensures TaskFactor(entries, s'.baselines, t, parse).Some? && TaskFactor(entries, s'.baselines, t, parse).value <= resp.factor
    {
      assert HasKey(tasks, t);
      var i :| 0 <= i < |tasks| && tasks[i].0 == t;
    }
    var k :| 0 <= k < |run.factors| && run.factors[k] == resp.factor;
    assert HasKey(entries, tasks[k].0) by {
      assert HasKey(tasks, tasks[k].0);
    }
  }

  /** Each item's reading factor is `TaskFactor` against any baselines
      that keep those the loop leaves. */
  lemma ItemFactors(entries: seq<(string, Json)>, before: map<string, Option<real>>, after: map<string, Option<real>>,
                    parse: string -> Option<real>)
    requires RecordTasks(before, Items(entries), parse).Ok?
    requires var run := RecordTasks(before, Items(entries), parse).value;
      forall t :: Baseline(run.baselines, t).Some? ==> Baseline(after, t) == Baseline(run.baselines, t)
    ensures var run := RecordTasks(before, Items(entries), parse).value;
      forall i :: 0 <= i < |Items(entries)| ==> TaskFactor(entries, after, Items(entries)[i].0, parse) == Some(run.factors[i])
  {
    var tasks := Items(entries);
    var run := RecordTasks(before, tasks, parse).value;
    RecordTasksBonuses(before, tasks, parse);
    assert DistinctKeys(tasks);
    forall i | 0 <= i < |tasks|
      ensures TaskFactor(entries, after, tasks[i].0, parse) == Some(run.factors[i])
    {
      assert TaskRecorded(before, run, tasks[i].0, i);
    }
  }

  /** `float` of the value kept for task `t` over its baseline in
      `baselines`, when both exist and the baseline is not zero. */
  function TaskFactor(entries: seq<(string, Json)>, baselines: map<string, Option<real>>, t: string,
                      parse: string -> Option<real>): Option<real>
  {
    match Lookup(entries, t)
    case None => None
    case Some(v) =>
      match ToFloat(v, parse)
      case Raise(_) => None
      case Ok(bonus) =>
        var b := Baseline(baselines, t);
        if b.None? || b.value == 0.0 then None else Some(bonus / b.value)
  }

  /** The bonus of each task is its value converted by `float`. */
  lemma {:induction false} RecordTasksBonuses(baselines: map<string, Option<real>>, entries: seq<(string, Json)>, parse: string -> Option<real>)
    requires RecordTasks(baselines, entries, parse).Ok?
    ensures forall i :: 0 <= i < |entries| ==>
      ToFloat(entries[i].1, parse) == Ok(RecordTasks(baselines, entries, parse).value.bonuses[i])
    decreases |entries|
  {
    if entries != [] {
      var bonus := ToFloat(entries[0].1, parse).value;
      var b := NewBaseline(Baseline(baselines, entries[0].0), bonus);
      var next := baselines[entries[0].0 := Some(b)];
      RecordTasksStep(baselines, entries, parse);
      RecordTasksBonuses(next, entries[1..], parse);
      var bs := RecordTasks(baselines, entries, parse).value.bonuses;
      var rest := RecordTasks(next, entries[1..], parse).value.bonuses;
      forall i | 0 <= i < |entries|
        ensures ToFloat(entries[i].1, parse) == Ok(bs[i])
      {
        if i > 0 {
          assert entries[i] == entries[1..][i - 1] && bs[i] == rest[i - 1];
        }
      }
    }
  }

  /** A task given twice in one submission is recorded once, with the
      value given last: stored baseline 4 and bonuses 5 then 3 for task
      "A" give one reading of 3 with factor 1. */
  lemma RepeatedTaskRecordedOnce(parse: string -> Option<real>)
    ensures Items([("A", Num(5.0)), ("A", Num(3.0))]) == [("A", Num(3.0))]
    ensures RecordTasks(map["A" := Some(4.0)], Items([("A", Num(5.0)), ("A", Num(3.0))]), parse)
      == Ok(TaskRun(map["A" := Some(3.0)], [3.0], [1.0]))
  {
    RepeatedKeyKeepsLast();
    SingleTask(parse);
  }

  lemma SingleTask(parse: string -> Option<real>)
    ensures RecordTasks(map["A" := Some(4.0)], [("A", Num(3.0))], parse) == Ok(TaskRun(map["A" := Some(3.0)], [3.0], [1.0]))
  {
    var one := [("A", Num(3.0))];
    var m := map["A" := Some(3.0)];
    assert one[1..] == [];
    assert ToFloat(one[0].1, parse) == Ok(3.0);
    assert Baseline(map["A" := Some(4.0)], "A") == Some(4.0);
    assert NewBaseline(Some(4.0), 3.0) == 3.0;
    assert Factor(3.0, Some(3.0), []) == Ok((1.0, Some(3.0)));
    assert map["A" := Some(4.0)]["A" := Some(3.0)] == m;
    assert RecordTasks(m, one[1..], parse) == Ok(TaskRun(m, [], []));
    assert RecordTasks(map["A" := Some(4.0)], one, parse)
      == Ok(TaskRun(m, [3.0] + [], [1.0] + []));
    assert [3.0] + [] == [3.0] && [1.0] + [] == [1.0];
  }

  /** With bonuses that `float` turns into positive numbers and positive
      stored baselines, a recorded batch's factor is at least 1. */
  lemma AddFactorAtLeastOne(s: CareerState, payload: map<string, Json>, character: string, stationName: string, now: int, today: int,
                            parse: string -> Option<real>)
    requires Complete(payload) && payload["tasks"].Obj?
    requires Submit(s, payload, character, stationName, now, today, parse).Ok?
    requires forall t :: t in s.baselines && s.baselines[t].Some? ==> s.baselines[t].value > 0.0
    requires var es := payload["tasks"].entries;
      forall t :: HasKey(es, t) ==>
        Lookup(es, t).Some? && ToFloat(Lookup(es, t).value, parse).Ok? && ToFloat(Lookup(es, t).value, parse).value > 0.0
    ensures Submit(s, payload, character, stationName, now, today, parse).value.1.factor >= 1.0
  {
    var r := Submit(s, payload, character, stationName, now, today, parse);
    var (db, station) := GetStation(s.db, payload["system"].s, stationName, true).value;
    var entries := payload["tasks"].entries;
    var tasks := Items(entries);
    assert HasKey(entries, entries[0].0);
    forall i | 0 <= i < |tasks|
      ensures ToFloat(tasks[i].1, parse).Ok? && ToFloat(tasks[i].1, parse).value > 0.0
    {
      assert HasKey(tasks, tasks[i].0);
    }
    RecordTasksFactorsAtLeastOne(s.baselines, tasks, parse);
    var run := RecordTasks(s.baselines, tasks, parse).value;
    assert r == Finish(s, db, station, tasks, run, character, stationName, now, today);
    FinishRecorded(s, db, station, tasks, run, character, stationName, now, today);
  }

  // ------------------------------------------------------------- summary

  /** One line of the summary. */
  datatype Line = Line(system: string, station: string, factor: real)

  /** A factor older than this many seconds is left out. */
  const FreshSeconds := 6 * 3600

  /** Lines in order of system name, then station name. */
  function LineLe(a: Line, b: Line): bool
  {
    StrLess(a.system, b.system) || (a.system == b.system && StrLe(a.station, b.station))
  }

  lemma LineLeIsTotalPreorder()
    ensures TotalPreorder(LineLe)
  {
    forall a: Line, b: Line
      ensures LineLe(a, b) || LineLe(b, a)
    {
      StrLessTrichotomy(a.system, b.system);
      StrLeIsTotalPreorder(a.station, b.station, b.station);
    }
    forall a: Line, b: Line, c: Line | LineLe(a, b) && LineLe(b, c)
      ensures LineLe(a, c)
    {
      if StrLess(a.system, b.system) && StrLess(b.system, c.system) {
        StrLessTransitive(a.system, b.system, c.system);
      }
      StrLeIsTotalPreorder(a.station, b.station, c.station);
    }
  }

  function WithFactorFor(stationId: int): Batch -> bool
  {
    (b: Batch) => b.stationId == stationId && b.factor.Some?
  }

  function FindSystemById(systems: seq<System>, id: int): (r: Option<System>)
    ensures r.Some? ==> r.value in systems && r.value.id == id
    ensures r.None? ==> forall i :: 0 <= i < |systems| ==> systems[i].id != id
  {
    if systems == [] then None
    else if systems[0].id == id then Some(systems[0])
    else FindSystemById(systems[1..], id)
  }

  /** A station's latest batch with a factor, when at most six hours old. */
  function FreshBatch(st: Station, batches: seq<Batch>, now: int): (r: Option<Batch>)
    ensures r.Some? ==> r.value in batches && r.value.stationId == st.id && r.value.factor.Some?
    ensures r.Some? ==> now - r.value.when <= FreshSeconds
    ensures r.Some? ==> forall b :: b in batches && b.stationId == st.id && b.factor.Some? ==> b.when <= r.value.when
    ensures r.None? ==> forall b :: b in batches && b.stationId == st.id && b.factor.Some? ==> now - b.when > FreshSeconds
  {
    match Latest(batches, WithFactorFor(st.id))
    case None => None
    case Some(bs) => if now - bs.when > FreshSeconds then None else Some(bs)
  }

  /** The station loop of `summary`, before sorting. */
  function FreshLines(systems: seq<System>, stations: seq<Station>, batches: seq<Batch>, now: int): (r: Result<seq<Line>>)
    ensures r.Ok? ==> forall l :: l in r.value <==>
      exists i :: 0 <= i < |stations| && FreshBatch(stations[i], batches, now).Some? && l == LineOf(systems, stations[i], batches, now)
  {
    if stations == [] then Ok([])
    else
      var init, st := stations[..|stations| - 1], stations[|stations| - 1];
      var lines :- FreshLines(systems, init, batches, now);
      assert forall i :: 0 <= i < |init| ==> stations[i] == init[i];
      match FreshBatch(st, batches, now)
      case None => Ok(lines)
      case Some(bs) =>
        if FindSystemById(systems, st.systemId).None? then Raise(AttributeError)
        else Ok(lines + [LineOf(systems, st, batches, now)])
  }

  /** The line of a station with a fresh factor. */
  function LineOf(systems: seq<System>, st: Station, batches: seq<Batch>, now: int): Line
  {
    var bs := FreshBatch(st, batches, now);
    var sys := FindSystemById(systems, st.systemId);
    Line(if sys.Some? then sys.value.name else [], st.name, if bs.Some? then bs.value.factor.value else 0.0)
  }

  /** `summary`. `reader` is whether the token found has full read
      permission, `None` when no token matches. */
  function Summary(tokenStr: string, reader: Option<bool>, systems: seq<System>, stations: seq<Station>,
                   batches: seq<Batch>, now: int): Result<seq<Line>>
  {
    if tokenStr == [] || reader != Some(true) then Raise(AssertionError)
    else
      var lines :- FreshLines(systems, stations, batches, now);
      Ok(SortBy(lines, LineLe))
  }

  /** Without a token with read permission the summary fails its
      assertion; otherwise it lists exactly the stations whose latest
      factor is at most six hours old, each with that factor, sorted by
      system and then station. */
  lemma SummaryLines(tokenStr: string, reader: Option<bool>, systems: seq<System>, stations: seq<Station>,
                     batches: seq<Batch>, now: int)
    ensures tokenStr == [] || reader != Some(true) ==>
      Summary(tokenStr, reader, systems, stations, batches, now) == Raise(AssertionError)
    ensures var r := Summary(tokenStr, reader, systems, stations, batches, now);
      r.Ok? ==> SortedBy(r.value, LineLe)
    ensures var r := Summary(tokenStr, reader, systems, stations, batches, now);
      r.Ok? ==> forall l :: l in r.value <==>
        exists i :: 0 <= i < |stations| && FreshBatch(stations[i], batches, now).Some? && l == LineOf(systems, stations[i], batches, now)
  {
    LineLeIsTotalPreorder();
    var r := Summary(tokenStr, reader, systems, stations, batches, now);
    if r.Ok? {
      var lines := FreshLines(systems, stations, batches, now).value;
      forall l
        ensures l in r.value <==> l in lines
      {
        assert l in r.value <==> l in multiset(r.value);
      }
    }
  }
}

=== FILE: correlation_report.dfy ===
/** vendor-fuel-correlation-report.py: for every station with current
    vendor inventories, the newest day on which there are fuel price
    readings and price readings for every item of every inventory, with
    that day's fuel prices and item prices; stations without such a day
    are marked as missing data. Timestamps are integers; the calendar day
    of a timestamp in the report's time zone is the parameter `dayOf`. */
module CorrelationReport {
  import opened Wrappers
  import opened Sorting
  import opened Grouping

  /** A current vendor inventory with what the report reads through its
      relations: the vendor's name and station and the inventory's items. */
  datatype CurrentInventory = CurrentInventory(id: int, vendorName: string, stationId: int, firstSeen: int, itemIds: seq<int>)

  datatype FuelReading = FuelReading(stationId: int, when: int, pricePerG: real)

  /** An item price seen at a vendor inventory on a day; `credits` is
      absent when the item was not priced in credits. */
  datatype PriceReading = PriceReading(itemId: int, slug: string, inventoryId: int, day: int, credits: Option<real>)

  // ------------------------------------------------------------ min_dt, max_dt

  /** `min_dt(dts)`: pops the first element as the running minimum and
      scans the rest; `rest` is the list left behind by the pop. An empty
      list raises IndexError. */
  method MinDt(dts: seq<int>) returns (r: Result<int>, rest: seq<int>)
    ensures dts == [] ==> r == Raise(IndexError) && rest == []
    ensures dts != [] ==> rest == dts[1..]
    ensures dts != [] ==> r.Ok? && r.value in dts && forall i :: 0 <= i < |dts| ==> r.value <= dts[i]
  {
    if dts == [] {
      return Raise(IndexError), dts;
    }
    var current := dts[0];
    rest := dts[1..];
    var i := 0;
    while i < |rest|
      invariant 0 <= i <= |rest|
      invariant current in dts && current <= dts[0]
      invariant forall j :: 0 <= j < i ==> current <= rest[j]
    {
      if rest[i] < current {
        current := rest[i];
      }
      i := i + 1;
    }
    assert forall j :: 1 <= j < |dts| ==> dts[j] == rest[j - 1];
    r := Ok(current);
  }

  /** `max_dt(dts)`, the mirror image of `min_dt`; its value is the
      `Greatest` of the list. */
  method MaxDt(dts: seq<int>) returns (r: Result<int>, rest: seq<int>)
    ensures dts == [] ==> r == Raise(IndexError) && rest == []
    ensures dts != [] ==> rest == dts[1..]
    ensures dts != [] ==> r.Ok? && r.value in dts && forall i :: 0 <= i < |dts| ==> dts[i] <= r.value
    ensures dts != [] ==> r == Ok(Greatest(dts))
  {
    if dts == [] {
      return Raise(IndexError), dts;
    }
    var current := dts[0];
    rest := dts[1..];
    var i := 0;
    while i < |rest|
      invariant 0 <= i <= |rest|
      invariant current in dts && dts[0] <= current
      invariant forall j :: 0 <= j < i ==> rest[j] <= current
    {
      if rest[i] > current {
        current := rest[i];
      }
      i := i + 1;
    }
    assert forall j :: 1 <= j < |dts| ==> dts[j] == rest[j - 1];
    GreatestUnique(dts, current);
    r := Ok(current);
  }

  /** The greatest element of a non-empty list. */
  function Greatest(xs: seq<int>): (r: int)
    requires xs != []
    ensures r in xs
    ensures forall i :: 0 <= i < |xs| ==> xs[i] <= r
    decreases |xs|
  {
    if |xs| == 1 then xs[0]
    else
      var m := Greatest(xs[..|xs| - 1]);
      assert forall i :: 0 <= i < |xs| - 1 ==> xs[..|xs| - 1][i] == xs[i];
      if xs[|xs| - 1] > m then xs[|xs| - 1] else m
  }

  /** An element that is at least every element is the greatest. */
  lemma GreatestUnique(xs: seq<int>, m: int)
    requires m in xs && forall i :: 0 <= i < |xs| ==> xs[i] <= m
    ensures xs != [] && Greatest(xs) == m
  {
    var k :| 0 <= k < |xs| && xs[k] == m;
  }

  // ------------------------------------------------------------ one station

  function FirstSeens(ivs: seq<CurrentInventory>): seq<int>
  {
    seq(|ivs|, i requires 0 <= i < |ivs| => ivs[i].firstSeen)
  }

  /** The station's fuel price readings taken at or after `since`. */
  function FuelSince(fuel: seq<FuelReading>, stationId: int, since: int): (r: seq<FuelReading>)
    ensures forall f :: f in r <==> f in fuel && f.stationId == stationId && f.when >= since
    decreases |fuel|
  {
    if fuel == [] then []
    else
      var last := fuel[|fuel| - 1];
      assert fuel == fuel[..|fuel| - 1] + [last];
      FuelSince(fuel[..|fuel| - 1], stationId, since) + (if last.stationId == stationId && last.when >= since then [last] else [])
  }

  /** The key `fpr_by_date` groups readings by: their calendar day. */
  function DayKey(dayOf: int -> int): FuelReading -> int
  {
    (f: FuelReading) => dayOf(f.when)
  }

  function Keys<E>(gs: seq<(int, seq<E>)>): seq<int>
  {
    seq(|gs|, i requires 0 <= i < |gs| => gs[i].0)
  }

  function IntGe(a: int, b: int): bool
  {
    a >= b
  }

  lemma IntGeIsTotalPreorder()
    ensures TotalPreorder(IntGe)
  {
  }

  /** `qry.count()`: the inventory's price readings on `day` whose item is
      one of its items. */
  function CountReadings(prices: seq<PriceReading>, iv: CurrentInventory, day: int): nat
  {
    if prices == [] then 0
    else
      var p := prices[|prices| - 1];
      CountReadings(prices[..|prices| - 1], iv, day)
        + (if p.inventoryId == iv.id && p.day == day && p.itemId in iv.itemIds then 1 else 0)
  }

  /** `has_full_prices`: every inventory has as many readings on that day
      as it has items. */
  predicate FullPrices(ivs: seq<CurrentInventory>, prices: seq<PriceReading>, day: int)
  {
    forall i :: 0 <= i < |ivs| ==> CountReadings(prices, ivs[i], day) == |ivs[i].itemIds|
  }

  function CompleteOn(ivs: seq<CurrentInventory>, prices: seq<PriceReading>): int -> bool
  {
    (day: int) => FullPrices(ivs, prices, day)
  }

  /** The first day of the list that passes `ok`, trying them in order and
      stopping at the first success. */
  function FirstWhere(days: seq<int>, ok: int -> bool): (r: Option<int>)
    ensures r.None? <==> forall i :: 0 <= i < |days| ==> !ok(days[i])
    ensures r.Some? ==> exists i :: 0 <= i < |days| && days[i] == r.value && ok(days[i]) &&
                                    forall j :: 0 <= j < i ==> !ok(days[j])
    decreases |days|
  {
    if days == [] then None
    else if ok(days[0]) then Some(days[0])
    else
      var r := FirstWhere(days[1..], ok);
      assert forall i :: 1 <= i < |days| ==> days[1..][i - 1] == days[i];
      r
  }

  /** The credit prices of the inventory's items on that day by slug, a
      later reading of a slug replacing an earlier one. */
  function PricesOf(prices: seq<PriceReading>, iv: CurrentInventory, day: int): (m: map<string, real>)
    ensures forall slug :: slug in m <==>
      exists p :: p in prices && p.inventoryId == iv.id && p.day == day && p.itemId in iv.itemIds &&
                  p.credits.Some? && p.slug == slug
    decreases |prices|
  {
    if prices == [] then map[]
    else
      var p := prices[|prices| - 1];
      var m := PricesOf(prices[..|prices| - 1], iv, day);
      assert prices == prices[..|prices| - 1] + [p];
      if p.inventoryId == iv.id && p.day == day && p.itemId in iv.itemIds && p.credits.Some?
      then m[p.slug := p.credits.value]
      else m
  }

  /** `station_data['vendors']`: the prices of each inventory under its
      vendor's name, a later inventory of the same name replacing an
      earlier one. */
  function VendorPrices(ivs: seq<CurrentInventory>, prices: seq<PriceReading>, day: int): (m: map<string, map<string, real>>)
    ensures forall name :: name in m <==> exists i :: 0 <= i < |ivs| && ivs[i].vendorName == name
    decreases |ivs|
  {
    if ivs == [] then map[]
    else
      var iv := ivs[|ivs| - 1];
      var m := VendorPrices(ivs[..|ivs| - 1], prices, day);
      assert forall i :: 0 <= i < |ivs| - 1 ==> ivs[..|ivs| - 1][i] == ivs[i];
      m[iv.vendorName := PricesOf(prices, iv, day)]
  }

  /** The chosen day with its fuel prices (whose median the report prints)
      and the vendors' item prices. */
  datatype DayData = DayData(day: int, fuelPrices: seq<real>, vendors: map<string, map<string, real>>)

  /** One station's entry; `data` is absent exactly when the report marks
      the station as missing data. */
  datatype StationRecord = StationRecord(stationId: int, firstDate: int, data: Option<DayData>)

  function PricesPerG(fs: seq<FuelReading>): seq<real>
  {
    seq(|fs|, i requires 0 <= i < |fs| => fs[i].pricePerG)
  }

  /** The body of the loop over the stations. */
  function StationReport(stationId: int, ivs: seq<CurrentInventory>, fuel: seq<FuelReading>,
                         prices: seq<PriceReading>, dayOf: int -> int): StationRecord
    requires ivs != []
  {
    var first := Greatest(FirstSeens(ivs));
    var byDay := EntriesByKey(FuelSince(fuel, stationId, first), DayKey(dayOf));
    var days := SortBy(Keys(byDay), IntGe);
    match FirstWhere(days, CompleteOn(ivs, prices))
    case None => StationRecord(stationId, first, None)
    case Some(day) =>
      StationRecord(stationId, first, Some(DayData(day, PricesPerG(Lookup(byDay, day)), VendorPrices(ivs, prices, day))))
  }

  function StationOf(iv: CurrentInventory): int
  {
    iv.stationId
  }

  /** The whole report: the current inventories grouped by station in
      order of first appearance, one record per station. */
  function Report(ivs: seq<CurrentInventory>, fuel: seq<FuelReading>, prices: seq<PriceReading>, dayOf: int -> int): (r: seq<StationRecord>)
    ensures |r| == |EntriesByKey(ivs, StationOf)|
  {
    var groups := EntriesByKey(ivs, StationOf);
    GroupsNonEmpty(ivs, StationOf);
    seq(|groups|, i requires 0 <= i < |groups| => StationReport(groups[i].0, groups[i].1, fuel, prices, dayOf))
  }

  lemma {:induction false} GroupsNonEmpty<E, K>(es: seq<E>, key: E -> K)
    ensures forall i :: 0 <= i < |EntriesByKey(es, key)| ==> EntriesByKey(es, key)[i].1 != []
    decreases |es|
  {
    if es != [] {
      GroupsNonEmpty(es[..|es| - 1], key);
    }
  }

  // ------------------------------------------------------------ properties

  /** The days with a reading of the station since `first_date` are the
      keys of `fpr_by_date`. */
  lemma DayKeys(since: seq<FuelReading>, dayOf: int -> int)
    ensures forall d :: d in Keys(EntriesByKey(since, DayKey(dayOf))) <==>
      exists f :: f in since && dayOf(f.when) == d
  {
    var gs := EntriesByKey(since, DayKey(dayOf));
    EntriesByKeyPartitions(since, DayKey(dayOf));
    forall d | d in Keys(gs)
      ensures exists f :: f in since && dayOf(f.when) == d
    {
      var j :| 0 <= j < |gs| && gs[j].0 == d;
      var i :| 0 <= i < |since| && DayKey(dayOf)(since[i]) == gs[j].0;
      assert since[i] in since;
    }
    forall f | f in since
      ensures dayOf(f.when) in Keys(gs)
    {
      var i :| 0 <= i < |since| && since[i] == f;
      assert HasKey(gs, DayKey(dayOf)(since[i]));
      var j :| 0 <= j < |gs| && gs[j].0 == dayOf(f.when);
      assert Keys(gs)[j] == dayOf(f.when);
    }
  }

  /** `first_date` is the latest `first_seen` of the station's inventories. */
  lemma StationFirstDate(stationId: int, ivs: seq<CurrentInventory>, fuel: seq<FuelReading>,
                         prices: seq<PriceReading>, dayOf: int -> int)
    requires ivs != []
    ensures var rec := StationReport(stationId, ivs, fuel, prices, dayOf);
      && rec.stationId == stationId
      && (exists i :: 0 <= i < |ivs| && ivs[i].firstSeen == rec.firstDate)
      && (forall i :: 0 <= i < |ivs| ==> ivs[i].firstSeen <= rec.firstDate)
  {
    var first := Greatest(FirstSeens(ivs));
    assert StationReport(stationId, ivs, fuel, prices, dayOf).firstDate == first;
    assert forall i :: 0 <= i < |ivs| ==> FirstSeens(ivs)[i] == ivs[i].firstSeen;
    var k :| 0 <= k < |ivs| && FirstSeens(ivs)[k] == first;
  }

  /** The chosen day has a fuel reading of the station at or after
      `first_date` and full prices, and every later day with such a
      reading lacks them; no day is chosen, and the station is marked as
      missing data, exactly when no day with such a reading has full
      prices. */
  lemma StationDayChoice(stationId: int, ivs: seq<CurrentInventory>, fuel: seq<FuelReading>,
                         prices: seq<PriceReading>, dayOf: int -> int)
    requires ivs != []
    ensures var rec := StationReport(stationId, ivs, fuel, prices, dayOf);
      rec.data.None? <==>
        forall f :: f in fuel && f.stationId == stationId && f.when >= rec.firstDate ==> !FullPrices(ivs, prices, dayOf(f.when))
    ensures var rec := StationReport(stationId, ivs, fuel, prices, dayOf);
      rec.data.Some? ==>
        && FullPrices(ivs, prices, rec.data.value.day)
        && (exists f :: f in fuel && f.stationId == stationId && f.when >= rec.firstDate && dayOf(f.when) == rec.data.value.day)
        && (forall f :: f in fuel && f.stationId == stationId && f.when >= rec.firstDate && dayOf(f.when) > rec.data.value.day ==>
              !FullPrices(ivs, prices, dayOf(f.when)))
  {
    var rec := StationReport(stationId, ivs, fuel, prices, dayOf);
    var since := FuelSince(fuel, stationId, rec.firstDate);
    var ok := CompleteOn(ivs, prices);
    var r := FirstWhere(SortBy(Keys(EntriesByKey(since, DayKey(dayOf))), IntGe), ok);
    assert rec.data.None? <==> r.None?;
    assert rec.data.Some? ==> rec.data.value.day == r.value;
    ChooseNewest(since, dayOf, ok);
  }

  /** Trying the days of `fpr_by_date` newest first picks the newest day
      that passes `ok`, and none when no day passes. */
  lemma ChooseNewest(since: seq<FuelReading>, dayOf: int -> int, ok: int -> bool)
    ensures var r := FirstWhere(SortBy(Keys(EntriesByKey(since, DayKey(dayOf))), IntGe), ok);
      && (r.None? <==> forall f :: f in since ==> !ok(dayOf(f.when)))
      && (r.Some? ==> ok(r.value) && exists f :: f in since && dayOf(f.when) == r.value)
      && (r.Some? ==> forall f :: f in since && dayOf(f.when) > r.value ==> !ok(dayOf(f.when)))
  {
    var keys := Keys(EntriesByKey(since, DayKey(dayOf)));
    var days := SortBy(keys, IntGe);
    DayKeys(since, dayOf);
    IntGeIsTotalPreorder();
    PermutationMembers(days, keys);
    PermutationMembers(keys, days);
    assert forall d :: d in days <==> d in keys;
    SortedDescending(days);
    NewestFirst(days, since, dayOf, ok);
  }

  lemma SortedDescending(days: seq<int>)
    requires SortedBy(days, IntGe)
    ensures forall i, j :: 0 <= i < j < |days| ==> days[j] <= days[i]
  {
    forall i, j | 0 <= i < j < |days|
      ensures days[j] <= days[i]
    {
      assert IntGe(days[i], days[j]);
    }
  }

  /** On a list of the reading days sorted newest first, the first day that
      passes `ok` is the newest such day. */
  lemma NewestFirst(days: seq<int>, since: seq<FuelReading>, dayOf: int -> int, ok: int -> bool)
    requires forall i, j :: 0 <= i < j < |days| ==> days[j] <= days[i]
    requires forall d :: d in days <==> exists f :: f in since && dayOf(f.when) == d
    ensures var r := FirstWhere(days, ok);
      && (r.None? <==> forall f :: f in since ==> !ok(dayOf(f.when)))
      && (r.Some? ==> ok(r.value) && exists f :: f in since && dayOf(f.when) == r.value)
      && (r.Some? ==> forall f :: f in since && dayOf(f.when) > r.value ==> !ok(dayOf(f.when)))
  {
    forall f | f in since
      ensures dayOf(f.when) in days
    {
      assert exists g :: g in since && dayOf(g.when) == dayOf(f.when);
    }
    var r := FirstWhere(days, ok);
    if r.None? {
      NoDayPasses(days, since, dayOf, ok);
    } else {
      assert r.value in days;
      NewestPasses(days, since, dayOf, ok);
    }
  }

  lemma NoDayPasses(days: seq<int>, since: seq<FuelReading>, dayOf: int -> int, ok: int -> bool)
    requires forall f :: f in since ==> dayOf(f.when) in days
    requires FirstWhere(days, ok).None?
    ensures forall f :: f in since ==> !ok(dayOf(f.when))
  {
    forall f | f in since
      ensures !ok(dayOf(f.when))
    {
      var j :| 0 <= j < |days| && days[j] == dayOf(f.when);
    }
  }

  lemma NewestPasses(days: seq<int>, since: seq<FuelReading>, dayOf: int -> int, ok: int -> bool)
    requires forall i, j :: 0 <= i < j < |days| ==> days[j] <= days[i]
    requires forall f :: f in since ==> dayOf(f.when) in days
    requires FirstWhere(days, ok).Some?
    ensures var d := FirstWhere(days, ok).value;
      ok(d) && forall f :: f in since && dayOf(f.when) > d ==> !ok(dayOf(f.when))
  {
    var d := FirstWhere(days, ok).value;
    var i :| 0 <= i < |days| && days[i] == d && ok(days[i]) && forall j :: 0 <= j < i ==> !ok(days[j]);
    forall j | i <= j < |days|
      ensures days[j] <= d
    {
      if j > i {
        assert days[j] <= days[i];
      }
    }
    forall f | f in since && dayOf(f.when) > d
      ensures !ok(dayOf(f.when))
    {
      var j :| 0 <= j < |days| && days[j] == dayOf(f.when);
    }
  }

  /** Every station with a current inventory has a record in the report. */
  lemma ReportCovers(ivs: seq<CurrentInventory>, fuel: seq<FuelReading>, prices: seq<PriceReading>, dayOf: int -> int)
    ensures var r := Report(ivs, fuel, prices, dayOf);
      forall i :: 0 <= i < |ivs| ==> exists k :: 0 <= k < |r| && r[k].stationId == ivs[i].stationId
  {
    var gs := EntriesByKey(ivs, StationOf);
    var r := Report(ivs, fuel, prices, dayOf);
    EntriesByKeyPartitions(ivs, StationOf);
    assert KeysCovered(ivs, StationOf, gs);
    forall i | 0 <= i < |ivs|
      ensures exists k :: 0 <= k < |r| && r[k].stationId == ivs[i].stationId
    {
      assert HasKey(gs, StationOf(ivs[i]));
      var k :| 0 <= k < |gs| && gs[k].0 == StationOf(ivs[i]);
      assert r[k].stationId == gs[k].0;
    }
  }

  /** No station has two records. */
  lemma ReportDistinct(ivs: seq<CurrentInventory>, fuel: seq<FuelReading>, prices: seq<PriceReading>, dayOf: int -> int)
    ensures var r := Report(ivs, fuel, prices, dayOf);
      forall k, l :: 0 <= k < l < |r| ==> r[k].stationId != r[l].stationId
  {
    var gs := EntriesByKey(ivs, StationOf);
    EntriesByKeyPartitions(ivs, StationOf);
    assert KeysDistinct(gs);
  }

  /** Each record is computed from exactly its station's inventories, in
      input order. */
  lemma ReportGroups(ivs: seq<CurrentInventory>, fuel: seq<FuelReading>, prices: seq<PriceReading>, dayOf: int -> int)
    ensures var r := Report(ivs, fuel, prices, dayOf);
      forall k :: 0 <= k < |r| ==>
        (Filter(ivs, StationOf, r[k].stationId) != [] &&
         r[k] == StationReport(r[k].stationId, Filter(ivs, StationOf, r[k].stationId), fuel, prices, dayOf))
  {
    var gs := EntriesByKey(ivs, StationOf);
    EntriesByKeyPartitions(ivs, StationOf);
    GroupsNonEmpty(ivs, StationOf);
    assert GroupsFiltered(ivs, StationOf, gs);
  }

  /** The readings check counts rows: two readings of one item on a day
      make up for a missing reading of another item. */
  lemma CountAcceptsGap()
    ensures var iv := CurrentInventory(1, "vendor", 1, 0, [10, 11]);
      var prices := [PriceReading(10, "a", 1, 5, Some(1.0)), PriceReading(10, "a", 1, 5, Some(2.0))];
      && FullPrices([iv], prices, 5)
      && forall p :: p in prices ==> p.itemId != 11
  {
    var iv := CurrentInventory(1, "vendor", 1, 0, [10, 11]);
    var prices := [PriceReading(10, "a", 1, 5, Some(1.0)), PriceReading(10, "a", 1, 5, Some(2.0))];
    assert prices[..1] == [prices[0]];
    assert CountReadings(prices[..1], iv, 5) == 1;
  }
}

=== FILE: fit_transfer.dfy ===
/** station-pair-export.py and station-pair-import.py: the fitted parameters
    of the station pairs written out as JSON records and read back in. The
    pairs table is `Db.pairs`; a record is the JSON object of one pair, its
    `id` (absent when the object has no such key) and the fit columns it
    names, each a number or null. */
module FitTransfer {
  import opened Wrappers
  import opened Sorting
  import opened Model

  datatype FitField = Period | MinDistance | MaxDistance | Phase

  const AllFields: set<FitField> := {Period, MinDistance, MaxDistance, Phase}

  datatype Record = Record(id: Option<int>, fields: map<FitField, Option<real>>)

  /** The column of `fit` that a field name refers to. */
  function Get(fit: Fit, f: FitField): Option<real>
  {
    match f
    case Period => fit.period
    case MinDistance => fit.minDistance
    case MaxDistance => fit.maxDistance
    case Phase => fit.phase
  }

  /** Fits agree when every column does. */
  lemma FitExt(a: Fit, b: Fit)
    requires forall f :: Get(a, f) == Get(b, f)
    ensures a == b
  {
    assert Get(a, Period) == Get(b, Period) && Get(a, MinDistance) == Get(b, MinDistance);
    assert Get(a, MaxDistance) == Get(b, MaxDistance) && Get(a, Phase) == Get(b, Phase);
  }

  /** `setattr(pair, k, v)` for every key `k` of the record. */
  function Assign(fit: Fit, fields: map<FitField, Option<real>>): (r: Fit)
    ensures forall f :: Get(r, f) == if f in fields then fields[f] else Get(fit, f)
  {
    Fit(
      if Period in fields then fields[Period] else fit.period,
      if MinDistance in fields then fields[MinDistance] else fit.minDistance,
      if MaxDistance in fields then fields[MaxDistance] else fit.maxDistance,
      if Phase in fields then fields[Phase] else fit.phase)
  }

  /** The id column is the table's primary key. */
  predicate UniqueIds(pairs: seq<StationPair>)
  {
    forall i, j :: 0 <= i < |pairs| && 0 <= j < |pairs| && pairs[i].id == pairs[j].id ==> i == j
  }

  ghost predicate NoDup(xs: seq<StationPair>)
  {
    forall v :: multiset(xs)[v] <= 1
  }

  // ---------------------------------------------------------------- export

  /** `order_by(StationPair.id)`. */
  function IdLe(a: StationPair, b: StationPair): bool
  {
    a.id <= b.id
  }

  lemma IdLeIsTotalPreorder()
    ensures TotalPreorder(IdLe)
  {
  }

  /** The pairs with `has_full_fit`, in order. */
  function FullFits(pairs: seq<StationPair>): (r: seq<StationPair>)
    ensures multiset(r) <= multiset(pairs)
    ensures forall p :: p in r <==> p in pairs && HasFullFit(p)
  {
    if pairs == [] then []
    else
      var rest := FullFits(pairs[1..]);
      assert pairs == [pairs[0]] + pairs[1..];
      if HasFullFit(pairs[0]) then [pairs[0]] + rest else rest
  }

  lemma {:induction false} FullFitsSorted(pairs: seq<StationPair>)
    requires SortedBy(pairs, IdLe)
    ensures SortedBy(FullFits(pairs), IdLe)
  {
    if pairs != [] {
      FullFitsSorted(pairs[1..]);
      var rest := FullFits(pairs[1..]);
      if HasFullFit(pairs[0]) {
        assert forall k :: 0 <= k < |rest| ==> rest[k] in pairs[1..];
        assert FullFits(pairs) == [pairs[0]] + rest;
      }
    }
  }

  /** The record written for a pair: its id and the four fit columns. */
  function ToRecord(p: StationPair): (r: Record)
    ensures r.id == Some(p.id) && r.fields.Keys == AllFields
    ensures forall f :: f in r.fields ==> r.fields[f] == Get(p.fit, f)
  {
    Record(Some(p.id), map[Period := p.fit.period, MinDistance := p.fit.minDistance,
                           MaxDistance := p.fit.maxDistance, Phase := p.fit.phase])
  }

  /** The JSON list printed by the export script. */
  function Export(pairs: seq<StationPair>): (r: seq<Record>)
    ensures forall i :: 0 <= i < |r| ==> r[i].id.Some? && r[i].fields.Keys == AllFields
  {
    var xs := FullFits(SortBy(pairs, IdLe));
    seq(|xs|, i requires 0 <= i < |xs| => ToRecord(xs[i]))
  }

  /** Every exported record is that of a fully fitted pair, its columns
      copied unchanged. */
  lemma ExportSound(pairs: seq<StationPair>)
    ensures forall i :: 0 <= i < |Export(pairs)| ==>
      exists k :: 0 <= k < |pairs| && HasFullFit(pairs[k]) && Export(pairs)[i] == ToRecord(pairs[k])
  {
    var sorted := SortBy(pairs, IdLe);
    var xs := FullFits(sorted);
    var r := Export(pairs);
    forall i | 0 <= i < |r|
      ensures exists k :: 0 <= k < |pairs| && HasFullFit(pairs[k]) && r[i] == ToRecord(pairs[k])
    {
      assert xs[i] in sorted;
      assert xs[i] in multiset(pairs);
      var k :| 0 <= k < |pairs| && pairs[k] == xs[i];
    }
  }

  /** Every fully fitted pair is exported. */
  lemma ExportComplete(pairs: seq<StationPair>)
    ensures forall k :: 0 <= k < |pairs| && HasFullFit(pairs[k]) ==> ToRecord(pairs[k]) in Export(pairs)
  {
    var sorted := SortBy(pairs, IdLe);
    var xs := FullFits(sorted);
    var r := Export(pairs);
    forall k | 0 <= k < |pairs| && HasFullFit(pairs[k])
      ensures ToRecord(pairs[k]) in r
    {
      assert pairs[k] in multiset(sorted);
      var i :| 0 <= i < |xs| && xs[i] == pairs[k];
      assert r[i] == ToRecord(pairs[k]);
    }
  }

  /** Records come out in strictly ascending id order. */
  lemma ExportAscending(pairs: seq<StationPair>)
    requires UniqueIds(pairs)
    ensures forall i, j :: 0 <= i < j < |Export(pairs)| ==> Export(pairs)[i].id.value < Export(pairs)[j].id.value
  {
    var sorted := SortBy(pairs, IdLe);
    var xs := FullFits(sorted);
    IdLeIsTotalPreorder();
    assert SortedBy(sorted, IdLe);
    FullFitsSorted(sorted);
    ExportedDistinct(pairs, sorted, xs);
    AscendingIds(pairs, xs);
    assert forall i :: 0 <= i < |xs| ==> Export(pairs)[i].id.value == xs[i].id;
  }

  /** Distinct pairs of a table with unique ids, sorted by id, have
      strictly ascending ids. */
  lemma AscendingIds(pairs: seq<StationPair>, xs: seq<StationPair>)
    requires UniqueIds(pairs) && NoDup(xs) && multiset(xs) <= multiset(pairs) && SortedBy(xs, IdLe)
    ensures forall i, j :: 0 <= i < j < |xs| ==> xs[i].id < xs[j].id
  {
    forall i, j | 0 <= i < j < |xs|
      ensures xs[i].id < xs[j].id
    {
      NoDupIndices(xs, i, j);
      assert xs[i] in multiset(pairs) && xs[j] in multiset(pairs);
      SameIdSamePair(pairs, xs[i], xs[j]);
    }
  }

  lemma ExportedDistinct(pairs: seq<StationPair>, sorted: seq<StationPair>, xs: seq<StationPair>)
    requires UniqueIds(pairs) && multiset(sorted) == multiset(pairs) && multiset(xs) <= multiset(sorted)
    ensures NoDup(xs)
  {
    UniqueNoDup(pairs);
    forall v
      ensures multiset(xs)[v] <= 1
    {
      assert multiset(xs)[v] <= multiset(sorted)[v];
    }
  }

  lemma SameIdSamePair(pairs: seq<StationPair>, p: StationPair, q: StationPair)
    requires UniqueIds(pairs) && p in pairs && q in pairs
    ensures p != q ==> p.id != q.id
  {
    var i :| 0 <= i < |pairs| && pairs[i] == p;
    var j :| 0 <= j < |pairs| && pairs[j] == q;
  }

  lemma {:induction false} UniqueNoDup(pairs: seq<StationPair>)
    requires UniqueIds(pairs)
    ensures NoDup(pairs)
  {
    if pairs != [] {
      var init, last := pairs[..|pairs| - 1], pairs[|pairs| - 1];
      assert UniqueIds(init);
      UniqueNoDup(init);
      assert pairs == init + [last];
      forall i | 0 <= i < |init|
        ensures init[i] != last
      {
        assert pairs[i].id != pairs[|pairs| - 1].id;
      }
    }
  }

  lemma NoDupIndices(xs: seq<StationPair>, i: int, j: int)
    requires NoDup(xs) && 0 <= i < j < |xs|
    ensures xs[i] != xs[j]
  {
    assert xs == xs[..j] + xs[j..];
    assert xs[i] in xs[..j] && xs[j] in xs[j..];
    assert multiset(xs)[xs[j]] == multiset(xs[..j])[xs[j]] + multiset(xs[j..])[xs[j]];
  }

  // ---------------------------------------------------------------- import

  /** `StationPair.query.filter_by(id=id).first()`: the first row with that
      id, as an index into the table. */
  function FindIndex(pairs: seq<StationPair>, id: int): (r: Option<nat>)
    ensures r.Some? ==> r.value < |pairs| && pairs[r.value].id == id
    ensures r.Some? ==> forall k :: 0 <= k < r.value ==> pairs[k].id != id
    ensures r.None? ==> forall k :: 0 <= k < |pairs| ==> pairs[k].id != id
  {
    if pairs == [] then None
    else if pairs[0].id == id then Some(0)
    else match FindIndex(pairs[1..], id)
      case None => None
      case Some(k) => Some(k + 1)
  }

  /** Rows equal but for their fit columns. */
  predicate SameRows(pairs: seq<StationPair>, pairs': seq<StationPair>)
  {
    |pairs'| == |pairs| && forall i :: 0 <= i < |pairs| ==> pairs'[i] == pairs[i].(fit := pairs'[i].fit)
  }

  /** One record applied: the row with its id gets the record's columns;
      with no such row nothing happens. */
  function ApplyRecord(pairs: seq<StationPair>, id: int, fields: map<FitField, Option<real>>): (r: seq<StationPair>)
    ensures SameRows(pairs, r)
    ensures forall i :: 0 <= i < |pairs| && pairs[i].id != id ==> r[i] == pairs[i]
    ensures UniqueIds(pairs) ==> forall i, f :: 0 <= i < |pairs| && pairs[i].id == id ==>
      Get(r[i].fit, f) == if f in fields then fields[f] else Get(pairs[i].fit, f)
  {
    match FindIndex(pairs, id)
    case None => pairs
    case Some(k) => pairs[k := pairs[k].(fit := Assign(pairs[k].fit, fields))]
  }

  /** The import script: records applied in order, each one's `id` popped
      first; a record without `id` raises KeyError before the commit, so
      nothing is stored. */
  function Import(pairs: seq<StationPair>, records: seq<Record>): (r: Result<seq<StationPair>>)
    ensures r.Raise? <==> exists j :: 0 <= j < |records| && records[j].id.None?
    ensures r.Raise? ==> r.error == KeyError
    ensures r.Ok? ==> SameRows(pairs, r.value)
    decreases |records|
  {
    if records == [] then Ok(pairs)
    else if records[0].id.None? then Raise(KeyError)
    else
      var pairs' := ApplyRecord(pairs, records[0].id.value, records[0].fields);
      var r := Import(pairs', records[1..]);
      assert forall j :: 1 <= j < |records| ==> records[j] == records[1..][j - 1];
      r
  }

  /** What the last record that sets column `f` of pair `id` says, if any. */
  function LastWrite(records: seq<Record>, id: int, f: FitField): Option<Option<real>>
  {
    if records == [] then None
    else
      var later := LastWrite(records[1..], id, f);
      if later.Some? then later
      else if records[0].id == Some(id) && f in records[0].fields then Some(records[0].fields[f])
      else None
  }

  /** After an import every column of every pair holds what the last record
      for that pair said about it, or its old value when no record did:
      later records override earlier ones. */
  lemma {:induction false} ImportLastWriteWins(pairs: seq<StationPair>, records: seq<Record>)
    requires UniqueIds(pairs) && Import(pairs, records).Ok?
    ensures forall i, f :: 0 <= i < |pairs| ==>
      Get(Import(pairs, records).value[i].fit, f) == LastWrite(records, pairs[i].id, f).GetOr(Get(pairs[i].fit, f))
    decreases |records|
  {
    if records != [] {
      var pairs' := ApplyRecord(pairs, records[0].id.value, records[0].fields);
      assert UniqueIds(pairs') by {
        assert forall i :: 0 <= i < |pairs| ==> pairs'[i].id == pairs[i].id;
      }
      assert Import(pairs, records) == Import(pairs', records[1..]);
      ImportLastWriteWins(pairs', records[1..]);
    }
  }

  /** A pair no record names keeps every column. */
  lemma {:induction false} ImportUntouched(pairs: seq<StationPair>, records: seq<Record>, i: int)
    requires Import(pairs, records).Ok? && 0 <= i < |pairs|
    requires forall j :: 0 <= j < |records| ==> records[j].id != Some(pairs[i].id)
    ensures Import(pairs, records).value[i] == pairs[i]
    decreases |records|
  {
    if records != [] {
      var pairs' := ApplyRecord(pairs, records[0].id.value, records[0].fields);
      assert Import(pairs, records) == Import(pairs', records[1..]);
      ImportUntouched(pairs', records[1..], i);
    }
  }

  /** A record whose id matches no pair is skipped wherever it stands. */
  lemma {:induction false} ImportSkipsUnknown(pairs: seq<StationPair>, front: seq<Record>, rec: Record, back: seq<Record>)
    requires rec.id.Some? && forall k :: 0 <= k < |pairs| ==> pairs[k].id != rec.id.value
    ensures Import(pairs, front + [rec] + back) == Import(pairs, front + back)
    decreases |front|
  {
    if front == [] {
      assert ApplyRecord(pairs, rec.id.value, rec.fields) == pairs;
      assert front + [rec] + back == [rec] + back && front + back == back;
      assert ([rec] + back)[1..] == back;
      assert Import(pairs, [rec] + back) == Import(pairs, back);
    } else if front[0].id.Some? {
      var pairs' := ApplyRecord(pairs, front[0].id.value, front[0].fields);
      assert (front + [rec] + back)[1..] == front[1..] + [rec] + back;
      assert (front + back)[1..] == front[1..] + back;
      ImportSkipsUnknown(pairs', front[1..], rec, back);
    }
  }

  // ---------------------------------------------------------- round trip

  /** `LastWrite` in a list where one record alone carries the id. */
  lemma {:induction false} LastWriteUnique(records: seq<Record>, j: int, id: int, f: FitField)
    requires 0 <= j < |records| && records[j].id == Some(id) && f in records[j].fields
    requires forall k :: 0 <= k < |records| && k != j ==> records[k].id != Some(id)
    ensures LastWrite(records, id, f) == Some(records[j].fields[f])
    decreases |records|
  {
    if j == 0 {
      LastWriteAbsent(records[1..], id, f);
    } else {
      LastWriteUnique(records[1..], j - 1, id, f);
    }
  }

  lemma {:induction false} LastWriteAbsent(records: seq<Record>, id: int, f: FitField)
    requires forall k :: 0 <= k < |records| ==> records[k].id != Some(id)
    ensures LastWrite(records, id, f) == None
    decreases |records|
  {
    if records != [] {
      LastWriteAbsent(records[1..], id, f);
    }
  }

  /** What an export says about column `f` of pair `id`: the column of the
      fully fitted pair with that id, and nothing when there is none. */
  lemma LastWriteExport(source: seq<StationPair>, id: int, f: FitField)
    requires UniqueIds(source)
    ensures var k := FindIndex(source, id);
      LastWrite(Export(source), id, f)
        == if k.Some? && HasFullFit(source[k.value]) then Some(Get(source[k.value].fit, f)) else None
  {
    var k := FindIndex(source, id);
    if k.Some? && HasFullFit(source[k.value]) {
      ExportedOnce(source, k.value, f);
    } else {
      NotExported(source, id, f);
    }
  }

  lemma ExportedOnce(source: seq<StationPair>, k: nat, f: FitField)
    requires UniqueIds(source) && k < |source| && HasFullFit(source[k])
    ensures LastWrite(Export(source), source[k].id, f) == Some(Get(source[k].fit, f))
  {
    var r := Export(source);
    ExportComplete(source);
    ExportAscending(source);
    var j :| 0 <= j < |r| && r[j] == ToRecord(source[k]);
    LastWriteUnique(r, j, source[k].id, f);
  }

  lemma NotExported(source: seq<StationPair>, id: int, f: FitField)
    requires UniqueIds(source)
    requires var k := FindIndex(source, id); k.None? || !HasFullFit(source[k.value])
    ensures LastWrite(Export(source), id, f) == None
  {
    var r := Export(source);
    var k := FindIndex(source, id);
    ExportSound(source);
    forall m | 0 <= m < |r|
      ensures r[m].id != Some(id)
    {
      var q :| 0 <= q < |source| && HasFullFit(source[q]) && r[m] == ToRecord(source[q]);
      if k.Some? {
        assert source[q] != source[k.value];
        SameIdSamePair(source, source[q], source[k.value]);
      }
    }
    LastWriteAbsent(r, id, f);
  }

  /** Importing an export restores the four fit columns of every pair that
      was fully fitted in the exporting table and has the same id in the
      importing one; all other pairs are unchanged, and nothing but fit
      columns changes. */
  lemma ExportImportRoundTrip(source: seq<StationPair>, target: seq<StationPair>)
    requires UniqueIds(source) && UniqueIds(target)
    ensures Import(target, Export(source)).Ok?
    ensures SameRows(target, Import(target, Export(source)).value)
    ensures forall i :: 0 <= i < |target| ==>
      var k := FindIndex(source, target[i].id);
      Import(target, Export(source)).value[i]
        == if k.Some? && HasFullFit(source[k.value]) then target[i].(fit := source[k.value].fit) else target[i]
  {
    var records := Export(source);
    var r := Import(target, records).value;
    ImportLastWriteWins(target, records);
    forall i | 0 <= i < |target|
      ensures var k := FindIndex(source, target[i].id);
        r[i] == if k.Some? && HasFullFit(source[k.value]) then target[i].(fit := source[k.value].fit) else target[i]
    {
      var k := FindIndex(source, target[i].id);
      forall f
        ensures LastWrite(records, target[i].id, f)
          == if k.Some? && HasFullFit(source[k.value]) then Some(Get(source[k.value].fit, f)) else None
      {
        LastWriteExport(source, target[i].id, f);
      }
      if k.Some? && HasFullFit(source[k.value]) {
        FitExt(r[i].fit, source[k.value].fit);
      } else {
        FitExt(r[i].fit, target[i].fit);
      }
    }
  }
}

=== FILE: fuel_strategy.dfy ===
/** `read_items` and `get_fuel_prices` (run-fuel-price-strategy.py): vendor
    entries are read from the correlation report, grouped by station and by
    item slug, ambiguous slugs are dropped, and each station's fuel-price
    interval is narrowed item by item until it converges. The scraped item
    price range is the parameter `minmax`. */
module FuelStrategy {
  import opened Wrappers
  import opened Sorting
  import opened Streaks
  import opened Grouping
  import opened Intervals
  import opened MostCommon

  /** One station of the correlation report: its name, system and short
      name, whether its data is incomplete, its fuel price per gram, and its
      vendors' inventories (vendor name to a list of item slug and price),
      in report order. */
  datatype StationInfo = StationInfo(
    name: string,
    system: string,
    short: string,
    missingData: bool,
    fuelPricePerG: real,
    vendors: seq<(string, seq<(string, real)>)>)

  /** One vendor entry built by `read_items`. */
  datatype Entry = Entry(
    slug: string,
    itemPrice: real,
    vendor: string,
    station: string,
    system: string,
    fuelPrice: real,
    coefficient: real)

  function MakeEntry(info: StationInfo, vendor: string, item: (string, real)): Entry
    requires info.fuelPricePerG != 0.0
  {
    Entry(item.0, item.1, vendor, info.name, info.system, info.fuelPricePerG,
          item.1 / info.fuelPricePerG)
  }

  /** The entries of one vendor's inventory, in inventory order. */
  function VendorEntries(info: StationInfo, vendor: string, items: seq<(string, real)>): seq<Entry>
    requires info.fuelPricePerG != 0.0
  {
    seq(|items|, i requires 0 <= i < |items| => MakeEntry(info, vendor, items[i]))
  }

  /** The entries of several vendors, vendor by vendor. */
  function InventoryEntries(info: StationInfo, vendors: seq<(string, seq<(string, real)>)>): seq<Entry>
    requires info.fuelPricePerG != 0.0
  {
    if vendors == [] then []
    else InventoryEntries(info, vendors[..|vendors| - 1])
         + VendorEntries(info, vendors[|vendors| - 1].0, vendors[|vendors| - 1].1)
  }

  function ItemCount(vendors: seq<(string, seq<(string, real)>)>): nat
  {
    if vendors == [] then 0 else ItemCount(vendors[..|vendors| - 1]) + |vendors[|vendors| - 1].1|
  }

  /** The entries of one station; the first item divides by the fuel price,
      so a zero fuel price raises as soon as there is any item. */
  function StationEntries(info: StationInfo): Result<seq<Entry>>
  {
    if info.fuelPricePerG != 0.0 then Ok(InventoryEntries(info, info.vendors))
    else if ItemCount(info.vendors) == 0 then Ok([])
    else Raise(ZeroDivisionError)
  }

  /** The loop of `read_items` with the entries collected so far: a station
      with missing data discards everything and ends the loop. */
  function ReadLoop(js: seq<StationInfo>, acc: seq<Entry>): (r: Result<seq<Entry>>)
    ensures r.Raise? ==> r.error == ZeroDivisionError
    decreases |js|
  {
    if js == [] then Ok(acc)
    else if js[0].missingData then Ok([])
    else
      var es :- StationEntries(js[0]);
      ReadLoop(js[1..], acc + es)
  }

  function ReadItems(js: seq<StationInfo>): Result<seq<Entry>>
  {
    ReadLoop(js, [])
  }

  /** An entry whose coefficient is its item price over its fuel price. */
  predicate WellPriced(e: Entry)
  {
    e.fuelPrice != 0.0 && e.coefficient * e.fuelPrice == e.itemPrice
  }

  lemma {:induction false} InventoryEntriesWellPriced(info: StationInfo, vendors: seq<(string, seq<(string, real)>)>)
    requires info.fuelPricePerG != 0.0
    ensures |InventoryEntries(info, vendors)| == ItemCount(vendors)
    ensures forall e :: e in InventoryEntries(info, vendors) ==>
      WellPriced(e) && e.station == info.name && e.system == info.system
    decreases |vendors|
  {
    if vendors != [] {
      InventoryEntriesWellPriced(info, vendors[..|vendors| - 1]);
    }
  }

  /** Every entry read has the station's name and system and a coefficient
      equal to item price over fuel price. */
  lemma {:induction false} ReadLoopWellPriced(js: seq<StationInfo>, acc: seq<Entry>)
    requires forall e :: e in acc ==> WellPriced(e)
    requires ReadLoop(js, acc).Ok?
    ensures forall e :: e in ReadLoop(js, acc).value ==> WellPriced(e)
    decreases |js|
  {
    if js != [] && !js[0].missingData {
      var es := StationEntries(js[0]).value;
      if js[0].fuelPricePerG != 0.0 {
        InventoryEntriesWellPriced(js[0], js[0].vendors);
      }
      ReadLoopWellPriced(js[1..], acc + es);
    }
  }

  /** A station with missing data makes `read_items` return nothing once
      every station before it has been read without error. */
  lemma {:induction false} ReadLoopMissing(js: seq<StationInfo>, acc: seq<Entry>, i: nat)
    requires i < |js| && js[i].missingData
    requires forall j :: 0 <= j < i ==> StationEntries(js[j]).Ok?
    ensures ReadLoop(js, acc) == Ok([])
    decreases i
  {
    if i > 0 {
      assert !js[0].missingData || ReadLoop(js, acc) == Ok([]);
      if !js[0].missingData {
        ReadLoopMissing(js[1..], acc + StationEntries(js[0]).value, i - 1);
      }
    }
  }

  /** The number of items listed by all stations. */
  function TotalItems(js: seq<StationInfo>): nat
  {
    if js == [] then 0 else ItemCount(js[0].vendors) + TotalItems(js[1..])
  }

  /** Without missing data, reading succeeds exactly when no station with
      items has a zero fuel price, and yields one entry per listed item. */
  lemma {:induction false} ReadLoopComplete(js: seq<StationInfo>, acc: seq<Entry>)
    requires forall i :: 0 <= i < |js| ==> !js[i].missingData
    ensures ReadLoop(js, acc).Ok? <==>
      forall i :: 0 <= i < |js| ==> js[i].fuelPricePerG != 0.0 || ItemCount(js[i].vendors) == 0
    ensures ReadLoop(js, acc).Ok? ==> |ReadLoop(js, acc).value| == |acc| + TotalItems(js)
    decreases |js|
  {
    if js != [] {
      if js[0].fuelPricePerG != 0.0 {
        InventoryEntriesWellPriced(js[0], js[0].vendors);
      }
      if StationEntries(js[0]).Ok? {
        ReadLoopComplete(js[1..], acc + StationEntries(js[0]).value);
        assert forall i :: 1 <= i < |js| ==> js[i] == js[1..][i - 1];
      }
    }
  }

  /** What `read_items` reads: nothing when some station has missing data
      and every earlier one reads cleanly; otherwise one well-priced entry
      per listed item, or ZeroDivisionError for a zero fuel price. */
  lemma ReadItemsSpec(js: seq<StationInfo>)
    ensures ReadItems(js).Ok? ==> forall e :: e in ReadItems(js).value ==> WellPriced(e)
    ensures (exists i :: 0 <= i < |js| && js[i].missingData &&
               forall j :: 0 <= j < i ==> StationEntries(js[j]).Ok?) ==> ReadItems(js) == Ok([])
    ensures (forall i :: 0 <= i < |js| ==> !js[i].missingData) ==>
      (ReadItems(js).Ok? <==>
         forall i :: 0 <= i < |js| ==> js[i].fuelPricePerG != 0.0 || ItemCount(js[i].vendors) == 0)
    ensures (forall i :: 0 <= i < |js| ==> !js[i].missingData) && ReadItems(js).Ok? ==>
      |ReadItems(js).value| == TotalItems(js)
  {
    if ReadItems(js).Ok? {
      ReadLoopWellPriced(js, []);
    }
    if exists i :: 0 <= i < |js| && js[i].missingData && forall j :: 0 <= j < i ==> StationEntries(js[j]).Ok? {
      var i :| 0 <= i < |js| && js[i].missingData && forall j :: 0 <= j < i ==> StationEntries(js[j]).Ok?;
      ReadLoopMissing(js, [], i);
    }
    if forall i :: 0 <= i < |js| ==> !js[i].missingData {
      ReadLoopComplete(js, []);
    }
  }

  function StationOf(e: Entry): string { e.station }

  function SlugOf(e: Entry): string { e.slug }

  /** `available_on_station_by_slug[slug]`: every station that sells it. */
  function Avail(es: seq<Entry>, slug: string): set<string>
  {
    set e | e in es && e.slug == slug :: e.station
  }

  /** The distinct prices of a slug's entries. */
  function PriceSet(g: seq<Entry>): set<real>
  {
    set e | e in g :: e.itemPrice
  }

  predicate SamePrice(g: seq<Entry>)
  {
    forall i, j :: 0 <= i < |g| && 0 <= j < |g| ==> g[i].itemPrice == g[j].itemPrice
  }

  /** A slug's entries are kept when there is one, or when they share a
      single price. */
  predicate Unambiguous(g: seq<Entry>)
  {
    |g| == 1 || |PriceSet(g)| == 1
  }

  /** One distinct price means a non-empty list of equal prices. */
  lemma UnambiguousIff(g: seq<Entry>)
    ensures Unambiguous(g) <==> |g| > 0 && SamePrice(g)
  {
    if |PriceSet(g)| == 1 {
      var p :| p in PriceSet(g);
      assert |PriceSet(g) - {p}| == 0;
      assert PriceSet(g) == {p};
      forall i, j | 0 <= i < |g| && 0 <= j < |g|
        ensures g[i].itemPrice == g[j].itemPrice
      {
        assert g[i].itemPrice in PriceSet(g) && g[j].itemPrice in PriceSet(g);
      }
    }
    if |g| > 0 && SamePrice(g) {
      assert PriceSet(g) == {g[0].itemPrice} by {
        forall p | p in PriceSet(g)
          ensures p == g[0].itemPrice
        {
          var e :| e in g && e.itemPrice == p;
          var i :| 0 <= i < |g| && g[i] == e;
        }
        assert g[0].itemPrice in PriceSet(g);
      }
    }
  }

  /** The `cleaned_entries` loop: the slug groups with unambiguous pricing,
      in dict order. */
  function Clean(gs: seq<(string, seq<Entry>)>): (r: seq<(string, seq<Entry>)>)
    ensures forall i :: 0 <= i < |r| ==> r[i] in gs && |r[i].1| > 0
  {
    if gs == [] then []
    else
      var last := gs[|gs| - 1];
      var front := Clean(gs[..|gs| - 1]);
      if Unambiguous(last.1) then
        UnambiguousIff(last.1);
        front + [last]
      else front
  }

  /** A slug survives cleaning iff it has one entry or all its entries
      share one price. */
  lemma {:induction false} CleanKeeps(gs: seq<(string, seq<Entry>)>, p: (string, seq<Entry>))
    ensures p in Clean(gs) <==> p in gs && |p.1| > 0 && (|p.1| == 1 || SamePrice(p.1))
    decreases |gs|
  {
    if gs != [] {
      var init := gs[..|gs| - 1];
      CleanKeeps(init, p);
      assert gs == init + [gs[|gs| - 1]];
      UnambiguousIff(p.1);
    }
  }

  /** What the narrowing loop needs to know of a slug: the price and
      coefficient of its first entry and the stations selling it. */
  datatype SlugInfo = SlugInfo(slug: string, price: real, coefficient: real, stations: set<string>)

  function Infos(gs: seq<(string, seq<Entry>)>, es: seq<Entry>): (r: seq<SlugInfo>)
    requires forall i :: 0 <= i < |gs| ==> |gs[i].1| > 0
    ensures |r| == |gs|
  {
    seq(|gs|, i requires 0 <= i < |gs| =>
      SlugInfo(gs[i].0, gs[i].1[0].itemPrice, gs[i].1[0].coefficient, Avail(es, gs[i].0)))
  }

  /** The two stable sorts of the station's slugs, by price descending and
      then by availability ascending, order slugs by availability first and
      price second. */
  function SlugLe(x: SlugInfo, y: SlugInfo): bool
  {
    |x.stations| < |y.stations| || (|x.stations| == |y.stations| && x.price >= y.price)
  }

  lemma SlugLeIsTotalPreorder()
    ensures TotalPreorder(SlugLe)
  {
  }

  /** The state of the narrowing loop: the interval, the station
      combinations used so far, the slugs whose price range was applied, and
      the interval after each update (the loop's debug trace). */
  datatype LoopState = LoopState(
    iv: Interval,
    combos: seq<set<string>>,
    used: seq<string>,
    trace: seq<Interval>)

  const Start: LoopState := LoopState(Initial, [], [], [])

  /** A multi-station slug whose station set was already used is skipped. */
  predicate Skipped(x: SlugInfo, st: LoopState)
  {
    |x.stations| > 1 && x.stations in st.combos
  }

  /** The `for slug in station_slugs` loop: apply each slug's fuel-price
      range `minmax(slug) / coefficient` and stop at the first convergence. */
  function Narrow(slugs: seq<SlugInfo>, st: LoopState, minmax: string -> (real, real)): (r: Result<LoopState>)
    requires Reachable(st.iv)
    ensures r.Ok? ==> Reachable(r.value.iv)
    ensures r.Raise? ==> r.error == ZeroDivisionError
    decreases |slugs|
  {
    if slugs == [] then Ok(st)
    else
      var x := slugs[0];
      if Skipped(x, st) then Narrow(slugs[1..], st, minmax)
      else if x.coefficient == 0.0 then Raise(ZeroDivisionError)
      else
        var bounds := minmax(x.slug);
        var iv := Update(st.iv, bounds.0 / x.coefficient, bounds.1 / x.coefficient);
        UpdateNarrows(st.iv, bounds.0 / x.coefficient, bounds.1 / x.coefficient);
        var combos := if |x.stations| > 1 then st.combos + [x.stations] else st.combos;
        var st' := LoopState(iv, combos, st.used + [x.slug], st.trace + [iv]);
        if Converged(iv) then Ok(st') else Narrow(slugs[1..], st', minmax)
  }

  /** No interval in the trace before the last one is converged. */
  predicate NoEarlyConvergence(trace: seq<Interval>)
  {
    forall k :: 0 <= k < |trace| - 1 ==> !Converged(trace[k])
  }

  /** `r` continues the loop from `st`: the trace only grows, no interval
      before its last is converged, and the final interval is the last one
      in the trace (or the starting one if nothing was applied). */
  predicate Continues(st: LoopState, r: LoopState)
  {
    && st.trace <= r.trace
    && NoEarlyConvergence(r.trace)
    && (r.trace == st.trace ==> r.iv == st.iv)
    && (r.trace != [] ==> r.trace[|r.trace| - 1] == r.iv)
  }

  /** The loop stops at the first convergence. */
  lemma {:induction false} NarrowStopsAtFirstConvergence(slugs: seq<SlugInfo>, st: LoopState, minmax: string -> (real, real))
    requires Reachable(st.iv) && !Converged(st.iv)
    requires forall k :: 0 <= k < |st.trace| ==> !Converged(st.trace[k])
    requires st.trace != [] ==> st.trace[|st.trace| - 1] == st.iv
    ensures Narrow(slugs, st, minmax).Ok? ==> Continues(st, Narrow(slugs, st, minmax).value)
    decreases |slugs|
  {
    if slugs != [] && Narrow(slugs, st, minmax).Ok? {
      var x := slugs[0];
      if Skipped(x, st) {
        NarrowStopsAtFirstConvergence(slugs[1..], st, minmax);
      } else {
        var bounds := minmax(x.slug);
        var iv := Update(st.iv, bounds.0 / x.coefficient, bounds.1 / x.coefficient);
        UpdateNarrows(st.iv, bounds.0 / x.coefficient, bounds.1 / x.coefficient);
        var combos := if |x.stations| > 1 then st.combos + [x.stations] else st.combos;
        var st' := LoopState(iv, combos, st.used + [x.slug], st.trace + [iv]);
        if Converged(iv) {
          assert Narrow(slugs, st, minmax) == Ok(st');
          StopHere(st, st');
        } else {
          assert Narrow(slugs, st, minmax) == Narrow(slugs[1..], st', minmax);
          NarrowStopsAtFirstConvergence(slugs[1..], st', minmax);
          ContinueFrom(st, st', Narrow(slugs[1..], st', minmax).value);
        }
      }
    }
  }

  lemma StopHere(st: LoopState, st': LoopState)
    requires forall k :: 0 <= k < |st.trace| ==> !Converged(st.trace[k])
    requires st'.trace == st.trace + [st'.iv]
    ensures Continues(st, st')
  {
    assert st.trace <= st'.trace;
  }

  lemma ContinueFrom(st: LoopState, st': LoopState, r: LoopState)
    requires st'.trace == st.trace + [st'.iv]
    requires Continues(st', r)
    ensures Continues(st, r)
  {
    assert st.trace <= st'.trace;
  }

  /** A slug the loop has dealt with: applied, or skipped for a station
      combination already used. */
  predicate Considered(x: SlugInfo, st: LoopState)
  {
    x.slug in st.used || Skipped(x, st)
  }

  /** A loop that ends without converging has considered every slug; the
      used slugs and the combinations only grow. */
  lemma {:induction false} NarrowConsidersAll(slugs: seq<SlugInfo>, st: LoopState, minmax: string -> (real, real))
    requires Reachable(st.iv)
    ensures Narrow(slugs, st, minmax).Ok? ==>
      var r := Narrow(slugs, st, minmax).value;
      && st.used <= r.used
      && st.combos <= r.combos
      && (!Converged(r.iv) ==> forall i :: 0 <= i < |slugs| ==> Considered(slugs[i], r))
    decreases |slugs|
  {
    if slugs != [] && Narrow(slugs, st, minmax).Ok? {
      var x := slugs[0];
      var r := Narrow(slugs, st, minmax).value;
      if Skipped(x, st) {
        NarrowConsidersAll(slugs[1..], st, minmax);
        assert x.stations in r.combos by {
          var j :| 0 <= j < |st.combos| && st.combos[j] == x.stations;
          assert r.combos[j] == x.stations;
        }
      } else {
        var bounds := minmax(x.slug);
        var iv := Update(st.iv, bounds.0 / x.coefficient, bounds.1 / x.coefficient);
        UpdateNarrows(st.iv, bounds.0 / x.coefficient, bounds.1 / x.coefficient);
        var combos := if |x.stations| > 1 then st.combos + [x.stations] else st.combos;
        var st' := LoopState(iv, combos, st.used + [x.slug], st.trace + [iv]);
        if !Converged(iv) {
          NarrowConsidersAll(slugs[1..], st', minmax);
          assert r.used[|st.used|] == x.slug;
        }
      }
      if !Converged(r.iv) {
        forall i | 1 <= i < |slugs|
          ensures Considered(slugs[i], r)
        {
          assert slugs[i] == slugs[1..][i - 1];
        }
      }
    }
  }

  predicate Distinct(combos: seq<set<string>>)
  {
    forall i, j :: 0 <= i < j < |combos| ==> combos[i] != combos[j]
  }

  /** The station combinations the loop records are pairwise distinct. */
  lemma {:induction false} NarrowCombosDistinct(slugs: seq<SlugInfo>, st: LoopState, minmax: string -> (real, real))
    requires Reachable(st.iv) && Distinct(st.combos)
    ensures Narrow(slugs, st, minmax).Ok? ==> Distinct(Narrow(slugs, st, minmax).value.combos)
    decreases |slugs|
  {
    if slugs != [] && Narrow(slugs, st, minmax).Ok? {
      var x := slugs[0];
      if Skipped(x, st) {
        assert Narrow(slugs, st, minmax) == Narrow(slugs[1..], st, minmax);
        NarrowCombosDistinct(slugs[1..], st, minmax);
      } else {
        var bounds := minmax(x.slug);
        var iv := Update(st.iv, bounds.0 / x.coefficient, bounds.1 / x.coefficient);
        UpdateNarrows(st.iv, bounds.0 / x.coefficient, bounds.1 / x.coefficient);
        var combos := if |x.stations| > 1 then st.combos + [x.stations] else st.combos;
        assert Distinct(combos);
        var st' := LoopState(iv, combos, st.used + [x.slug], st.trace + [iv]);
        if !Converged(iv) {
          NarrowCombosDistinct(slugs[1..], st', minmax);
        }
      }
    }
  }

  /** The unambiguous slugs of a station in dict order: the order in which
      the station's entries first list them. */
  function StationSlugsInDictOrder(es: seq<Entry>, station: string): seq<SlugInfo>
  {
    var stationEntries := Lookup(EntriesByKey(es, StationOf), station);
    var cleaned := Clean(EntriesByKey(stationEntries, SlugOf));
    Infos(cleaned, es)
  }

  /** The slugs a station's loop runs over: its cleaned slugs ordered by
      availability, then price. */
  function StationSlugs(es: seq<Entry>, station: string): seq<SlugInfo>
  {
    SortBy(StationSlugsInDictOrder(es, station), SlugLe)
  }

  /** The slugs of a station come in ascending availability, and at equal
      availability in descending price; slugs equal in both keep their
      dict order, as the two stable sorts leave them; each is an
      unambiguous slug sold at that station. */
  lemma StationSlugsOrdered(es: seq<Entry>, station: string)
    ensures SortedBy(StationSlugs(es, station), SlugLe)
    ensures forall v :: Ties(StationSlugs(es, station), SlugLe, v) == Ties(StationSlugsInDictOrder(es, station), SlugLe, v)
    ensures forall x :: x in StationSlugs(es, station) ==> station in x.stations
  {
    SlugLeIsTotalPreorder();
    StationSlugsSold(es, station);
  }

  lemma StationSlugsSold(es: seq<Entry>, station: string)
    ensures forall x :: x in StationSlugs(es, station) ==> station in x.stations
  {
    var stationEntries := Lookup(EntriesByKey(es, StationOf), station);
    LookupEntriesByKey(es, StationOf, station);
    var gs := EntriesByKey(stationEntries, SlugOf);
    EntriesByKeyPartitions(stationEntries, SlugOf);
    CleanKeepsFiltered(stationEntries, gs);
    var cleaned := Clean(gs);
    InfosSold(es, station, stationEntries, cleaned);
    PermutationMembers(StationSlugs(es, station), Infos(cleaned, es));
  }

  lemma CleanKeepsFiltered(stationEntries: seq<Entry>, gs: seq<(string, seq<Entry>)>)
    requires GroupsFiltered(stationEntries, SlugOf, gs)
    ensures GroupsFiltered(stationEntries, SlugOf, Clean(gs))
  {
    var cleaned := Clean(gs);
    forall i | 0 <= i < |cleaned|
      ensures cleaned[i].1 == Filter(stationEntries, SlugOf, cleaned[i].0)
    {
      var j :| 0 <= j < |gs| && gs[j] == cleaned[i];
    }
  }

  lemma InfosSold(es: seq<Entry>, station: string, stationEntries: seq<Entry>, cleaned: seq<(string, seq<Entry>)>)
    requires stationEntries == Filter(es, StationOf, station)
    requires GroupsFiltered(stationEntries, SlugOf, cleaned)
    requires forall i :: 0 <= i < |cleaned| ==> |cleaned[i].1| > 0
    ensures forall x :: x in Infos(cleaned, es) ==> station in x.stations
  {
    var infos := Infos(cleaned, es);
    forall x | x in infos
      ensures station in x.stations
    {
      var i :| 0 <= i < |infos| && infos[i] == x;
      GroupSold(es, station, stationEntries, cleaned[i].0, cleaned[i].1);
    }
  }

  /** A non-empty group of a station's entries for one slug shows that the
      station sells the slug. */
  lemma GroupSold(es: seq<Entry>, station: string, stationEntries: seq<Entry>, slug: string, g: seq<Entry>)
    requires stationEntries == Filter(es, StationOf, station)
    requires g == Filter(stationEntries, SlugOf, slug) && |g| > 0
    ensures station in Avail(es, slug)
  {
    FilterMembers(stationEntries, SlugOf, slug, g[0]);
    FilterMembers(es, StationOf, station, g[0]);
  }

  lemma {:induction false} FilterMembers<E, K>(es: seq<E>, key: E -> K, k: K, e: E)
    ensures e in Filter(es, key, k) <==> e in es && key(e) == k
    decreases |es|
  {
    if es != [] {
      FilterMembers(es[..|es| - 1], key, k, e);
      assert es == es[..|es| - 1] + [es[|es| - 1]];
    }
  }

  /** One station's narrowing loop from a fresh interval. */
  function StationInterval(es: seq<Entry>, station: string, minmax: string -> (real, real)): Result<LoopState>
  {
    Narrow(StationSlugs(es, station), Start, minmax)
  }

  /** `Interval.guess`: the most common of the prices seen, with the
      median `v`. */
  function Guess(v: MedianVersion, iv: Interval): (r: Result<Option<real>>)
    ensures r.Raise? ==> r.error == ZeroDivisionError || (v == AsWritten && r.error == IndexError)
    ensures iv.pricesSeen == [] ==> r == (if v == AsWritten then Raise(IndexError) else Ok(None))
  {
    MostCommonNumber(v, iv.pricesSeen, Accuracy)
  }

  /** A station's entry in the result: the midpoint of a converged
      interval, otherwise the guess from all prices seen, and none if that
      has no clear winner. The program's guess uses `median` as written
      (`v == AsWritten`), which adds IndexError to the errors. */
  function StationPrice(es: seq<Entry>, station: string, minmax: string -> (real, real), v: MedianVersion): (r: Result<Option<real>>)
    ensures r.Raise? ==> r.error == ZeroDivisionError || (v == AsWritten && r.error == IndexError)
  {
    var st :- StationInterval(es, station, minmax);
    if Converged(st.iv) then
      MidpointOfConverged(st.iv);
      Ok(Some(Midpoint(st.iv).v))
    else Guess(v, st.iv)
  }

  /** The stations that have vendor entries. */
  function Stations(es: seq<Entry>): set<string>
  {
    set e | e in es :: e.station
  }

  /** The loop that builds the result, over the stations in the order
      `visit` with each station's outcome `price`: a station with a price is
      entered, one without is left out, and the first station whose price
      raises ends the run. */
  function PriceLoop(visit: seq<string>, price: string -> Result<Option<real>>): (r: Result<map<string, real>>)
    ensures r.Ok? <==> forall i :: 0 <= i < |visit| ==> price(visit[i]).Ok?
    ensures r.Raise? ==>
      exists i :: && 0 <= i < |visit| && price(visit[i]) == Raise(r.error)
                  && forall j :: 0 <= j < i ==> price(visit[j]).Ok?
    ensures r.Ok? ==> forall s :: s in r.value <==> s in visit && price(s).value.Some?
    ensures r.Ok? ==> forall s :: s in r.value ==> price(s) == Ok(Some(r.value[s]))
    decreases |visit|
  {
    if visit == [] then Ok(map[])
    else
      var p := price(visit[0]);
      var rest := PriceLoop(visit[1..], price);
      assert forall i :: 1 <= i < |visit| ==> visit[i] == visit[1..][i - 1];
      assert visit == [visit[0]] + visit[1..];
      if p.Raise? then Raise(p.error)
      else if rest.Raise? then
        Raise(rest.error)
      else if p.value.Some? then Ok(rest.value[visit[0] := p.value.value])
      else Ok(rest.value)
  }

  /** The prices of the stations of `es`. */
  function PriceOf(es: seq<Entry>, minmax: string -> (real, real), v: MedianVersion): string -> Result<Option<real>>
  {
    (s: string) => StationPrice(es, s, minmax, v)
  }

  /** `get_fuel_prices` after loading the report: exit when no entries were
      read, a zero coefficient in any station's narrowing loop ends the run
      before any guess, and otherwise the result loop visits the stations in
      the order `visit` (sorted by midpoint, a permutation of the stations
      whose order among unbounded intervals Python leaves unspecified). */
  function GetFuelPrices(js: seq<StationInfo>, minmax: string -> (real, real), v: MedianVersion, visit: seq<string>): (r: Result<map<string, real>>)
    requires ReadItems(js).Ok? ==> forall s :: s in visit <==> s in Stations(ReadItems(js).value)
    ensures ReadItems(js) == Ok([]) ==> r == Raise(SystemExit)
    ensures r.Raise? ==> r.error == SystemExit || r.error == ZeroDivisionError || (v == AsWritten && r.error == IndexError)
    ensures r.Ok? ==> ReadItems(js).Ok? && forall s :: s in r.value ==> exists e :: e in ReadItems(js).value && e.station == s
  {
    var es :- ReadItems(js);
    if es == [] then Raise(SystemExit)
    else if exists s :: s in Stations(es) && StationInterval(es, s, minmax).Raise? then
      Raise(ZeroDivisionError)
    else
      var r := PriceLoop(visit, PriceOf(es, minmax, v));
      assert r.Raise? ==> exists s :: s in visit && StationPrice(es, s, minmax, v) == Raise(r.error);
      r
  }

  /** A converged station gets the midpoint of its interval, which lies
      inside the interval when it is not inverted; the median plays no
      part. */
  lemma StationPriceConverged(es: seq<Entry>, station: string, minmax: string -> (real, real), v: MedianVersion)
    requires StationInterval(es, station, minmax).Ok?
    requires Converged(StationInterval(es, station, minmax).value.iv)
    ensures ConvergedPrice(StationInterval(es, station, minmax).value.iv, StationPrice(es, station, minmax, v))
  {
    StationIntervalReachable(es, station, minmax);
    PriceOfConverged(es, station, minmax, v);
    MidpointPrice(StationInterval(es, station, minmax).value.iv, StationPrice(es, station, minmax, v));
  }

  lemma PriceOfConverged(es: seq<Entry>, station: string, minmax: string -> (real, real), v: MedianVersion)
    requires StationInterval(es, station, minmax).Ok?
    requires Converged(StationInterval(es, station, minmax).value.iv)
    ensures StationPrice(es, station, minmax, v) == Ok(Some(Midpoint(StationInterval(es, station, minmax).value.iv).v))
  {
  }

  lemma MidpointPrice(iv: Interval, price: Result<Option<real>>)
    requires Reachable(iv) && Converged(iv)
    requires price == Ok(Some(Midpoint(iv).v))
    ensures ConvergedPrice(iv, price)
  {
    MidpointOfConverged(iv);
  }

  /** A station's loop stops at the first convergence. */
  lemma StationStopsAtFirstConvergence(es: seq<Entry>, station: string, minmax: string -> (real, real))
    requires StationInterval(es, station, minmax).Ok?
    ensures NoEarlyConvergence(StationInterval(es, station, minmax).value.trace)
  {
    NarrowStopsAtFirstConvergence(StationSlugs(es, station), Start, minmax);
  }

  /** The price is the midpoint of the finite interval `iv`, and lies
      inside it when it is not inverted. */
  predicate ConvergedPrice(iv: Interval, price: Result<Option<real>>)
  {
    && iv.lo.Fin? && iv.hi.Fin?
    && price == Ok(Some((iv.lo.v + iv.hi.v) / 2.0))
    && (iv.lo.v <= iv.hi.v ==> iv.lo.v <= (iv.lo.v + iv.hi.v) / 2.0 <= iv.hi.v)
  }

  lemma StationIntervalReachable(es: seq<Entry>, station: string, minmax: string -> (real, real))
    requires StationInterval(es, station, minmax).Ok?
    ensures Reachable(StationInterval(es, station, minmax).value.iv)
  {
  }

  /** A station whose interval did not converge and that the program
      prices gets `median` as written of the clearly dominant streak of all
      prices seen: that streak has at least three elements, and the price
      lies between the streak's true median and its largest element. */
  lemma StationPriceGuessed(es: seq<Entry>, station: string, minmax: string -> (real, real))
    requires StationInterval(es, station, minmax).Ok?
    requires !Converged(StationInterval(es, station, minmax).value.iv)
    requires StationPrice(es, station, minmax, AsWritten).Ok? && StationPrice(es, station, minmax, AsWritten).value.Some?
    ensures UpperMedianGuess(StationInterval(es, station, minmax).value.iv.pricesSeen, Accuracy,
                             StationPrice(es, station, minmax, AsWritten).value.value)
  {
    var seen := StationInterval(es, station, minmax).value.iv.pricesSeen;
    StationPriceUnconverged(es, station, minmax, AsWritten);
    FindMostCommonNumberAsWrittenIsUpperMedian(seen, Accuracy);
  }

  /** With the corrected median, such a station gets a median of the
      clearly dominant streak of all prices seen. */
  lemma StationPriceGuessedCorrected(es: seq<Entry>, station: string, minmax: string -> (real, real))
    requires StationInterval(es, station, minmax).Ok?
    requires !Converged(StationInterval(es, station, minmax).value.iv)
    requires StationPrice(es, station, minmax, Corrected).Ok? && StationPrice(es, station, minmax, Corrected).value.Some?
    ensures var seen := StationInterval(es, station, minmax).value.iv.pricesSeen;
      && Split(Sort(seen), Accuracy).Ok?
      && var ss := Split(Sort(seen), Accuracy).value;
      && Dominant(ss, LongestIndex(ss))
      && IsMedianOf(StationPrice(es, station, minmax, Corrected).value.value, ss[LongestIndex(ss)])
  {
    var seen := StationInterval(es, station, minmax).value.iv.pricesSeen;
    StationPriceUnconverged(es, station, minmax, Corrected);
    FindMostCommonNumberIsMedian(seen, Accuracy);
  }

  lemma StationPriceUnconverged(es: seq<Entry>, station: string, minmax: string -> (real, real), v: MedianVersion)
    requires StationInterval(es, station, minmax).Ok?
    requires !Converged(StationInterval(es, station, minmax).value.iv)
    ensures StationPrice(es, station, minmax, v) ==
      match v
      case AsWritten => FindMostCommonNumberAsWritten(StationInterval(es, station, minmax).value.iv.pricesSeen, Accuracy)
      case Corrected => FindMostCommonNumber(StationInterval(es, station, minmax).value.iv.pricesSeen, Accuracy)
  {
  }

  /** A station all of whose slugs are ambiguous has no price seen and
      never converges: the program's guess raises IndexError, while the
      corrected one leaves the station without a price. */
  lemma StationWithoutSlugs(es: seq<Entry>, station: string, minmax: string -> (real, real))
    requires StationSlugs(es, station) == []
    ensures StationPrice(es, station, minmax, AsWritten) == Raise(IndexError)
    ensures StationPrice(es, station, minmax, Corrected) == Ok(None)
  {
    assert StationInterval(es, station, minmax) == Ok(Start);
    assert !Converged(Initial);
  }

  /** The stations with a price are exactly those whose interval converged
      or whose guess found a clear winner, each with its own price. */
  lemma GetFuelPricesDomain(js: seq<StationInfo>, minmax: string -> (real, real), v: MedianVersion, visit: seq<string>, s: string)
    requires ReadItems(js).Ok? ==> forall s :: s in visit <==> s in Stations(ReadItems(js).value)
    requires GetFuelPrices(js, minmax, v, visit).Ok?
    ensures var es := ReadItems(js).value;
      s in GetFuelPrices(js, minmax, v, visit).value <==>
        && s in Stations(es)
        && StationInterval(es, s, minmax).Ok?
        && (|| Converged(StationInterval(es, s, minmax).value.iv)
            || Guess(v, StationInterval(es, s, minmax).value.iv).value.Some?)
    ensures s in GetFuelPrices(js, minmax, v, visit).value ==>
      StationPrice(ReadItems(js).value, s, minmax, v) == Ok(Some(GetFuelPrices(js, minmax, v, visit).value[s]))
  {
    var es := ReadItems(js).value;
    var r := PriceLoop(visit, PriceOf(es, minmax, v));
    assert GetFuelPrices(js, minmax, v, visit) == r;
    if s in Stations(es) {
      var i :| 0 <= i < |visit| && visit[i] == s;
      assert PriceOf(es, minmax, v)(visit[i]).Ok?;
    }
  }

  /** The program raises IndexError, or the ZeroDivisionError of an
      earlier failure, as soon as one station has only ambiguous slugs;
      the corrected program leaves that station out. */
  lemma AmbiguousStationEndsRun(js: seq<StationInfo>, minmax: string -> (real, real), visit: seq<string>, s: string)
    requires ReadItems(js).Ok? ==> forall s :: s in visit <==> s in Stations(ReadItems(js).value)
    requires ReadItems(js).Ok? && s in Stations(ReadItems(js).value) && StationSlugs(ReadItems(js).value, s) == []
    ensures GetFuelPrices(js, minmax, AsWritten, visit).Raise?
    ensures GetFuelPrices(js, minmax, Corrected, visit).Ok? ==> s !in GetFuelPrices(js, minmax, Corrected, visit).value
  {
    var es := ReadItems(js).value;
    StationWithoutSlugs(es, s, minmax);
    var i :| 0 <= i < |visit| && visit[i] == s;
    assert es != [];
    assert PriceOf(es, minmax, AsWritten)(visit[i]).Raise?;
    assert PriceOf(es, minmax, Corrected)(visit[i]) == Ok(None);
  }
}

=== FILE: gct.dfy ===
/** Galactic Coordinated Time stamps (utt/gct.py), on whole units counted
    from the epoch: a day has 100000 units, and a stamp `DDD.DD/DD:DDD`
    spells a ten-digit unit count, the day number around the dot and the
    unit of the day around the colon. The epoch date and the 0.864 seconds
    per unit are left to the caller. */
module Gct {
  import opened Wrappers

  const UnitsPerDay := 100000

  predicate IsDigit(c: char)
  {
    '0' <= c <= '9'
  }

  predicate AllDigits(s: string)
  {
    forall i :: 0 <= i < |s| ==> IsDigit(s[i])
  }

  function DigitValue(c: char): int
  {
    c as int - '0' as int
  }

  function DigitChar(d: int): (c: char)
    requires 0 <= d < 10
    ensures IsDigit(c) && DigitValue(c) == d
  {
    ('0' as int + d) as char
  }

  function Pow10(k: nat): (r: nat)
    ensures r >= 1
  {
    if k == 0 then 1 else 10 * Pow10(k - 1)
  }

  /** `int(s)` of a string of decimal digits. */
  function Value(s: string): int
  {
    if s == [] then 0 else 10 * Value(s[..|s| - 1]) + DigitValue(s[|s| - 1])
  }

  /** `str(n)` of a non-negative number. */
  function NatStr(n: nat): (s: string)
    ensures |s| >= 1
  {
    if n < 10 then [DigitChar(n)] else NatStr(n / 10) + [DigitChar(n % 10)]
  }

  /** `str(n)`: a minus sign before the digits of a negative number. */
  function Str(n: int): string
  {
    if n < 0 then "-" + NatStr(-n) else NatStr(n)
  }

  /** `str.replace(c, '')`. */
  function Remove(s: string, c: char): (r: string)
    ensures |r| <= |s|
  {
    if s == [] then []
    else Remove(s[..|s| - 1], c) + (if s[|s| - 1] == c then [] else [s[|s| - 1]])
  }

  /** `gct_re.match(s)` succeeds: `re.match` anchors only at the start, and
      the optional `\s*GCT` suffix never changes whether it matches, so the
      test is on the first thirteen characters. */
  predicate Matches(s: string)
  {
    |s| >= 13 && Shape(s[..13])
  }

  /** Thirteen characters of the form `DDD.DD/DD:DDD`. */
  predicate Shape(p: string)
  {
    && |p| == 13
    && AllDigits(p[0..3]) && p[3] == '.' && AllDigits(p[4..6])
    && p[6] == '/' && AllDigits(p[7..9]) && p[9] == ':' && AllDigits(p[10..13])
  }

  /** `parse_gct` as a unit count from the epoch; `None` when the pattern
      does not match. */
  function Parse(s: string): Option<int>
  {
    if Matches(s) then Some(StampValue(s[..13])) else None
  }

  /** The first group of a stamp without its dot is the day, the second
      without its colon the unit of the day. */
  function StampValue(p: string): int
    requires |p| == 13
  {
    Value(Remove(p[0..6], '.')) * UnitsPerDay + Value(Remove(p[7..13], ':'))
  }

  /** Python's `t[a:b]` for a string: negative indices count from the end,
      and out-of-range indices are clamped. */
  function Slice(t: string, a: int, b: int): (r: string)
    ensures |r| <= |t|
  {
    var s := Clamp(|t|, a);
    var e := Clamp(|t|, b);
    if s < e then t[s..e] else []
  }

  function Clamp(len: nat, i: int): (r: nat)
    ensures r <= len
  {
    if i < 0 then (if len + i < 0 then 0 else len + i) else if i > len then len else i
  }

  /** The digit string cut into `…./../..:...`: the last three digits after
      the colon, the two before after the slash, the two before those after
      the dot and the rest before the dot. */
  function Layout(t: string): string
  {
    Slice(t, 0, -7) + "." + Slice(t, -7, -5) + "/" + Slice(t, -5, -3) + ":" + Slice(t, -3, |t|)
  }

  /** `int(x + 0.5)`: `int` truncates toward zero, so from a non-negative
      time this rounds to the nearest unit, a half unit up, while below
      minus half a unit it rounds up to the next unit. */
  function RoundUnits(x: real): (r: int)
    ensures x >= -0.5 ==> r >= 0 && (r as real) - 0.5 <= x < (r as real) + 0.5
    ensures x < -0.5 ==> r <= 0 && (r as real) - 1.5 < x <= (r as real) - 0.5
  {
    var y := x + 0.5;
    if y >= 0.0 then y.Floor else -((-y).Floor)
  }

  /** `as_gct` of an elapsed time already divided into units. */
  function Format(elapsedUnits: real): string
  {
    Layout(Str(RoundUnits(elapsedUnits)))
  }

  /** A stamp is read from its first thirteen characters only: whatever
      follows is ignored. */
  lemma ParseIgnoresTail(s: string, tail: string)
    requires |s| >= 13
    ensures Parse(s + tail) == Parse(s)
  {
    assert (s + tail)[..13] == s[..13];
  }

  lemma {:induction false} ValueBound(s: string)
    requires AllDigits(s)
    ensures 0 <= Value(s) < Pow10(|s|)
    decreases |s|
  {
    if s != [] {
      ValueBound(s[..|s| - 1]);
    }
  }

  lemma {:induction false} ValueAppend(a: string, b: string)
    ensures Value(a + b) == Value(a) * Pow10(|b|) + Value(b)
    decreases |b|
  {
    if b == [] {
      assert a + b == a;
    } else {
      var b' := b[..|b| - 1];
      assert (a + b)[..|a + b| - 1] == a + b';
      ValueAppend(a, b');
      ShiftDigit(Value(a), Pow10(|b'|), Value(b'), DigitValue(b[|b| - 1]));
    }
  }

  /** Two digit strings of one length with the same value are equal. */
  lemma {:induction false} ValueInjective(a: string, b: string)
    requires AllDigits(a) && AllDigits(b) && |a| == |b|
    requires Value(a) == Value(b)
    ensures a == b
    decreases |a|
  {
    if a != [] {
      var a', b' := a[..|a| - 1], b[..|b| - 1];
      LastDigitsEqual(Value(a'), Value(b'), DigitValue(a[|a| - 1]), DigitValue(b[|b| - 1]));
      ValueInjective(a', b');
      assert a == a' + [a[|a| - 1]] && b == b' + [b[|b| - 1]];
    }
  }

  lemma ShiftDigit(x: int, p: int, y: int, d: int)
    ensures 10 * (x * p + y) + d == x * (10 * p) + (10 * y + d)
  {
  }

  /** A number written as tens and a last digit determines both. */
  lemma LastDigitsEqual(x: int, y: int, dx: int, dy: int)
    requires 0 <= dx < 10 && 0 <= dy < 10
    requires 10 * x + dx == 10 * y + dy
    ensures x == y && dx == dy
  {
  }

  /** `str(n)` spells `n` in digits. */
  lemma {:induction false} NatStrValue(n: nat)
    ensures AllDigits(NatStr(n)) && Value(NatStr(n)) == n
    decreases n
  {
    if n >= 10 {
      NatStrValue(n / 10);
      var s := NatStr(n);
      assert s[..|s| - 1] == NatStr(n / 10);
    }
  }

  /** `str(n)` has `k` digits or fewer exactly when `n < 10^k`. */
  lemma {:induction false} NatStrLength(n: nat, k: nat)
    requires k >= 1
    ensures |NatStr(n)| <= k <==> n < Pow10(k)
    decreases k
  {
    if k > 1 && n >= 10 {
      NatStrLength(n / 10, k - 1);
    }
  }

  /** A ten-digit number is written in exactly ten digits. */
  lemma TenDigits(n: int)
    ensures n >= 0 && |Str(n)| == 10 <==> Pow10(9) <= n < Pow10(10)
  {
    if n >= 0 {
      NatStrLength(n, 9);
      NatStrLength(n, 10);
    }
  }

  /** The layout of ten characters. */
  lemma LayoutTen(t: string)
    requires |t| == 10
    ensures Layout(t) == t[0..3] + "." + t[3..5] + "/" + t[5..7] + ":" + t[7..10]
  {
  }

  /** The layout of ten digits has the shape of a stamp, the digits in
      order around the separators. */
  lemma LayoutShape(t: string)
    requires |t| == 10 && AllDigits(t)
    ensures var p := Layout(t);
      && Shape(p)
      && p[0..3] + p[4..6] + p[7..9] + p[10..13] == t
  {
    LayoutTen(t);
    var p := Layout(t);
    assert p[0..3] == t[0..3] && p[4..6] == t[3..5] && p[7..9] == t[5..7] && p[10..13] == t[7..10];
    assert t == t[0..3] + t[3..5] + t[5..7] + t[7..10];
  }

  /** Parsing the layout of ten digits gives back their value. */
  lemma ParseLayout(t: string)
    requires |t| == 10 && AllDigits(t)
    ensures Parse(Layout(t)) == Some(Value(t))
  {
    LayoutShape(t);
    var p := Layout(t);
    assert p[..13] == p;
    StampDigits(p, t);
  }

  /** A stamp's value is the value of its ten digits. */
  lemma StampDigits(p: string, t: string)
    requires Shape(p) && t == p[0..3] + p[4..6] + p[7..9] + p[10..13]
    ensures |t| == 10 && AllDigits(t)
    ensures StampValue(p) == Value(t)
  {
    StampGroups(p);
    var days, units := p[0..3] + p[4..6], p[7..9] + p[10..13];
    ValueAppend(days, units);
    assert Pow10(5) == UnitsPerDay;
    assert t == days + units;
    assert AllDigits(t) by {
      forall i | 0 <= i < |t|
        ensures IsDigit(t[i])
      {
        if i < 5 {
          assert t[i] == days[i];
        } else {
          assert t[i] == units[i - 5];
        }
      }
    }
  }

  /** The ten digits of a stamp, laid out again, give the stamp back. */
  lemma StampLayout(p: string, t: string)
    requires Shape(p) && t == p[0..3] + p[4..6] + p[7..9] + p[10..13]
    ensures Layout(t) == p
  {
    LayoutTen(t);
    assert t[0..3] == p[0..3] && t[3..5] == p[4..6] && t[5..7] == p[7..9] && t[7..10] == p[10..13];
    Assemble(p);
  }

  /** A stamp is its four digit groups and its three separators. */
  lemma Assemble(p: string)
    requires Shape(p)
    ensures p == p[0..3] + "." + p[4..6] + "/" + p[7..9] + ":" + p[10..13]
  {
    assert p == p[0..3] + [p[3]] + p[4..6] + [p[6]] + p[7..9] + [p[9]] + p[10..13];
  }

  lemma {:induction false} RemoveConcat(a: string, b: string, c: char)
    ensures Remove(a + b, c) == Remove(a, c) + Remove(b, c)
    decreases |b|
  {
    if b == [] {
      assert a + b == a;
    } else {
      var b' := b[..|b| - 1];
      assert (a + b)[..|a + b| - 1] == a + b';
      RemoveConcat(a, b', c);
    }
  }

  lemma {:induction false} RemoveAbsent(s: string, c: char)
    requires AllDigits(s) && !IsDigit(c)
    ensures Remove(s, c) == s
    decreases |s|
  {
    if s != [] {
      RemoveAbsent(s[..|s| - 1], c);
    }
  }

  /** Formatting a unit count and parsing the stamp gives the count back
      exactly for ten-digit counts; every other count, negative ones
      included, is formatted into a string the pattern rejects. */
  lemma FormatParseRoundTrip(n: int)
    ensures Parse(Layout(Str(n))).Some? <==> Pow10(9) <= n < Pow10(10)
    ensures Pow10(9) <= n < Pow10(10) ==> Parse(Layout(Str(n))) == Some(n)
  {
    TenDigits(n);
    if n >= 0 {
      NatStrValue(n);
      if |Str(n)| == 10 {
        ParseLayout(Str(n));
      } else {
        LayoutRejected(Str(n));
      }
    } else {
      NegativeRejected(n);
    }
  }

  /** The layout of a digit string of any other length than ten does not
      match: a shorter one puts the dot within the first three places, a
      longer one puts a digit where the dot belongs. */
  lemma LayoutRejected(t: string)
    requires AllDigits(t) && |t| != 10
    ensures !Matches(Layout(t))
  {
    var s := Layout(t);
    var front := Slice(t, 0, -7);
    if |t| < 10 {
      assert s[|front|] == '.';
      assert |front| < 3;
      assert !AllDigits(s[0..3]) by {
        assert s[0..3][|front|] == '.';
      }
    } else {
      assert front == t[..|t| - 7];
      assert s[3] == t[3];
    }
  }

  /** A negative count starts its stamp with the minus sign, or with the dot
      when it has few digits. */
  lemma NegativeRejected(n: int)
    requires n < 0
    ensures !Matches(Layout(Str(n)))
  {
    var t := Str(n);
    var s := Layout(t);
    if |t| > 7 {
      assert s[0] == t[0] == '-';
    } else {
      assert s[0] == '.';
    }
    assert !IsDigit(s[0]);
    assert |s| < 13 || !AllDigits(s[..13][0..3]) by {
      if |s| >= 13 {
        assert s[..13][0..3][0] == s[0];
      }
    }
  }

  /** A stamp's count splits into its day and its unit of the day, which is
      below 100000. */
  lemma ParseSplits(s: string)
    requires Matches(s)
    ensures var v := Parse(s).value;
      && v / UnitsPerDay == Value(s[0..3] + s[4..6])
      && v % UnitsPerDay == Value(s[7..9] + s[10..13])
  {
    var p := s[..13];
    assert p[0..3] == s[0..3] && p[4..6] == s[4..6] && p[7..9] == s[7..9] && p[10..13] == s[10..13];
    StampGroups(p);
    ValueBound(p[0..3] + p[4..6]);
    ValueBound(p[7..9] + p[10..13]);
    assert Pow10(5) == UnitsPerDay;
  }

  /** The two groups of a stamp without their separators. */
  lemma StampGroups(p: string)
    requires Shape(p)
    ensures Remove(p[0..6], '.') == p[0..3] + p[4..6]
    ensures Remove(p[7..13], ':') == p[7..9] + p[10..13]
    ensures AllDigits(p[0..3] + p[4..6]) && AllDigits(p[7..9] + p[10..13])
  {
    assert p[0..6] == p[0..3] + ['.'] + p[4..6];
    RemoveAbsent(p[0..3], '.');
    RemoveAbsent(p[4..6], '.');
    RemoveConcat(p[0..3] + ['.'], p[4..6], '.');
    RemoveConcat(p[0..3], ['.'], '.');
    assert p[7..13] == p[7..9] + [':'] + p[10..13];
    RemoveAbsent(p[7..9], ':');
    RemoveAbsent(p[10..13], ':');
    RemoveConcat(p[7..9] + [':'], p[10..13], ':');
    RemoveConcat(p[7..9], [':'], ':');
  }

  /** Two stamps with the same count agree on their first thirteen
      characters: distinct stamps stand for distinct times. */
  lemma ParseInjective(s: string, s': string)
    requires Matches(s) && Matches(s')
    requires Parse(s) == Parse(s')
    ensures s[..13] == s'[..13]
  {
    var p, p' := s[..13], s'[..13];
    var t, t' := p[0..3] + p[4..6] + p[7..9] + p[10..13], p'[0..3] + p'[4..6] + p'[7..9] + p'[10..13];
    StampDigits(p, t);
    StampDigits(p', t');
    ValueInjective(t, t');
    StampLayout(p, t);
    StampLayout(p', t');
  }

  /** A stamp whose count has ten digits is what `as_gct` writes for that
      count, up to what follows the first thirteen characters. */
  lemma ParseFormatRoundTrip(s: string)
    requires Matches(s) && Parse(s).value >= Pow10(9)
    ensures Layout(Str(Parse(s).value)) == s[..13]
  {
    var p := s[..13];
    var t := p[0..3] + p[4..6] + p[7..9] + p[10..13];
    StampDigits(p, t);
    StampLayout(p, t);
    DigitsOfValue(t);
  }

  /** Ten digits not starting with zero are how `str` writes their value. */
  lemma DigitsOfValue(t: string)
    requires |t| == 10 && AllDigits(t) && Value(t) >= Pow10(9)
    ensures Str(Value(t)) == t
  {
    var v := Value(t);
    ValueBound(t);
    TenDigits(v);
    NatStrValue(v);
    ValueInjective(NatStr(v), t);
  }
}

=== FILE: grouping.dfy ===
/** `entries_by_key` (run-fuel-price-strategy.py): entries collected into a
    dict of lists by a key, the dict keeping its keys in order of first
    appearance. The dict is a sequence of (key, group) pairs here. */
module Grouping {

  /** The entries of `es` whose key is `k`, in input order. */
  function Filter<E, K(==)>(es: seq<E>, key: E -> K, k: K): (r: seq<E>)
    ensures |r| <= |es|
  {
    if es == [] then []
    else Filter(es[..|es| - 1], key, k) + (if key(es[|es| - 1]) == k then [es[|es| - 1]] else [])
  }

  predicate HasKey<E, K(==)>(gs: seq<(K, seq<E>)>, k: K)
  {
    exists i :: 0 <= i < |gs| && gs[i].0 == k
  }

  /** `collected[k].append(e)`, creating the empty list first when `k` is new. */
  function AddEntry<E, K(==)>(gs: seq<(K, seq<E>)>, k: K, e: E): seq<(K, seq<E>)>
  {
    if HasKey(gs, k) then
      seq(|gs|, i requires 0 <= i < |gs| => if gs[i].0 == k then (k, gs[i].1 + [e]) else gs[i])
    else gs + [(k, [e])]
  }

  function EntriesByKey<E, K(==)>(es: seq<E>, key: E -> K): seq<(K, seq<E>)>
  {
    if es == [] then []
    else
      var e := es[|es| - 1];
      AddEntry(EntriesByKey(es[..|es| - 1], key), key(e), e)
  }

  function SumSizes<E, K>(gs: seq<(K, seq<E>)>): nat
  {
    if gs == [] then 0 else SumSizes(gs[..|gs| - 1]) + |gs[|gs| - 1].1|
  }

  ghost predicate KeysDistinct<E, K>(gs: seq<(K, seq<E>)>)
  {
    forall i, j :: 0 <= i < j < |gs| ==> gs[i].0 != gs[j].0
  }

  ghost predicate GroupsFiltered<E, K>(es: seq<E>, key: E -> K, gs: seq<(K, seq<E>)>)
  {
    forall i :: 0 <= i < |gs| ==> gs[i].1 == Filter(es, key, gs[i].0)
  }

  ghost predicate KeysCovered<E, K>(es: seq<E>, key: E -> K, gs: seq<(K, seq<E>)>)
  {
    && (forall i :: 0 <= i < |es| ==> HasKey(gs, key(es[i])))
    && (forall j :: 0 <= j < |gs| ==> exists i :: 0 <= i < |es| && key(es[i]) == gs[j].0)
  }

  /** The groups partition the input: keys are distinct, every key of the
      input has its group and no other key has one, each group holds
      exactly the entries with its key in input order, and the sizes add up
      to the input length. */
  ghost predicate Partitions<E, K>(es: seq<E>, key: E -> K, gs: seq<(K, seq<E>)>)
  {
    && KeysDistinct(gs)
    && GroupsFiltered(es, key, gs)
    && KeysCovered(es, key, gs)
    && SumSizes(gs) == |es|
  }

  lemma FilterSnoc<E, K>(es: seq<E>, e: E, key: E -> K, k: K)
    ensures Filter(es + [e], key, k) == Filter(es, key, k) + (if key(e) == k then [e] else [])
  {
    assert (es + [e])[..|es|] == es;
  }

  lemma {:induction false} FilterEmpty<E, K>(es: seq<E>, key: E -> K, k: K)
    requires forall i :: 0 <= i < |es| ==> key(es[i]) != k
    ensures Filter(es, key, k) == []
  {
    if es != [] {
      FilterEmpty(es[..|es| - 1], key, k);
    }
  }

  /** Growing one group by one entry grows the total by one. */
  lemma {:induction false} SumSizesGrow<E, K>(gs: seq<(K, seq<E>)>, hs: seq<(K, seq<E>)>, m: nat)
    requires |gs| == |hs| && m < |gs|
    requires forall i :: 0 <= i < |gs| && i != m ==> |hs[i].1| == |gs[i].1|
    requires |hs[m].1| == |gs[m].1| + 1
    ensures SumSizes(hs) == SumSizes(gs) + 1
    decreases |gs|
  {
    var n := |gs| - 1;
    if m == n {
      SumSizesSame(gs[..n], hs[..n]);
    } else {
      SumSizesGrow(gs[..n], hs[..n], m);
    }
  }

  lemma {:induction false} SumSizesSame<E, K>(gs: seq<(K, seq<E>)>, hs: seq<(K, seq<E>)>)
    requires |gs| == |hs|
    requires forall i :: 0 <= i < |gs| ==> |hs[i].1| == |gs[i].1|
    ensures SumSizes(hs) == SumSizes(gs)
    decreases |gs|
  {
    if gs != [] {
      SumSizesSame(gs[..|gs| - 1], hs[..|hs| - 1]);
    }
  }

  lemma AddEntryShape<E, K>(gs: seq<(K, seq<E>)>, k: K, e: E)
    requires HasKey(gs, k)
    ensures |AddEntry(gs, k, e)| == |gs|
    ensures forall i :: 0 <= i < |gs| ==> AddEntry(gs, k, e)[i].0 == gs[i].0
    ensures forall i :: 0 <= i < |gs| ==>
      AddEntry(gs, k, e)[i].1 == if gs[i].0 == k then gs[i].1 + [e] else gs[i].1
  {
  }

  /** Adding an entry whose key already has a group. */
  lemma AddToGroup<E, K>(init: seq<E>, e: E, key: E -> K, gs: seq<(K, seq<E>)>)
    requires Partitions(init, key, gs) && HasKey(gs, key(e))
    ensures Partitions(init + [e], key, AddEntry(gs, key(e), e))
  {
    var es := init + [e];
    var k := key(e);
    var hs := AddEntry(gs, k, e);
    AddEntryShape(gs, k, e);
    var m :| 0 <= m < |gs| && gs[m].0 == k;
    assert KeysDistinct(hs);
    AddToGroupContents(init, e, key, gs);
    AddToGroupSizes(gs, k, e, m);
    AddToGroupKeys(init, e, key, gs, m);
  }

  lemma AddToGroupContents<E, K>(init: seq<E>, e: E, key: E -> K, gs: seq<(K, seq<E>)>)
    requires HasKey(gs, key(e))
    requires GroupsFiltered(init, key, gs)
    ensures GroupsFiltered(init + [e], key, AddEntry(gs, key(e), e))
  {
    AddEntryShape(gs, key(e), e);
    forall i | 0 <= i < |gs|
      ensures AddEntry(gs, key(e), e)[i].1 == Filter(init + [e], key, gs[i].0)
    {
      FilterSnoc(init, e, key, gs[i].0);
    }
  }

  lemma AddToGroupSizes<E, K>(gs: seq<(K, seq<E>)>, k: K, e: E, m: nat)
    requires m < |gs| && gs[m].0 == k
    requires KeysDistinct(gs)
    ensures SumSizes(AddEntry(gs, k, e)) == SumSizes(gs) + 1
  {
    AddEntryShape(gs, k, e);
    var hs := AddEntry(gs, k, e);
    forall i | 0 <= i < |gs| && i != m
      ensures |hs[i].1| == |gs[i].1|
    {
      assert gs[i].0 != k;
    }
    SumSizesGrow(gs, hs, m);
  }

  lemma AddToGroupKeys<E, K>(init: seq<E>, e: E, key: E -> K, gs: seq<(K, seq<E>)>, m: nat)
    requires m < |gs| && gs[m].0 == key(e)
    requires KeysCovered(init, key, gs)
    ensures KeysCovered(init + [e], key, AddEntry(gs, key(e), e))
  {
    var es := init + [e];
    AddEntryShape(gs, key(e), e);
    var hs := AddEntry(gs, key(e), e);
    forall i | 0 <= i < |es|
      ensures HasKey(hs, key(es[i]))
    {
      if i < |init| {
        assert es[i] == init[i];
        assert HasKey(gs, key(init[i]));
        var j :| 0 <= j < |gs| && gs[j].0 == key(es[i]);
        assert hs[j].0 == key(es[i]);
      } else {
        assert hs[m].0 == key(es[i]);
      }
    }
    forall j | 0 <= j < |hs|
      ensures exists i :: 0 <= i < |es| && key(es[i]) == hs[j].0
    {
      var i :| 0 <= i < |init| && key(init[i]) == gs[j].0;
      assert es[i] == init[i];
    }
  }

  /** Adding an entry with a new key opens a group at the end. */
  lemma AddNewGroup<E, K>(init: seq<E>, e: E, key: E -> K, gs: seq<(K, seq<E>)>)
    requires Partitions(init, key, gs) && !HasKey(gs, key(e))
    ensures Partitions(init + [e], key, AddEntry(gs, key(e), e))
  {
    var hs := gs + [(key(e), [e])];
    assert AddEntry(gs, key(e), e) == hs;
    NewGroupDistinct(gs, key(e), [e]);
    NewGroupFiltered(init, e, key, gs, hs);
    NewGroupCovered(init, e, key, gs, hs);
    assert hs[..|gs|] == gs;
  }

  lemma NewGroupDistinct<E, K>(gs: seq<(K, seq<E>)>, k: K, g: seq<E>)
    requires KeysDistinct(gs) && !HasKey(gs, k)
    ensures KeysDistinct(gs + [(k, g)])
  {
  }

  lemma NewGroupFiltered<E, K>(init: seq<E>, e: E, key: E -> K, gs: seq<(K, seq<E>)>, hs: seq<(K, seq<E>)>)
    requires GroupsFiltered(init, key, gs) && !HasKey(gs, key(e))
    requires forall i :: 0 <= i < |init| ==> HasKey(gs, key(init[i]))
    requires hs == gs + [(key(e), [e])]
    ensures GroupsFiltered(init + [e], key, hs)
  {
    var es := init + [e];
    var k := key(e);
    forall i | 0 <= i < |init|
      ensures key(init[i]) != k
    {
      assert HasKey(gs, key(init[i]));
    }
    FilterEmpty(init, key, k);
    FilterSnoc(init, e, key, k);
    forall i | 0 <= i < |hs|
      ensures hs[i].1 == Filter(es, key, hs[i].0)
    {
      if i < |gs| {
        assert hs[i] == gs[i];
        FilterSnoc(init, e, key, gs[i].0);
      }
    }
  }

  lemma NewGroupCovered<E, K>(init: seq<E>, e: E, key: E -> K, gs: seq<(K, seq<E>)>, hs: seq<(K, seq<E>)>)
    requires KeysCovered(init, key, gs)
    requires hs == gs + [(key(e), [e])]
    ensures KeysCovered(init + [e], key, hs)
  {
    var es := init + [e];
    forall i | 0 <= i < |es|
      ensures HasKey(hs, key(es[i]))
    {
      if i < |init| {
        assert es[i] == init[i];
        var j :| 0 <= j < |gs| && gs[j].0 == key(es[i]);
        assert hs[j].0 == key(es[i]);
      } else {
        assert hs[|gs|].0 == key(es[i]);
      }
    }
    forall j | 0 <= j < |hs|
      ensures exists i :: 0 <= i < |es| && key(es[i]) == hs[j].0
    {
      if j < |gs| {
        var i :| 0 <= i < |init| && key(init[i]) == gs[j].0;
        assert es[i] == init[i] && hs[j] == gs[j];
      } else {
        assert key(es[|es| - 1]) == hs[j].0;
      }
    }
    assert forall j :: 0 <= j < |hs| ==> exists i :: 0 <= i < |init + [e]| && key((init + [e])[i]) == hs[j].0;
  }

  lemma {:induction false} EntriesByKeyPartitions<E, K>(es: seq<E>, key: E -> K)
    ensures Partitions(es, key, EntriesByKey(es, key))
    decreases |es|
  {
    if es != [] {
      var init := es[..|es| - 1];
      var e := es[|es| - 1];
      assert es == init + [e];
      EntriesByKeyPartitions(init, key);
      if HasKey(EntriesByKey(init, key), key(e)) {
        AddToGroup(init, e, key, EntriesByKey(init, key));
      } else {
        AddNewGroup(init, e, key, EntriesByKey(init, key));
      }
    }
  }

  /** `collected[k]`: the group stored under `k`, empty when there is none. */
  function Lookup<E, K(==)>(gs: seq<(K, seq<E>)>, k: K): seq<E>
  {
    if gs == [] then []
    else if gs[|gs| - 1].0 == k then gs[|gs| - 1].1
    else Lookup(gs[..|gs| - 1], k)
  }

  lemma {:induction false} LookupFinds<E, K>(gs: seq<(K, seq<E>)>, k: K)
    ensures HasKey(gs, k) ==> exists i :: 0 <= i < |gs| && gs[i].0 == k && Lookup(gs, k) == gs[i].1
    ensures !HasKey(gs, k) ==> Lookup(gs, k) == []
    decreases |gs|
  {
    if gs != [] {
      var init := gs[..|gs| - 1];
      LookupFinds(init, k);
      assert forall i :: 0 <= i < |init| ==> init[i] == gs[i];
      if gs[|gs| - 1].0 != k && HasKey(gs, k) {
        var i :| 0 <= i < |gs| && gs[i].0 == k;
        assert HasKey(init, k);
      }
    }
  }

  /** Looking a key up in the collected dict gives exactly the entries with
      that key, in input order. */
  lemma LookupEntriesByKey<E, K>(es: seq<E>, key: E -> K, k: K)
    ensures Lookup(EntriesByKey(es, key), k) == Filter(es, key, k)
  {
    var gs := EntriesByKey(es, key);
    EntriesByKeyPartitions(es, key);
    LookupFinds(gs, k);
    if !HasKey(gs, k) {
      forall i | 0 <= i < |es|
        ensures key(es[i]) != k
      {
        assert HasKey(gs, key(es[i]));
      }
      FilterEmpty(es, key, k);
    }
  }
}

=== FILE: interval.dfy ===
/** The `Interval` class of run-fuel-price-strategy.py: a fuel-price
    interval that starts as (-inf, +inf) and is narrowed by every item whose
    price range implies a range for the fuel price. Python floats are exact
    reals here, extended with the three non-finite values the class meets. */
module Intervals {

  /** A Python float: a finite value, one of the infinities, or NaN. */
  datatype Float = NegInf | Fin(v: real) | PosInf | NaN

  /** `x < y` on floats; every comparison with NaN is false. */
  predicate Less(x: Float, y: Float)
  {
    match (x, y)
    case (Fin(a), Fin(b)) => a < b
    case (NegInf, Fin(_)) => true
    case (NegInf, PosInf) => true
    case (Fin(_), PosInf) => true
    case _ => false
  }

  function Add(x: Float, y: Float): (r: Float)
    ensures x.Fin? && y.Fin? ==> r == Fin(x.v + y.v)
    ensures x.NaN? || y.NaN? ==> r.NaN?
  {
    match (x, y)
    case (Fin(a), Fin(b)) => Fin(a + b)
    case (NaN, _) => NaN
    case (_, NaN) => NaN
    case (NegInf, PosInf) => NaN
    case (PosInf, NegInf) => NaN
    case (NegInf, _) => NegInf
    case (PosInf, _) => PosInf
    case (_, NegInf) => NegInf
    case (_, PosInf) => PosInf
  }

  function Negate(x: Float): Float
  {
    match x
    case NegInf => PosInf
    case PosInf => NegInf
    case Fin(a) => Fin(-a)
    case NaN => NaN
  }

  function Sub(x: Float, y: Float): Float
  {
    Add(x, Negate(y))
  }

  /** Multiplication by the positive constant 0.5. */
  function Half(x: Float): Float
  {
    match x
    case Fin(a) => Fin(0.5 * a)
    case _ => x
  }

  /** `INTERVAL_THRESHOLD`. */
  const Threshold: real := 0.5

  datatype Interval = Interval(lo: Float, hi: Float, pricesSeen: seq<real>)

  /** `Interval()`: min = -inf, max = +inf, nothing seen. */
  const Initial: Interval := Interval(NegInf, PosInf, [])

  /** `Interval.update(a, b)`: records both prices, then raises `min` to `a`
      when `a` is greater and lowers `max` to `b` when `b` is smaller. */
  function Update(iv: Interval, a: real, b: real): Interval
  {
    Interval(
      if Less(iv.lo, Fin(a)) then Fin(a) else iv.lo,
      if Less(Fin(b), iv.hi) then Fin(b) else iv.hi,
      iv.pricesSeen + [a, b])
  }

  /** The ends an `Interval` can have: `min` is -inf or finite, `max` is
      finite or +inf. */
  predicate Reachable(iv: Interval)
  {
    (iv.lo.NegInf? || iv.lo.Fin?) && (iv.hi.PosInf? || iv.hi.Fin?)
  }

  /** `x <= y` when neither is NaN. */
  predicate NotAbove(x: Float, y: Float)
  {
    x == y || Less(x, y)
  }

  /** `update` appends exactly `a, b` to the prices seen, never lowers
      `min`, never raises `max`, leaves both ends finite, and after it
      `min >= a` and `max <= b`. */
  lemma UpdateNarrows(iv: Interval, a: real, b: real)
    requires Reachable(iv)
    ensures Update(iv, a, b).pricesSeen == iv.pricesSeen + [a, b]
    ensures Reachable(Update(iv, a, b))
    ensures NotAbove(iv.lo, Update(iv, a, b).lo)
    ensures NotAbove(Update(iv, a, b).hi, iv.hi)
    ensures Update(iv, a, b).lo.Fin? && a <= Update(iv, a, b).lo.v
    ensures Update(iv, a, b).hi.Fin? && Update(iv, a, b).hi.v <= b
  {
  }

  /** `Interval.length() < INTERVAL_THRESHOLD`. */
  predicate Converged(iv: Interval)
  {
    Less(Sub(iv.hi, iv.lo), Fin(Threshold))
  }

  /** `Interval.midpoint()`. */
  function Midpoint(iv: Interval): Float
  {
    Half(Add(iv.lo, iv.hi))
  }

  /** `is_converged` holds exactly when both ends are finite and
      `max - min < 0.5`; an inverted interval (`min > max`) is converged. */
  lemma ConvergedIff(iv: Interval)
    requires Reachable(iv)
    ensures Converged(iv) <==> iv.lo.Fin? && iv.hi.Fin? && iv.hi.v - iv.lo.v < Threshold
    ensures iv.lo.Fin? && iv.hi.Fin? && iv.lo.v > iv.hi.v ==> Converged(iv)
  {
  }

  /** A converged interval has a finite midpoint, which lies between its
      ends when they are in order. */
  lemma MidpointOfConverged(iv: Interval)
    requires Reachable(iv) && Converged(iv)
    ensures iv.lo.Fin? && iv.hi.Fin?
    ensures Midpoint(iv) == Fin((iv.lo.v + iv.hi.v) / 2.0)
    ensures iv.lo.v <= iv.hi.v ==> iv.lo.v <= Midpoint(iv).v <= iv.hi.v
  {
    ConvergedIff(iv);
  }

  /** The interval of a fresh `Interval` that received the updates `ps`
      in order. */
  function UpdateAll(iv: Interval, ps: seq<(real, real)>): Interval
  {
    if ps == [] then iv
    else
      var last := ps[|ps| - 1];
      Update(UpdateAll(iv, ps[..|ps| - 1]), last.0, last.1)
  }

  /** The prices every update reported, flattened in order. */
  function Flatten(ps: seq<(real, real)>): seq<real>
  {
    if ps == [] then [] else Flatten(ps[..|ps| - 1]) + [ps[|ps| - 1].0, ps[|ps| - 1].1]
  }

  /** After a non-empty series of updates from the initial interval, `min`
      is the greatest lower price reported, `max` the least upper price, and
      `prices_seen` lists every reported price in order. */
  lemma {:induction false} UpdateAllBounds(ps: seq<(real, real)>)
    requires |ps| > 0
    ensures UpdateAll(Initial, ps).lo.Fin? && UpdateAll(Initial, ps).hi.Fin?
    ensures exists i :: 0 <= i < |ps| && UpdateAll(Initial, ps).lo.v == ps[i].0
    ensures forall i :: 0 <= i < |ps| ==> ps[i].0 <= UpdateAll(Initial, ps).lo.v
    ensures exists i :: 0 <= i < |ps| && UpdateAll(Initial, ps).hi.v == ps[i].1
    ensures forall i :: 0 <= i < |ps| ==> UpdateAll(Initial, ps).hi.v <= ps[i].1
    ensures UpdateAll(Initial, ps).pricesSeen == Flatten(ps)
  {
    var init := ps[..|ps| - 1];
    var last := ps[|ps| - 1];
    if init == [] {
      assert ps == [last];
    } else {
      UpdateAllBounds(init);
      var prev := UpdateAll(Initial, init);
      var j :| 0 <= j < |init| && prev.lo.v == init[j].0;
      var k :| 0 <= k < |init| && prev.hi.v == init[k].1;
      var r := UpdateAll(Initial, ps);
      assert forall i :: 0 <= i < |init| ==> init[i] == ps[i];
      if last.0 > prev.lo.v {
        assert r.lo.v == ps[|ps| - 1].0;
      } else {
        assert r.lo.v == ps[j].0;
      }
      if last.1 < prev.hi.v {
        assert r.hi.v == ps[|ps| - 1].1;
      } else {
        assert r.hi.v == ps[k].1;
      }
    }
  }
}

=== FILE: model.dfy ===
/** The tables and helpers of utt/model.py that carry logic: station and
    system lookup, the canonical station pair, the fit fields of a pair and
    their baseline/amplitude form, and the factor of a career-task reading.
    The database is a value: each table is a sequence of rows in table
    order, and a new row gets an id above every id in use. */
module Model {
  import opened Wrappers
  import opened Strings
  import opened Numeric

  datatype System = System(id: int, name: string)

  datatype Station = Station(id: int, systemId: int, name: string, nameLower: string)

  /** The four fitted parameters of a station pair; each column is nullable. */
  datatype Fit = Fit(
    period: Option<real>,
    minDistance: Option<real>,
    maxDistance: Option<real>,
    phase: Option<real>)

  const NoFit: Fit := Fit(None, None, None, None)

  datatype StationPair = StationPair(id: int, systemId: int, stationA: int, stationB: int, fit: Fit)

  datatype Db = Db(systems: seq<System>, stations: seq<Station>, pairs: seq<StationPair>)

  /** An id above every id in `ids`. */
  function FreshId(ids: seq<int>): (r: int)
    ensures r >= 1
    ensures forall i :: 0 <= i < |ids| ==> ids[i] < r
  {
    if ids == [] then 1
    else
      var r := FreshId(ids[..|ids| - 1]);
      assert forall i :: 0 <= i < |ids| - 1 ==> ids[i] == ids[..|ids| - 1][i];
      if ids[|ids| - 1] < r then r else ids[|ids| - 1] + 1
  }

  /** Ids that no system row has and no station row refers to. */
  function FreshSystemId(db: Db): int
  {
    FreshId(seq(|db.systems|, i requires 0 <= i < |db.systems| => db.systems[i].id)
          + seq(|db.stations|, i requires 0 <= i < |db.stations| => db.stations[i].systemId))
  }

  function FreshStationId(db: Db): int
  {
    FreshId(seq(|db.stations|, i requires 0 <= i < |db.stations| => db.stations[i].id))
  }

  function FreshPairId(db: Db): int
  {
    FreshId(seq(|db.pairs|, i requires 0 <= i < |db.pairs| => db.pairs[i].id))
  }

  /** The first system whose name equals `name` ignoring case. */
  function FindSystem(systems: seq<System>, name: string): (r: Option<System>)
    ensures r.Some? ==> r.value in systems && Lower(r.value.name) == Lower(name)
    ensures r.None? ==> forall i :: 0 <= i < |systems| ==> Lower(systems[i].name) != Lower(name)
  {
    if systems == [] then None
    else if Lower(systems[0].name) == Lower(name) then Some(systems[0])
    else FindSystem(systems[1..], name)
  }

  /** The first station of system `systemId` whose `name_lower` is `nameLower`. */
  function FindStation(stations: seq<Station>, systemId: int, nameLower: string): (r: Option<Station>)
    ensures r.Some? ==> r.value in stations && r.value.systemId == systemId && r.value.nameLower == nameLower
    ensures r.None? ==> forall i :: 0 <= i < |stations| ==>
      stations[i].systemId != systemId || stations[i].nameLower != nameLower
  {
    if stations == [] then None
    else if stations[0].systemId == systemId && stations[0].nameLower == nameLower then Some(stations[0])
    else FindStation(stations[1..], systemId, nameLower)
  }

  /** The station names that the tracker refuses to store. */
  predicate ProperStationName(name: string)
  {
    !Contains(name, "Confined to the") && !Contains(name, "Doing activity")
  }

  /** Some station, in any system, already has this name or its lower-case
      form: `name` and `name_lower` are unique over the whole table. */
  predicate NameTaken(stations: seq<Station>, name: string)
  {
    exists i :: 0 <= i < |stations| && (stations[i].name == name || stations[i].nameLower == Lower(name))
  }

  /** The unique `name` and `name_lower` columns: no two station rows share
      either. */
  ghost predicate UniqueStationNames(stations: seq<Station>)
  {
    forall i, j :: 0 <= i < |stations| && 0 <= j < |stations| && i != j ==>
      stations[i].name != stations[j].name && stations[i].nameLower != stations[j].nameLower
  }

  /** `get_station(system_name, station_name, create)`. The lookup is within
      the system, but the station columns are unique across systems: a new
      station whose name is already used elsewhere fails with
      IntegrityError when the session flushes, and nothing is stored. */
  function GetStation(db: Db, systemName: string, stationName: string, create: bool): Result<(Db, Station)>
  {
    var (db1, system) :- match FindSystem(db.systems, systemName)
      case Some(s) => Ok((db, s))
      case None =>
        if !create then Raise(AssertionError)
        else
          var s := System(FreshSystemId(db), systemName);
          Ok((db.(systems := db.systems + [s]), s));
    match FindStation(db1.stations, system.id, Lower(stationName))
    case Some(st) => Ok((db1, st))
    case None =>
      if !create then Raise(AssertionError)
      else if !ProperStationName(stationName) then Raise(AssertionError)
      else if NameTaken(db1.stations, stationName) then Raise(IntegrityError)
      else
        var st := Station(FreshStationId(db1), system.id, stationName, Lower(stationName));
        Ok((db1.(stations := db1.stations + [st]), st))
  }

  /** A new system has no stations yet. */
  lemma FreshSystemHasNoStations(db: Db)
    ensures forall i :: 0 <= i < |db.stations| ==> db.stations[i].systemId != FreshSystemId(db)
  {
    var ids := seq(|db.systems|, i requires 0 <= i < |db.systems| => db.systems[i].id)
             + seq(|db.stations|, i requires 0 <= i < |db.stations| => db.stations[i].systemId);
    forall i | 0 <= i < |db.stations|
      ensures db.stations[i].systemId != FreshSystemId(db)
    {
      assert ids[|db.systems| + i] == db.stations[i].systemId;
    }
  }

  /** The station returned matches the name case-insensitively, belongs to a
      system whose name matches case-insensitively, and is in the database;
      existing rows are kept, and only a new system and a new station can
      be added. */
  lemma GetStationFinds(db: Db, systemName: string, stationName: string, create: bool)
    requires GetStation(db, systemName, stationName, create).Ok?
    ensures var (db', st) := GetStation(db, systemName, stationName, create).value;
      && st in db'.stations
      && st.nameLower == Lower(stationName)
      && (exists s :: s in db'.systems && s.id == st.systemId && Lower(s.name) == Lower(systemName))
      && db.systems <= db'.systems && |db'.systems| <= |db.systems| + 1
      && db.stations <= db'.stations && |db'.stations| <= |db.stations| + 1
      && db'.pairs == db.pairs
  {
  }

  /** With `create=False` nothing is added, and the lookup fails with an
      AssertionError exactly when the system or the station is unknown. */
  lemma GetStationNoCreate(db: Db, systemName: string, stationName: string)
    ensures var r := GetStation(db, systemName, stationName, false);
      && (r.Ok? ==> r.value.0 == db)
      && (r.Raise? ==> r.error == AssertionError)
      && (r.Raise? <==>
            || FindSystem(db.systems, systemName).None?
            || FindStation(db.stations, FindSystem(db.systems, systemName).value.id, Lower(stationName)).None?)
  {
  }

  /** A new station whose name contains one of the refused phrases is
      rejected with an AssertionError and nothing is stored. */
  lemma GetStationRejectsImproperName(db: Db, systemName: string, stationName: string, create: bool)
    requires !ProperStationName(stationName)
    requires FindSystem(db.systems, systemName).None? ||
             FindStation(db.stations, FindSystem(db.systems, systemName).value.id, Lower(stationName)).None?
    ensures GetStation(db, systemName, stationName, create) == Raise(AssertionError)
  {
    if FindSystem(db.systems, systemName).None? && create {
      FreshSystemHasNoStations(db);
    }
  }

  /** A new station whose name or lower-case name is already used, by a
      station of any system, raises IntegrityError; this is the only way a
      creating lookup raises it. */
  lemma GetStationNameClash(db: Db, systemName: string, stationName: string)
    ensures GetStation(db, systemName, stationName, true) == Raise(IntegrityError) <==>
      && ProperStationName(stationName)
      && NameTaken(db.stations, stationName)
      && (|| FindSystem(db.systems, systemName).None?
          || FindStation(db.stations, FindSystem(db.systems, systemName).value.id, Lower(stationName)).None?)
  {
    if FindSystem(db.systems, systemName).None? {
      FreshSystemHasNoStations(db);
    }
  }

  /** Two systems holding a station of the same name: the store keeps one
      "Abc", so asking for "Abc" in Vega, where it is unknown, fails. */
  lemma SameStationNameInTwoSystems()
    ensures var db := Db([System(1, "Sol"), System(2, "Vega")], [Station(1, 1, "Abc", "abc")], []);
      GetStation(db, "Vega", "Abc", true) == Raise(IntegrityError)
  {
    var db := Db([System(1, "Sol"), System(2, "Vega")], [Station(1, 1, "Abc", "abc")], []);
    assert Lower("Abc") == "abc";
    assert Lower("Vega") == Lower("vega") && Lower("Sol") != Lower("Vega");
    assert FindSystem(db.systems, "Vega") == Some(System(2, "Vega"));
    assert db.stations[0].name == "Abc";
  }

  /** A successful lookup keeps the station names unique, so two different
      station rows always differ in `name_lower`. */
  lemma GetStationKeepsNamesUnique(db: Db, systemName: string, stationName: string, create: bool)
    requires UniqueStationNames(db.stations)
    requires GetStation(db, systemName, stationName, create).Ok?
    ensures UniqueStationNames(GetStation(db, systemName, stationName, create).value.0.stations)
  {
    var (db', st) := GetStation(db, systemName, stationName, create).value;
    if db'.stations != db.stations {
      assert db'.stations == db.stations + [st] && !NameTaken(db.stations, stationName);
      assert st.name == stationName && st.nameLower == Lower(stationName);
    }
  }

  /** A second lookup with the same names finds what the first returned
      and changes nothing. */
  lemma GetStationIdempotent(db: Db, systemName: string, stationName: string, create: bool, create': bool)
    requires GetStation(db, systemName, stationName, create).Ok?
    ensures var (db', st) := GetStation(db, systemName, stationName, create).value;
      GetStation(db', systemName, stationName, create') == Ok((db', st))
  {
    var (db', st) := GetStation(db, systemName, stationName, create).value;
    var found := FindSystem(db.systems, systemName);
    var system := if found.Some? then found.value else System(FreshSystemId(db), systemName);
    var db1 := if found.Some? then db else db.(systems := db.systems + [system]);
    FindSystemAppend(db.systems, system, systemName);
    assert FindSystem(db'.systems, systemName) == Some(system);
    if found.None? {
      FreshSystemHasNoStations(db);
    }
    FindStationAppend(db1.stations, st, system.id, Lower(stationName));
  }

  lemma {:induction false} FindSystemAppend(systems: seq<System>, s: System, name: string)
    ensures FindSystem(systems, name).Some? ==> FindSystem(systems + [s], name) == FindSystem(systems, name)
    ensures FindSystem(systems, name).None? && Lower(s.name) == Lower(name) ==>
      FindSystem(systems + [s], name) == Some(s)
    decreases |systems|
  {
    if systems != [] {
      FindSystemAppend(systems[1..], s, name);
      assert (systems + [s])[1..] == systems[1..] + [s];
    }
  }

  lemma {:induction false} FindStationAppend(stations: seq<Station>, st: Station, systemId: int, nameLower: string)
    ensures FindStation(stations, systemId, nameLower).Some? ==>
      FindStation(stations + [st], systemId, nameLower) == FindStation(stations, systemId, nameLower)
    ensures FindStation(stations, systemId, nameLower).None? && st.systemId == systemId && st.nameLower == nameLower ==>
      FindStation(stations + [st], systemId, nameLower) == Some(st)
    decreases |stations|
  {
    if stations != [] {
      FindStationAppend(stations[1..], st, systemId, nameLower);
      assert (stations + [st])[1..] == stations[1..] + [st];
    }
  }

  /** The pair row for stations `a` and `b`, in this order. */
  function FindPair(pairs: seq<StationPair>, a: int, b: int): (r: Option<StationPair>)
    ensures r.Some? ==> r.value in pairs && r.value.stationA == a && r.value.stationB == b
    ensures r.None? ==> forall i :: 0 <= i < |pairs| ==> pairs[i].stationA != a || pairs[i].stationB != b
  {
    if pairs == [] then None
    else if pairs[0].stationA == a && pairs[0].stationB == b then Some(pairs[0])
    else FindPair(pairs[1..], a, b)
  }

  /** `sorted((a, b), key=lambda x: x.name_lower)`: a stable sort of two. */
  function Canonical(a: Station, b: Station): (Station, Station)
  {
    if StrLess(b.nameLower, a.nameLower) then (b, a) else (a, b)
  }

  /** `get_station_pair(a, b)`: the pair row of the two stations ordered by
      `name_lower`, created without a fit when it does not exist yet. */
  function GetStationPair(db: Db, a: Station, b: Station): (Db, StationPair)
  {
    var (x, y) := Canonical(a, b);
    match FindPair(db.pairs, x.id, y.id)
    case Some(p) => (db, p)
    case None =>
      var p := StationPair(FreshPairId(db), a.systemId, x.id, y.id, NoFit);
      (db.(pairs := db.pairs + [p]), p)
  }

  /** The pair's first station never sorts after its second. Asking for
      `(a, b)` or `(b, a)` orders the two stations the same way when their
      lower-case names differ, as they do for two different rows of a table
      whose names are unique (`GetStationKeepsNamesUnique`);
      the pair found or created is then the same, except that a new pair
      takes the system of the first argument. */
  lemma GetStationPairSymmetric(db: Db, a: Station, b: Station)
    requires a.nameLower != b.nameLower
    ensures StrLe(Canonical(a, b).0.nameLower, Canonical(a, b).1.nameLower)
    ensures Canonical(a, b) == Canonical(b, a)
    ensures Canonical(a, b) == (a, b) || Canonical(a, b) == (b, a)
    ensures var (_, p) := GetStationPair(db, a, b);
      var (_, q) := GetStationPair(db, b, a);
      && p.id == q.id && p.stationA == q.stationA && p.stationB == q.stationB
      && p.stationA == Canonical(a, b).0.id && p.stationB == Canonical(a, b).1.id
    ensures a.systemId == b.systemId ==> GetStationPair(db, a, b) == GetStationPair(db, b, a)
  {
    StrLessTrichotomy(a.nameLower, b.nameLower);
  }

  /** An existing pair is reused; otherwise exactly one pair is appended.
      A second call returns the same pair and changes nothing. */
  lemma GetStationPairIdempotent(db: Db, a: Station, b: Station)
    ensures var (db', p) := GetStationPair(db, a, b);
      && db'.systems == db.systems && db'.stations == db.stations
      && db.pairs <= db'.pairs && |db'.pairs| <= |db.pairs| + 1
      && p in db'.pairs
      && GetStationPair(db', a, b) == (db', p)
  {
    var (x, y) := Canonical(a, b);
    var (db', p) := GetStationPair(db, a, b);
    FindPairAppend(db.pairs, p, x.id, y.id);
  }

  lemma {:induction false} FindPairAppend(pairs: seq<StationPair>, p: StationPair, a: int, b: int)
    ensures FindPair(pairs, a, b).Some? ==> FindPair(pairs + [p], a, b) == FindPair(pairs, a, b)
    ensures FindPair(pairs, a, b).None? && p.stationA == a && p.stationB == b ==>
      FindPair(pairs + [p], a, b) == Some(p)
    decreases |pairs|
  {
    if pairs != [] {
      FindPairAppend(pairs[1..], p, a, b);
      assert (pairs + [p])[1..] == pairs[1..] + [p];
    }
  }

  /** `StationPair.has_full_fit`. */
  predicate HasFullFit(p: StationPair)
  {
    p.fit.period.Some? && p.fit.minDistance.Some? && p.fit.maxDistance.Some? && p.fit.phase.Some?
  }

  /** `StationPair.baseline_amptlitude_pair`: with both distances stored,
      the baseline and amplitude of the squared distance; `(None, None)`
      otherwise. */
  function BaselineAmplitudePair(p: StationPair): (r: Option<(real, real)>)
    ensures r.None? <==> p.fit.minDistance.None? || p.fit.maxDistance.None?
  {
    if p.fit.maxDistance.None? || p.fit.minDistance.None? then None
    else
      var maxs := Square(p.fit.maxDistance.value);
      var mins := Square(p.fit.minDistance.value);
      Some(((maxs + mins) / 2.0, (maxs - mins) / 2.0))
  }

  /** `r` is what `math.sqrt(x)` returns: the non-negative square root. */
  predicate IsSqrt(r: real, x: real)
  {
    r >= 0.0 && Square(r) == x
  }

  lemma SqrtUnique(r: real, s: real, x: real)
    requires IsSqrt(r, x) && IsSqrt(s, x)
    ensures r == s
  {
    assert (r - s) * (r + s) == 0.0;
    if r + s == 0.0 {
      assert r == 0.0 && s == 0.0;
    }
  }

  /** Baseline plus amplitude is the squared maximum distance and baseline
      minus amplitude the squared minimum, so the square roots taken by the
      fitting script give back the stored (non-negative) distances; the
      result does not depend on the period or the phase. */
  lemma BaselineAmplitudeRoundTrip(p: StationPair)
    requires BaselineAmplitudePair(p).Some?
    ensures var (baseline, amplitude) := BaselineAmplitudePair(p).value;
      && baseline + amplitude == Square(p.fit.maxDistance.value)
      && baseline - amplitude == Square(p.fit.minDistance.value)
      && 0.0 <= baseline - amplitude && 0.0 <= baseline + amplitude
      && (p.fit.minDistance.value >= 0.0 ==> IsSqrt(p.fit.minDistance.value, baseline - amplitude))
      && (p.fit.maxDistance.value >= 0.0 ==> IsSqrt(p.fit.maxDistance.value, baseline + amplitude))
  {
    var _ := Square(p.fit.maxDistance.value);
  }

  /** Only the two distances enter the baseline and amplitude: pairs that
      agree on them agree on the result, whatever their periods, phases
      and stations. */
  lemma BaselineAmplitudeOnlyDistances(p: StationPair, q: StationPair)
    requires p.fit.minDistance == q.fit.minDistance && p.fit.maxDistance == q.fit.maxDistance
    ensures BaselineAmplitudePair(p) == BaselineAmplitudePair(q)
  {
  }

  /** `CareerTaskReading.factor`: the bonus over the task's baseline. A task
      without a baseline takes the least bonus recorded for it and keeps it
      (returned as the task's new baseline); with no reading at all the
      query yields NULL and the division raises TypeError. */
  function Factor(bonus: real, baseline: Option<real>, taskBonuses: seq<real>): (r: Result<(real, Option<real>)>)
    ensures r.Ok? ==> r.value.1.Some? && r.value.1.value != 0.0 && r.value.0 * r.value.1.value == bonus
    ensures baseline.Some? && r.Ok? ==> r.value.1 == baseline
    ensures baseline.None? && r.Ok? ==> taskBonuses != [] && r.value.1 == Some(MinOf(taskBonuses))
    ensures r.Raise? ==> r.error == ZeroDivisionError || (r.error == TypeError && baseline.None? && taskBonuses == [])
  {
    match baseline
    case Some(b) =>
      if b == 0.0 then Raise(ZeroDivisionError) else Ok((bonus / b, baseline))
    case None =>
      if taskBonuses == [] then Raise(TypeError)
      else
        var m := MinOf(taskBonuses);
        if m == 0.0 then Raise(ZeroDivisionError) else Ok((bonus / m, Some(m)))
  }

  /** With positive bonuses, a reading's factor is at least 1 whenever the
      baseline does not exceed its bonus, in particular when the baseline
      falls back to the least bonus of the task. */
  lemma FactorAtLeastOne(bonus: real, baseline: Option<real>, taskBonuses: seq<real>)
    requires bonus > 0.0
    requires baseline.Some? ==> 0.0 < baseline.value <= bonus
    requires baseline.None? ==> bonus in taskBonuses && forall i :: 0 <= i < |taskBonuses| ==> taskBonuses[i] > 0.0
    ensures Factor(bonus, baseline, taskBonuses).Ok?
    ensures Factor(bonus, baseline, taskBonuses).value.0 >= 1.0
  {
    var b := if baseline.Some? then baseline.value else MinOf(taskBonuses);
    assert 0.0 < b <= bonus;
    assert Factor(bonus, baseline, taskBonuses) == Ok((bonus / b, Some(b)));
    DivAtLeastOne(bonus, b);
  }

  lemma DivAtLeastOne(x: real, y: real)
    requires 0.0 < y <= x
    ensures x / y >= 1.0
  {
  }
}

=== FILE: most_common.dfy ===
/** `median` and `find_most_common_number` (run-fuel-price-strategy.py):
    the dominant streak of a price list, accepted only when it is clearly
    longer than any other streak. */
module MostCommon {
  import opened Wrappers
  import opened Sorting
  import opened Streaks

  /** Default `ACCURACY` of `find_most_common_number`: 5 %. */
  const Accuracy: real := 0.05

  /** Lead the winning streak needs over the runner-up. */
  const ClearLead: nat := 3

  /** `median` as written: an odd-length list yields `numbers[l // 2 + 1]`,
      an even-length one the mean of `numbers[l // 2]` and
      `numbers[l // 2 + 1]`. Both read one position too far, so on a
      sorted list the value errs upward from the median, never beyond the
      largest element. */
  function MedianAsWritten(numbers: seq<real>): (r: Result<real>)
    ensures r.Ok? <==> |numbers| >= 3
    ensures r.Raise? ==> r.error == IndexError
    ensures r.Ok? && SortedBy(numbers, RealLe) ==>
      Median(numbers).Ok? && Median(numbers).value <= r.value <= numbers[|numbers| - 1]
  {
    var l := |numbers|;
    if l / 2 + 1 >= l then Raise(IndexError)
    else
      var m := if l % 2 == 1 then numbers[l / 2 + 1] else (numbers[l / 2] + numbers[l / 2 + 1]) / 2.0;
      assert SortedBy(numbers, RealLe) ==> Median(numbers).value <= m <= numbers[l - 1] by {
        if SortedBy(numbers, RealLe) {
          assert RealLe(numbers[l / 2 - 1], numbers[l / 2]) && RealLe(numbers[l / 2], numbers[l / 2 + 1]);
          assert l / 2 + 1 < l - 1 ==> RealLe(numbers[l / 2 + 1], numbers[l - 1]);
          assert l / 2 < l - 1 ==> RealLe(numbers[l / 2], numbers[l - 1]);
        }
      }
      Ok(m)
  }

  /** `m` is a median of the sorted list `xs`: the lower half (rounded up)
      lies at or below it and the upper half (rounded up) at or above it. */
  ghost predicate IsMedianOf(m: real, xs: seq<real>)
  {
    && (forall i :: 0 <= i < (|xs| + 1) / 2 ==> xs[i] <= m)
    && (forall i :: |xs| / 2 <= i < |xs| ==> m <= xs[i])
  }

  /** The median the docstring promises: the middle element, or the mean of
      the two middle elements. An empty list still raises IndexError. */
  function Median(numbers: seq<real>): (r: Result<real>)
    ensures r.Ok? <==> |numbers| >= 1
    ensures r.Raise? ==> r.error == IndexError
    ensures r.Ok? && SortedBy(numbers, RealLe) ==> IsMedianOf(r.value, numbers)
    ensures r.Ok? && SortedBy(numbers, RealLe) && |numbers| % 2 == 0 ==>
      exists i, j :: 0 <= i < |numbers| / 2 <= j < |numbers|
        && (forall k :: 0 <= k < |numbers| / 2 ==> numbers[k] <= numbers[i])
        && (forall k :: |numbers| / 2 <= k < |numbers| ==> numbers[j] <= numbers[k])
        && r.value == (numbers[i] + numbers[j]) / 2.0
  {
    var l := |numbers|;
    if l == 0 then Raise(IndexError)
    else if l % 2 == 1 then Ok(numbers[l / 2])
    else
      var m := (numbers[l / 2 - 1] + numbers[l / 2]) / 2.0;
      assert SortedBy(numbers, RealLe) ==> IsMedianOf(m, numbers) by {
        if SortedBy(numbers, RealLe) {
          assert RealLe(numbers[l / 2 - 1], numbers[l / 2]);
          forall i | 0 <= i < (l + 1) / 2
            ensures numbers[i] <= m
          {
            if i < l / 2 - 1 {
              assert RealLe(numbers[i], numbers[l / 2 - 1]);
            }
          }
          forall i | l / 2 <= i < l
            ensures m <= numbers[i]
          {
            if i > l / 2 {
              assert RealLe(numbers[l / 2], numbers[i]);
            }
          }
        }
      }
      assert SortedBy(numbers, RealLe) ==>
        && (forall k :: 0 <= k < l / 2 ==> numbers[k] <= numbers[l / 2 - 1])
        && (forall k :: l / 2 <= k < l ==> numbers[l / 2] <= numbers[k]) by {
        if SortedBy(numbers, RealLe) {
          forall k | 0 <= k < l / 2 - 1
            ensures numbers[k] <= numbers[l / 2 - 1]
          {
            assert RealLe(numbers[k], numbers[l / 2 - 1]);
          }
          forall k | l / 2 < k < l
            ensures numbers[l / 2] <= numbers[k]
          {
            assert RealLe(numbers[l / 2], numbers[k]);
          }
        }
      }
      Ok(m)
  }

  /** The median as written is not a median: on `[1, 2, 3]` it picks `3`. */
  lemma MedianAsWrittenMissesMiddle()
    ensures MedianAsWritten([1.0, 2.0, 3.0]) == Ok(3.0)
    ensures !IsMedianOf(3.0, [1.0, 2.0, 3.0])
    ensures Median([1.0, 2.0, 3.0]) == Ok(2.0)
  {
    var xs := [1.0, 2.0, 3.0];
    assert xs[1] == 2.0;
    assert (|xs| + 1) / 2 == 2;
  }

  /** The streak the fuel script accepts as "the most common number", or
      None when there is no clear winner: the longest streak has a single
      element, or another streak comes within fewer than three elements. */
  function CommonStreak(l: seq<real>, tol: real): (r: Result<Option<seq<real>>>)
    ensures r.Raise? ==> r.error == ZeroDivisionError
  {
    SplitRaisesOnlyZeroDivision(Sort(l), tol);
    var ss :- Split(Sort(l), tol);
    var w := LongestIndex(ss);
    if |ss[w]| == 1 then Ok(None)
    else if |ss| > 1 && |ss[w]| - |ss[RunnerUpIndex(ss, w)]| < ClearLead then Ok(None)
    else Ok(Some(ss[w]))
  }

  /** Streak `w` is a clear winner: it is not a singleton and every other
      streak is at least `ClearLead` elements shorter. */
  ghost predicate Dominant(ss: seq<seq<real>>, w: int)
  {
    && 0 <= w < |ss|
    && |ss[w]| != 1
    && forall k :: 0 <= k < |ss| && k != w ==> |ss[k]| + ClearLead <= |ss[w]|
  }

  /** What `CommonStreak` returns, stated on any streak decomposition of the
      sorted input: the clear winner if there is one, None otherwise. */
  lemma CommonStreakOutcome(l: seq<real>, tol: real, ss: seq<seq<real>>)
    requires IsStreakSplit(Sort(l), ss, tol)
    ensures CommonStreak(l, tol).Ok?
    ensures forall w :: Dominant(ss, w) ==> CommonStreak(l, tol) == Ok(Some(ss[w]))
    ensures CommonStreak(l, tol) == Ok(None) <==> forall w :: !Dominant(ss, w)
    ensures CommonStreak(l, tol) != Ok(None) ==>
      Dominant(ss, LongestIndex(ss)) && CommonStreak(l, tol) == Ok(Some(ss[LongestIndex(ss)]))
  {
    StreakSplitIsSplit(Sort(l), ss, tol);
    DominantIsClearLead(ss);
  }

  /** Only the longest streak can be a clear winner, and it is one exactly
      when the test `CommonStreak` makes on it passes. */
  lemma DominantIsClearLead(ss: seq<seq<real>>)
    requires |ss| > 0
    ensures forall w' :: Dominant(ss, w') ==> w' == LongestIndex(ss)
    ensures Dominant(ss, LongestIndex(ss)) <==>
      && |ss[LongestIndex(ss)]| != 1
      && !(|ss| > 1 && |ss[LongestIndex(ss)]| - |ss[RunnerUpIndex(ss, LongestIndex(ss))]| < ClearLead)
  {
    var w := LongestIndex(ss);
    forall w' | 0 <= w' < |ss| && w' != w
      ensures !Dominant(ss, w')
    {
      assert |ss[w']| <= |ss[w]|;
    }
    if |ss[w]| != 1 && |ss| > 1 {
      var v := RunnerUpIndex(ss, w);
      if |ss[w]| - |ss[v]| >= ClearLead {
        forall k | 0 <= k < |ss| && k != w
          ensures |ss[k]| + ClearLead <= |ss[w]|
        {
          assert |ss[k]| <= |ss[v]|;
        }
      }
    }
  }

  /** `find_most_common_number` exactly as written, with its median. */
  function FindMostCommonNumberAsWritten(l: seq<real>, tol: real): (r: Result<Option<real>>)
    ensures r.Raise? ==> r.error == ZeroDivisionError || r.error == IndexError
  {
    var streak :- CommonStreak(l, tol);
    match streak
    case None => Ok(None)
    case Some(s) =>
      var m :- MedianAsWritten(s);
      Ok(Some(m))
  }

  /** `find_most_common_number` as its docstring promises: the median of
      the clear winner, and None when there is no clear winner, which
      includes an empty list. */
  function FindMostCommonNumber(l: seq<real>, tol: real): (r: Result<Option<real>>)
    ensures r.Raise? ==> r.error == ZeroDivisionError
    ensures l == [] ==> r == Ok(None)
  {
    var streak :- CommonStreak(l, tol);
    match streak
    case None => Ok(None)
    case Some(s) =>
      if s == [] then Ok(None) else Ok(Some(Median(s).value))
  }

  /** The two versions fail alike on a zero divisor. Beyond that the
      version as written raises IndexError exactly when the clear winner has
      fewer than three elements; when it succeeds, both agree on whether
      there is a number, and its number is never below the corrected one. */
  lemma AsWrittenAgainstCorrected(l: seq<real>, tol: real)
    ensures FindMostCommonNumber(l, tol).Raise? <==> FindMostCommonNumberAsWritten(l, tol) == Raise(ZeroDivisionError)
    ensures FindMostCommonNumberAsWritten(l, tol) == Raise(IndexError) <==>
      CommonStreak(l, tol).Ok? && CommonStreak(l, tol).value.Some? && |CommonStreak(l, tol).value.value| < 3
    ensures FindMostCommonNumberAsWritten(l, tol).Ok? ==>
      && FindMostCommonNumber(l, tol).Ok?
      && (FindMostCommonNumberAsWritten(l, tol).value.Some? <==> FindMostCommonNumber(l, tol).value.Some?)
      && (FindMostCommonNumberAsWritten(l, tol).value.Some? ==>
            FindMostCommonNumber(l, tol).value.value <= FindMostCommonNumberAsWritten(l, tol).value.value)
  {
    var c := CommonStreak(l, tol);
    if c.Ok? && c.value.Some? && |c.value.value| >= 3 {
      var s := c.value.value;
      assert SortedBy(s, RealLe) by {
        var ss := Split(Sort(l), tol).value;
        SplitIsStreakSplit(Sort(l), tol);
        CommonStreakOutcome(l, tol, ss);
        StreakIsSorted(Sort(l), ss, tol, LongestIndex(ss));
      }
      MedianAsWrittenOfSorted(s, MedianAsWritten(s).value);
    }
  }

  /** Which `median` a guess uses: the one in the program or the one its
      docstring describes. */
  datatype MedianVersion = AsWritten | Corrected

  /** `find_most_common_number` with the chosen median. The version as
      written also raises IndexError, and does so on an empty list, where
      the corrected one finds no number. */
  function MostCommonNumber(v: MedianVersion, l: seq<real>, tol: real): (r: Result<Option<real>>)
    ensures r.Raise? ==> r.error == ZeroDivisionError || (v == AsWritten && r.error == IndexError)
    ensures l == [] ==> r == (if v == AsWritten then Raise(IndexError) else Ok(None))
  {
    EmptyListRaises(tol);
    match v
    case AsWritten => FindMostCommonNumberAsWritten(l, tol)
    case Corrected => FindMostCommonNumber(l, tol)
  }

  /** The lookup fails only on a zero divisor, always with
      ZeroDivisionError. */
  lemma FindMostCommonNumberOkIff(l: seq<real>, tol: real)
    ensures FindMostCommonNumber(l, tol).Ok? <==> DivisorsNonZero(Sort(l))
  {
    SplitOkIff(Sort(l), tol);
  }

  /** A number found is a median of the clearly dominant streak. */
  lemma FindMostCommonNumberIsMedian(l: seq<real>, tol: real)
    requires FindMostCommonNumber(l, tol).Ok? && FindMostCommonNumber(l, tol).value.Some?
    ensures Split(Sort(l), tol).Ok?
    ensures Dominant(Split(Sort(l), tol).value, LongestIndex(Split(Sort(l), tol).value))
    ensures IsMedianOf(FindMostCommonNumber(l, tol).value.value,
                       Split(Sort(l), tol).value[LongestIndex(Split(Sort(l), tol).value)])
  {
    var ss := Split(Sort(l), tol).value;
    SplitIsStreakSplit(Sort(l), tol);
    CommonStreakOutcome(l, tol, ss);
    var w := LongestIndex(ss);
    StreakIsSorted(Sort(l), ss, tol, w);
  }

  /** `x` is `median` as written of the clearly dominant streak of the
      sorted `l`, a streak of at least three elements, and so lies between
      that streak's median and its largest element. */
  ghost predicate UpperMedianGuess(l: seq<real>, tol: real, x: real)
  {
    && Split(Sort(l), tol).Ok?
    && |Split(Sort(l), tol).value| > 0
    && UpperMedianOfDominant(Split(Sort(l), tol).value, x)
  }

  /** `x` is `median` as written of the clearly dominant streak of `ss`,
      between that streak's median and its largest element. */
  ghost predicate UpperMedianOfDominant(ss: seq<seq<real>>, x: real)
    requires |ss| > 0
  {
    var w := LongestIndex(ss);
    && Dominant(ss, w) && |ss[w]| >= 3
    && x == MedianAsWritten(ss[w]).value
    && Median(ss[w]).value <= x <= ss[w][|ss[w]| - 1]
  }

  /** A number the version as written finds is `median` as written of the
      clearly dominant streak. */
  lemma FindMostCommonNumberAsWrittenIsUpperMedian(l: seq<real>, tol: real)
    requires FindMostCommonNumberAsWritten(l, tol).Ok? && FindMostCommonNumberAsWritten(l, tol).value.Some?
    ensures UpperMedianGuess(l, tol, FindMostCommonNumberAsWritten(l, tol).value.value)
  {
    AsWrittenFindsStreakMedian(l, tol);
    var ss := Split(Sort(l), tol).value;
    var w := LongestIndex(ss);
    assert Dominant(ss, w) && CommonStreak(l, tol).value.value == ss[w] by {
      SplitIsStreakSplit(Sort(l), tol);
      CommonStreakOutcome(l, tol, ss);
    }
    assert SortedBy(ss[w], RealLe) by {
      SplitIsStreakSplit(Sort(l), tol);
      StreakIsSorted(Sort(l), ss, tol, w);
    }
    UpperMedianOfStreak(l, tol, ss, FindMostCommonNumberAsWritten(l, tol).value.value);
  }

  /** `median` as written of a sorted, clearly dominant streak is an upper
      median guess. */
  lemma UpperMedianOfStreak(l: seq<real>, tol: real, ss: seq<seq<real>>, x: real)
    requires Split(Sort(l), tol) == Ok(ss)
    requires Dominant(ss, LongestIndex(ss)) && SortedBy(ss[LongestIndex(ss)], RealLe)
    requires MedianAsWritten(ss[LongestIndex(ss)]) == Ok(x)
    ensures UpperMedianGuess(l, tol, x)
  {
    MedianAsWrittenOfSorted(ss[LongestIndex(ss)], x);
    assert UpperMedianOfDominant(ss, x);
  }

  lemma MedianAsWrittenOfSorted(s: seq<real>, x: real)
    requires SortedBy(s, RealLe) && MedianAsWritten(s) == Ok(x)
    ensures |s| >= 3 && Median(s).Ok? && Median(s).value <= x <= s[|s| - 1]
  {
    assert MedianAsWritten(s).Ok?;
  }

  /** A number found as written is `median` as written of the streak
      `CommonStreak` picks. */
  lemma AsWrittenFindsStreakMedian(l: seq<real>, tol: real)
    requires FindMostCommonNumberAsWritten(l, tol).Ok? && FindMostCommonNumberAsWritten(l, tol).value.Some?
    ensures CommonStreak(l, tol).Ok? && CommonStreak(l, tol).value.Some?
    ensures MedianAsWritten(CommonStreak(l, tol).value.value).Ok?
    ensures FindMostCommonNumberAsWritten(l, tol).value.value == MedianAsWritten(CommonStreak(l, tol).value.value).value
  {
  }

  /** A streak of a sorted list is sorted. */
  lemma StreakIsSorted(xs: seq<real>, ss: seq<seq<real>>, tol: real, w: nat)
    requires SortedBy(xs, RealLe) && IsStreakSplit(xs, ss, tol) && w < |ss|
    ensures SortedBy(ss[w], RealLe)
  {
    assert ss == ss[..w] + ([ss[w]] + ss[w + 1..]);
    ConcatJoin(ss[..w], [ss[w]] + ss[w + 1..]);
    ConcatJoin([ss[w]], ss[w + 1..]);
    assert Concat([ss[w]]) == ss[w] by {
      ConcatAppend([], ss[w]);
    }
    assert xs == Concat(ss[..w]) + (ss[w] + Concat(ss[w + 1..]));
    SortedMiddle(Concat(ss[..w]), ss[w], Concat(ss[w + 1..]));
  }

  lemma SortedMiddle(p: seq<real>, m: seq<real>, q: seq<real>)
    requires SortedBy(p + (m + q), RealLe)
    ensures SortedBy(m, RealLe)
  {
    var xs := p + (m + q);
    forall i, j | 0 <= i < j < |m|
      ensures RealLe(m[i], m[j])
    {
      assert m[i] == xs[|p| + i] && m[j] == xs[|p| + j];
    }
  }

  lemma {:induction false} ConcatJoin(a: seq<seq<real>>, b: seq<seq<real>>)
    ensures Concat(a + b) == Concat(a) + Concat(b)
    decreases |b|
  {
    if b == [] {
      assert a + b == a;
    } else {
      var b' := b[..|b| - 1];
      assert a + b == (a + b') + [b[|b| - 1]];
      ConcatAppend(a + b', b[|b| - 1]);
      ConcatJoin(a, b');
      assert b == b' + [b[|b| - 1]];
      ConcatAppend(b', b[|b| - 1]);
    }
  }

  /** The defect on an empty list: the single empty streak passes both
      "no clear winner" tests and the median as written indexes it, while
      the docstring's "no clear most common number" means None. */
  lemma EmptyListRaises(tol: real)
    ensures FindMostCommonNumberAsWritten([], tol) == Raise(IndexError)
    ensures FindMostCommonNumber([], tol) == Ok(None)
  {
    assert Sort([]) == [];
  }

  /** The defect: two close prices make one two-element streak, which the
      median as written indexes out of range, while the corrected median
      returns their mean. */
  lemma TwoClosePricesRaise()
    ensures FindMostCommonNumberAsWritten([10.0, 10.1], Accuracy) == Raise(IndexError)
    ensures FindMostCommonNumber([10.0, 10.1], Accuracy) == Ok(Some(10.05))
  {
    TwoClosePricesCommonStreak();
    var s := [10.0, 10.1];
    assert MedianAsWritten(s) == Raise(IndexError);
    assert Median(s) == Ok(10.05);
  }

  /** The one streak is the clear winner. */
  lemma TwoClosePricesCommonStreak()
    ensures CommonStreak([10.0, 10.1], Accuracy) == Ok(Some([10.0, 10.1]))
  {
    TwoClosePricesOneStreak();
    assert LongestIndex([[10.0, 10.1]]) == 0;
  }

  /** The two prices sort as given and form one streak. */
  lemma TwoClosePricesOneStreak()
    ensures Split(Sort([10.0, 10.1]), Accuracy) == Ok([[10.0, 10.1]])
  {
    var xs := [10.0, 10.1];
    assert Sort(xs) == xs by {
      SortTwo(10.0, 10.1);
    }
    assert [10.0][..0] == [];
    assert Split([10.0], Accuracy) == Ok([[10.0]]);
    assert Joins(10.0, 10.1, Accuracy);
    assert Last([10.0]) == 10.0;
    assert xs == [10.0] + [10.1];
    SplitSnoc([10.0], 10.1, Accuracy);
    var ss := [[10.0]];
    assert ss[..0] + [ss[0] + [10.1]] == [[10.0, 10.1]];
    assert Split(xs, Accuracy) == Ok([[10.0, 10.1]]);
  }

  lemma SortTwo(a: real, b: real)
    requires a <= b
    ensures Sort([a, b]) == [a, b]
  {
    var r := Sort([a, b]);
    assert multiset(r) == multiset{a, b};
    assert |r| == 2;
    assert r[0] in multiset(r) && r[1] in multiset(r);
    assert RealLe(r[0], r[1]);
  }
}

=== FILE: numeric.dfy ===
/** Small numeric helpers over `real` standing for the Python/numpy
    built-ins the scripts use: sum, mean (`np.average`), `min`, `max`,
    `abs` and `np.linspace`. Python floats are modelled as exact reals. */
module Numeric {

  function Abs(x: real): (r: real)
    ensures r >= 0.0
    ensures r == x || r == -x
  {
    if x < 0.0 then -x else x
  }

  function Sum(xs: seq<real>): real
  {
    if xs == [] then 0.0 else Sum(xs[..|xs| - 1]) + xs[|xs| - 1]
  }

  /** `np.average` of a non-empty list. */
  function Mean(xs: seq<real>): real
    requires |xs| > 0
  {
    Sum(xs) / (|xs| as real)
  }

  /** Every element of a non-empty list lies between its least and its
      greatest element, so the mean does too. */
  lemma {:induction false} SumBounds(xs: seq<real>, lo: real, hi: real)
    requires forall i :: 0 <= i < |xs| ==> lo <= xs[i] <= hi
    ensures (|xs| as real) * lo <= Sum(xs) <= (|xs| as real) * hi
  {
    if xs != [] {
      SumBounds(xs[..|xs| - 1], lo, hi);
    }
  }

  lemma MeanBounds(xs: seq<real>, lo: real, hi: real)
    requires |xs| > 0
    requires forall i :: 0 <= i < |xs| ==> lo <= xs[i] <= hi
    ensures lo <= Mean(xs) <= hi
  {
    SumBounds(xs, lo, hi);
    var n := |xs| as real;
    assert n * lo <= Sum(xs) <= n * hi;
    assert Sum(xs) / n >= lo by {
      assert Sum(xs) / n * n == Sum(xs);
    }
    assert Sum(xs) / n <= hi by {
      assert Sum(xs) / n * n == Sum(xs);
    }
  }

  lemma {:induction false} SumNonNegative(xs: seq<real>)
    requires forall i :: 0 <= i < |xs| ==> xs[i] >= 0.0
    ensures Sum(xs) >= 0.0
  {
    if xs != [] {
      SumNonNegative(xs[..|xs| - 1]);
    }
  }

  /** Python `min` of a non-empty list: the first least element. */
  function MinOf(xs: seq<real>): (r: real)
    requires |xs| > 0
    ensures r in xs
    ensures forall i :: 0 <= i < |xs| ==> r <= xs[i]
  {
    if |xs| == 1 then xs[0]
    else
      var m := MinOf(xs[1..]);
      assert forall i :: 1 <= i < |xs| ==> xs[i] == xs[1..][i - 1];
      if xs[0] <= m then xs[0] else m
  }

  /** Python `max` of a non-empty list: the first greatest element. */
  function MaxOf(xs: seq<real>): (r: real)
    requires |xs| > 0
    ensures r in xs
    ensures forall i :: 0 <= i < |xs| ==> xs[i] <= r
  {
    if |xs| == 1 then xs[0]
    else
      var m := MaxOf(xs[1..]);
      assert forall i :: 1 <= i < |xs| ==> xs[i] == xs[1..][i - 1];
      if xs[0] >= m then xs[0] else m
  }

  /** `np.linspace(a, b, n)` with the default `endpoint=True`: `n` evenly
      spaced values from `a` to `b`; a single point is `[a]`. */
  function Linspace(a: real, b: real, n: nat): (r: seq<real>)
    ensures |r| == n
    ensures n >= 1 ==> r[0] == a
    ensures n >= 2 ==> r[n - 1] == b
    ensures a <= b ==> forall i :: 0 <= i < n ==> a <= r[i] <= b
    ensures a <= b ==> forall i, j :: 0 <= i <= j < n ==> r[i] <= r[j]
  {
    if n == 0 then []
    else if n == 1 then [a]
    else
      var step := (b - a) / ((n - 1) as real);
      var r := seq(n, k requires 0 <= k < n => a + (k as real) * step);
      StepsToEnd(a, b, (n - 1) as real, step);
      LinspaceSteps(a, b, n, step, r);
      r
  }

  lemma LinspaceSteps(a: real, b: real, n: nat, step: real, r: seq<real>)
    requires n >= 2
    requires step == (b - a) / ((n - 1) as real)
    requires |r| == n
    requires forall k :: 0 <= k < n ==> r[k] == a + (k as real) * step
    ensures a <= b ==> forall i :: 0 <= i < n ==> a <= r[i] <= b
    ensures a <= b ==> forall i, j :: 0 <= i <= j < n ==> r[i] <= r[j]
  {
    if a <= b {
      assert step >= 0.0;
      StepsToEnd(a, b, (n - 1) as real, step);
      forall i, j | 0 <= i <= j < n
        ensures r[i] <= r[j]
      {
        MulMonotone(i as real, j as real, step);
      }
      forall i | 0 <= i < n
        ensures a <= r[i] <= b
      {
        MulMonotone(0.0, i as real, step);
        MulMonotone(i as real, (n - 1) as real, step);
      }
    }
  }

  /** `m` steps of `(b - a) / m` lead from `a` to `b`. */
  lemma StepsToEnd(a: real, b: real, m: real, step: real)
    requires m > 0.0 && step == (b - a) / m
    ensures a + m * step == b
  {
  }

  lemma MulMonotone(x: real, y: real, s: real)
    requires x <= y && s >= 0.0
    ensures x * s <= y * s
  {
  }

  /** `x ** 2`. */
  function Square(x: real): (r: real)
    ensures r >= 0.0
  {
    x * x
  }
}

=== FILE: payload.dfy ===
/** Decoded JSON request bodies as the web handlers see them, and the
    Python operations the handlers apply to their values. */
module Payload {
  import opened Wrappers

  /** A decoded JSON value; an object keeps its keys in order. */
  datatype Json = Null | Bool(b: bool) | Num(n: real) | Str(s: string) | Arr(items: seq<Json>) | Obj(entries: seq<(string, Json)>)

  /** Python's truth test on a decoded JSON value. */
  predicate Falsy(v: Json)
  {
    match v
    case Null => true
    case Bool(b) => !b
    case Num(n) => n == 0.0
    case Str(s) => s == []
    case Arr(items) => items == []
    case Obj(entries) => entries == []
  }

  /** `float(v)` on a decoded value: numbers and booleans convert, a
      string converts as `parse` reads it and raises ValueError when `parse`
      rejects it, and null, lists and objects raise TypeError. `parse` is
      Python's reading of a numeric string ("1500", " 2.5e3 ", "inf"). */
  function ToFloat(v: Json, parse: string -> Option<real>): (r: Result<real>)
    ensures r.Ok? <==> v.Num? || v.Bool? || (v.Str? && parse(v.s).Some?)
    ensures r.Raise? ==> r.error == (if v.Str? then ValueError else TypeError)
    ensures v.Str? && r.Ok? ==> parse(v.s) == Some(r.value)
  {
    match v
    case Num(n) => Ok(n)
    case Bool(b) => Ok(if b then 1.0 else 0.0)
    case Str(s) => if parse(s).Some? then Ok(parse(s).value) else Raise(ValueError)
    case _ => Raise(TypeError)
  }

  /** A value used where a string is needed: anything else raises
      TypeError. */
  function AsString(v: Json): Result<string>
  {
    if v.Str? then Ok(v.s) else Raise(TypeError)
  }

  /** `.items()` works on an object only. */
  function AsObject(v: Json): Result<seq<(string, Json)>>
  {
    if v.Obj? then Ok(v.entries) else Raise(AttributeError)
  }

  /** `obj[key]` on a decoded JSON object given as its entries: the value
      of the last entry with that key, which is the one Python's decoder
      keeps when a key is repeated. */
  function Lookup(entries: seq<(string, Json)>, key: string): (r: Option<Json>)
    ensures r.None? <==> forall i :: 0 <= i < |entries| ==> entries[i].0 != key
    ensures r.Some? ==> exists i :: 0 <= i < |entries| && entries[i] == (key, r.value) &&
                          forall j :: i < j < |entries| ==> entries[j].0 != key
    decreases |entries|
  {
    if entries == [] then None
    else if entries[|entries| - 1].0 == key then Some(entries[|entries| - 1].1)
    else Lookup(entries[..|entries| - 1], key)
  }

  /** Replaces the value of key `k`. */
  function SetValue(items: seq<(string, Json)>, k: string, v: Json): (r: seq<(string, Json)>)
    ensures |r| == |items|
    ensures forall i :: 0 <= i < |r| ==> r[i].0 == items[i].0
    ensures forall i :: 0 <= i < |r| ==> r[i].1 == if items[i].0 == k then v else items[i].1
  {
    seq(|items|, i requires 0 <= i < |items| => if items[i].0 == k then (k, v) else items[i])
  }

  /** The keys of a list of entries. */
  predicate HasKey(items: seq<(string, Json)>, k: string)
  {
    exists i :: 0 <= i < |items| && items[i].0 == k
  }

  /** `.items()` of the dict Python's decoder builds from an object's
      entries: a repeated key keeps the position of its first entry and
      takes the value of its last. */
  function Items(entries: seq<(string, Json)>): (r: seq<(string, Json)>)
    ensures forall i, j :: 0 <= i < j < |r| ==> r[i].0 != r[j].0
    ensures forall k :: HasKey(r, k) <==> HasKey(entries, k)
    ensures forall i :: 0 <= i < |r| ==> Lookup(entries, r[i].0) == Some(r[i].1)
    ensures |r| <= |entries|
    decreases |entries|
  {
    if entries == [] then []
    else
      var init, last := entries[..|entries| - 1], entries[|entries| - 1];
      var prev := Items(init);
      assert forall k :: HasKey(entries, k) <==> HasKey(init, k) || last.0 == k by {
        forall k | HasKey(entries, k)
          ensures HasKey(init, k) || last.0 == k
        {
          var i :| 0 <= i < |entries| && entries[i].0 == k;
          if i < |init| {
            assert init[i] == entries[i];
          }
        }
        forall k | HasKey(init, k)
          ensures HasKey(entries, k)
        {
          var i :| 0 <= i < |init| && init[i].0 == k;
          assert entries[i] == init[i];
        }
      }
      if HasKey(prev, last.0) then
        var r := SetValue(prev, last.0, last.1);
        assert forall k :: HasKey(r, k) <==> HasKey(prev, k) by {
          forall k | HasKey(prev, k)
            ensures HasKey(r, k)
          {
            var i :| 0 <= i < |prev| && prev[i].0 == k;
            assert r[i].0 == k;
          }
        }
        r
      else
        var r := prev + [last];
        assert forall k :: HasKey(r, k) <==> HasKey(prev, k) || last.0 == k by {
          forall k | HasKey(r, k)
            ensures HasKey(prev, k) || last.0 == k
          {
            var i :| 0 <= i < |r| && r[i].0 == k;
            if i < |prev| {
              assert r[i] == prev[i];
            }
          }
          forall k | HasKey(prev, k)
            ensures HasKey(r, k)
          {
            var i :| 0 <= i < |prev| && prev[i].0 == k;
            assert r[i] == prev[i];
          }
          assert r[|prev|] == last;
        }
        r
  }

  /** A repeated key keeps its first position and its last value. */
  lemma RepeatedKeyKeepsLast()
    ensures Items([("A", Num(5.0)), ("A", Num(3.0))]) == [("A", Num(3.0))]
  {
    var first := ("A", Num(5.0));
    var es := [first, ("A", Num(3.0))];
    assert es[..1] == [first];
    assert [first][..0] == [];
    assert Items([]) == [];
    var one := Items([first]);
    assert one == [first];
    assert one[0].0 == "A";
    assert HasKey(one, "A");
    assert Items(es) == SetValue(one, "A", Num(3.0));
  }

  /** `payload[key]` on a decoded object: KeyError when the key is absent. */
  function Field(payload: map<string, Json>, key: string): (r: Result<Json>)
    ensures r.Ok? <==> key in payload
    ensures r.Ok? ==> r.value == payload[key]
    ensures r.Raise? ==> r.error == KeyError
  {
    if key in payload then Ok(payload[key]) else Raise(KeyError)
  }
}

=== FILE: sorting.dfy ===
/** Python's `sorted(xs, key=...)` and `list.sort`, as a stable insertion
    sort parameterised by a "less or equal" relation on whole elements.
    A key function `k` is expressed as the relation `k(a) <= k(b)`. */
module Sorting {

  ghost predicate TotalPreorder<T(!new)>(le: (T, T) -> bool) {
    && (forall x, y :: le(x, y) || le(y, x))
    && (forall x, y, z :: le(x, y) && le(y, z) ==> le(x, z))
  }

  predicate SortedBy<T>(xs: seq<T>, le: (T, T) -> bool) {
    forall i, j :: 0 <= i < j < |xs| ==> le(xs[i], xs[j])
  }

  function RealLe(a: real, b: real): bool {
    a <= b
  }

  lemma RealLeIsTotalPreorder()
    ensures TotalPreorder(RealLe)
  {
  }

  /** Inserts `x` before the first element it is not greater than; elements
      equal to `x` under `le` stay behind it, which keeps the sort stable
      because `x` comes first in the input. */
  function Insert<T(!new)>(x: T, ys: seq<T>, le: (T, T) -> bool): (r: seq<T>)
    ensures multiset(r) == multiset(ys) + multiset{x}
    ensures |r| == |ys| + 1
    ensures TotalPreorder(le) && SortedBy(ys, le) ==> SortedBy(r, le)
  {
    if ys == [] then [x]
    else if le(x, ys[0]) then
      PrependSorted(x, ys, le);
      [x] + ys
    else
      var rest := Insert(x, ys[1..], le);
      assert ys == [ys[0]] + ys[1..];
      ConsSorted(x, ys, rest, le);
      [ys[0]] + rest
  }

  lemma PrependSorted<T(!new)>(x: T, ys: seq<T>, le: (T, T) -> bool)
    requires ys != [] && le(x, ys[0])
    ensures TotalPreorder(le) && SortedBy(ys, le) ==> SortedBy([x] + ys, le)
  {
    if TotalPreorder(le) && SortedBy(ys, le) {
      var r := [x] + ys;
      forall i, j | 0 <= i < j < |r|
        ensures le(r[i], r[j])
      {
        if i > 0 {
          assert le(ys[i - 1], ys[j - 1]);
        } else if j > 1 {
          assert le(ys[0], ys[j - 1]);
        }
      }
    }
  }

  lemma ConsSorted<T(!new)>(x: T, ys: seq<T>, rest: seq<T>, le: (T, T) -> bool)
    requires ys != [] && !le(x, ys[0])
    requires multiset(rest) == multiset(ys[1..]) + multiset{x}
    requires TotalPreorder(le) && SortedBy(ys[1..], le) ==> SortedBy(rest, le)
    ensures TotalPreorder(le) && SortedBy(ys, le) ==> SortedBy([ys[0]] + rest, le)
  {
    if TotalPreorder(le) && SortedBy(ys, le) {
      assert le(ys[0], x);
      assert SortedBy(ys[1..], le);
      forall k | 0 <= k < |rest|
        ensures le(ys[0], rest[k])
      {
        assert rest[k] in multiset(rest);
        if rest[k] in multiset(ys[1..]) {
          var m :| 0 <= m < |ys[1..]| && ys[1..][m] == rest[k];
          assert le(ys[0], ys[m + 1]);
        }
      }
      var r := [ys[0]] + rest;
      forall i, j | 0 <= i < j < |r|
        ensures le(r[i], r[j])
      {
        if i > 0 {
          assert le(rest[i - 1], rest[j - 1]);
        }
      }
    }
  }

  /** The elements of `xs` that `le` ranks equal to `v`, in their order. */
  function Ties<T>(xs: seq<T>, le: (T, T) -> bool, v: T): seq<T>
  {
    if xs == [] then []
    else (if le(xs[0], v) && le(v, xs[0]) then [xs[0]] else []) + Ties(xs[1..], le, v)
  }

  lemma {:induction false} TiesAppend<T>(a: seq<T>, b: seq<T>, le: (T, T) -> bool, v: T)
    ensures Ties(a + b, le, v) == Ties(a, le, v) + Ties(b, le, v)
    decreases |a|
  {
    if a == [] {
      assert a + b == b;
    } else {
      assert (a + b)[0] == a[0] && (a + b)[1..] == a[1..] + b;
      TiesAppend(a[1..], b, le, v);
    }
  }

  /** Inserting `x` puts it among its equals ahead of those already
      there, since it stops before the first element it is not greater
      than. */
  lemma {:induction false} InsertTies<T(!new)>(x: T, ys: seq<T>, le: (T, T) -> bool, v: T)
    requires TotalPreorder(le)
    ensures Ties(Insert(x, ys, le), le, v) == Ties([x], le, v) + Ties(ys, le, v)
    decreases |ys|
  {
    if ys != [] {
      if le(x, ys[0]) {
        TiesAppend([x], ys, le, v);
      } else {
        InsertTies(x, ys[1..], le, v);
        TiesAppend([ys[0]], Insert(x, ys[1..], le), le, v);
        TiesAppend([ys[0]], ys[1..], le, v);
        assert ys == [ys[0]] + ys[1..];
        // `x` and `ys[0]` cannot both tie with `v`, or `le(x, ys[0])`.
        assert Ties([x], le, v) == [] || Ties([ys[0]], le, v) == [];
      }
    }
  }

  /** Python's sort: a permutation, ordered by a total preorder, and
      stable: the elements ranked equal to any `v` keep their input
      order. */
  function SortBy<T(!new)>(xs: seq<T>, le: (T, T) -> bool): (r: seq<T>)
    ensures multiset(r) == multiset(xs)
    ensures |r| == |xs|
    ensures TotalPreorder(le) ==> SortedBy(r, le)
    ensures TotalPreorder(le) ==> forall v :: Ties(r, le, v) == Ties(xs, le, v)
  {
    if xs == [] then []
    else
      assert xs == [xs[0]] + xs[1..];
      var rest := SortBy(xs[1..], le);
      SortByStep(xs, rest, le);
      Insert(xs[0], rest, le)
  }

  lemma SortByStep<T(!new)>(xs: seq<T>, rest: seq<T>, le: (T, T) -> bool)
    requires xs != []
    requires TotalPreorder(le) ==> forall v :: Ties(rest, le, v) == Ties(xs[1..], le, v)
    ensures TotalPreorder(le) ==> forall v :: Ties(Insert(xs[0], rest, le), le, v) == Ties(xs, le, v)
  {
    if TotalPreorder(le) {
      forall v
        ensures Ties(Insert(xs[0], rest, le), le, v) == Ties(xs, le, v)
      {
        InsertTies(xs[0], rest, le, v);
        assert xs == [xs[0]] + xs[1..];
        TiesAppend([xs[0]], xs[1..], le, v);
      }
    }
  }

  /** Python `sorted(xs)` on numbers. */
  function Sort(xs: seq<real>): (r: seq<real>)
    ensures multiset(r) == multiset(xs)
    ensures |r| == |xs|
    ensures SortedBy(r, RealLe)
  {
    RealLeIsTotalPreorder();
    SortBy(xs, RealLe)
  }

  /** Every element of a sequence is one of the input's elements. */
  lemma PermutationMembers<T>(xs: seq<T>, ys: seq<T>)
    requires multiset(xs) == multiset(ys)
    ensures forall i :: 0 <= i < |xs| ==> xs[i] in ys
  {
    forall i | 0 <= i < |xs|
      ensures xs[i] in ys
    {
      assert xs[i] in multiset(xs);
    }
  }
}

=== FILE: streaks.dfy ===
/** The streak primitive shared by `find_most_common_number`
    (run-fuel-price-strategy.py) and `find_similar_numbers`
    (analzye-system.py): a sorted list is cut into consecutive streaks,
    a new streak starting wherever the relative step `(n - previous) / n`
    exceeds a tolerance. Both scripts then look at the longest streak. */
module Streaks {
  import opened Wrappers

  /** The relative step `(n - previous) / n` the scripts compute. */
  function RelativeStep(previous: real, n: real): real
    requires n != 0.0
  {
    (n - previous) / n
  }

  /** `n` continues the streak ending in `previous`. */
  predicate Joins(previous: real, n: real, tol: real)
    requires n != 0.0
  {
    RelativeStep(previous, n) <= tol
  }

  function Concat(ss: seq<seq<real>>): seq<real>
  {
    if ss == [] then [] else Concat(ss[..|ss| - 1]) + ss[|ss| - 1]
  }

  function Last(s: seq<real>): real
    requires |s| > 0
  {
    s[|s| - 1]
  }

  /** Each step inside a streak joins. */
  ghost predicate StepsJoin(ss: seq<seq<real>>, tol: real)
  {
    forall k, i :: 0 <= k < |ss| && 1 <= i < |ss[k]| ==>
      ss[k][i] != 0.0 && Joins(ss[k][i - 1], ss[k][i], tol)
  }

  /** Each step from one streak to the next does not join. */
  ghost predicate BoundariesBreak(ss: seq<seq<real>>, tol: real)
  {
    forall k :: 1 <= k < |ss| && |ss[k]| > 0 && |ss[k - 1]| > 0 ==>
      ss[k][0] != 0.0 && !Joins(Last(ss[k - 1]), ss[k][0], tol)
  }

  ghost predicate NoEmptyStreak(ss: seq<seq<real>>)
  {
    forall k :: 0 <= k < |ss| ==> |ss[k]| > 0
  }

  /** Independent description of a streak decomposition of `xs`: the
      streaks concatenate back to `xs`, none is empty, each step inside a
      streak joins and each step between two streaks does not. An empty
      input has the single empty streak, as in the scripts. */
  ghost predicate IsStreakSplit(xs: seq<real>, ss: seq<seq<real>>, tol: real)
  {
    && |ss| >= 1
    && Concat(ss) == xs
    && (xs == [] ==> ss == [[]])
    && (xs != [] ==> NoEmptyStreak(ss))
    && StepsJoin(ss, tol)
    && BoundariesBreak(ss, tol)
  }

  /** No element after the first is zero: the scripts divide by each of
      them, and a zero raises ZeroDivisionError. */
  predicate DivisorsNonZero(xs: seq<real>)
  {
    forall i :: 1 <= i < |xs| ==> xs[i] != 0.0
  }

  /** The streak loop of the scripts, one element at a time from the left:
      the first element opens the first streak, every later one either
      extends the current streak or opens a new one. */
  function Split(xs: seq<real>, tol: real): (r: Result<seq<seq<real>>>)
    ensures r.Ok? ==> |r.value| >= 1
    decreases |xs|
  {
    if xs == [] then Ok([[]])
    else
      var init := xs[..|xs| - 1];
      var n := xs[|xs| - 1];
      var ss :- Split(init, tol);
      if init == [] then Ok([[n]])
      else if n == 0.0 then Raise(ZeroDivisionError)
      else if Joins(Last(init), n, tol) then Ok(ss[..|ss| - 1] + [ss[|ss| - 1] + [n]])
      else Ok(ss + [[n]])
  }

  lemma ConcatAppend(ss: seq<seq<real>>, s: seq<real>)
    ensures Concat(ss + [s]) == Concat(ss) + s
  {
    assert (ss + [s])[..|ss|] == ss;
  }

  lemma LastOfConcat(ss: seq<seq<real>>)
    requires |ss| > 0 && |ss[|ss| - 1]| > 0
    ensures |Concat(ss)| > 0
    ensures Last(Concat(ss)) == Last(ss[|ss| - 1])
  {
    assert ss == ss[..|ss| - 1] + [ss[|ss| - 1]];
    ConcatAppend(ss[..|ss| - 1], ss[|ss| - 1]);
  }

  /** Opening a new streak with `n` keeps the description. */
  lemma OpenStreak(ss: seq<seq<real>>, n: real, tol: real)
    requires |ss| > 0 && NoEmptyStreak(ss) && StepsJoin(ss, tol) && BoundariesBreak(ss, tol)
    requires n != 0.0 && !Joins(Last(ss[|ss| - 1]), n, tol)
    ensures NoEmptyStreak(ss + [[n]]) && StepsJoin(ss + [[n]], tol) && BoundariesBreak(ss + [[n]], tol)
  {
    var r := ss + [[n]];
    forall k | 0 <= k < |ss|
      ensures r[k] == ss[k]
    {
    }
  }

  /** Extending the last streak with a joining `n` keeps the description. */
  lemma ExtendStreak(front: seq<seq<real>>, last: seq<real>, n: real, tol: real)
    requires |last| > 0
    requires NoEmptyStreak(front + [last]) && StepsJoin(front + [last], tol) && BoundariesBreak(front + [last], tol)
    requires n != 0.0 && Joins(Last(last), n, tol)
    ensures NoEmptyStreak(front + [last + [n]]) && StepsJoin(front + [last + [n]], tol)
    ensures BoundariesBreak(front + [last + [n]], tol)
  {
    var ss := front + [last];
    var r := front + [last + [n]];
    forall k | 0 <= k < |front|
      ensures r[k] == ss[k]
    {
    }
    forall k, i | 0 <= k < |r| && 1 <= i < |r[k]|
      ensures r[k][i] != 0.0 && Joins(r[k][i - 1], r[k][i], tol)
    {
      if k < |front| || i < |last| {
        assert r[k][i] == ss[k][i] && r[k][i - 1] == ss[k][i - 1];
      }
    }
    forall k | 1 <= k < |r| && |r[k]| > 0 && |r[k - 1]| > 0
      ensures r[k][0] != 0.0 && !Joins(Last(r[k - 1]), r[k][0], tol)
    {
      assert r[k][0] == ss[k][0] && r[k - 1] == ss[k - 1];
    }
  }

  /** Dropping a one-element last streak keeps the description. */
  lemma DropStreak(front: seq<seq<real>>, n: real, tol: real)
    requires |front| > 0
    requires NoEmptyStreak(front + [[n]]) && StepsJoin(front + [[n]], tol) && BoundariesBreak(front + [[n]], tol)
    ensures NoEmptyStreak(front) && StepsJoin(front, tol) && BoundariesBreak(front, tol)
    ensures n != 0.0 && !Joins(Last(front[|front| - 1]), n, tol)
  {
    var ss := front + [[n]];
    forall k | 0 <= k < |front|
      ensures ss[k] == front[k]
    {
    }
    assert ss[|front|][0] == n;
    assert ss[|front| - 1] == front[|front| - 1];
    assert |ss[|front| - 1]| > 0 && |ss[|front|]| > 0;
  }

  /** Shortening the last streak by its final element keeps the description. */
  lemma ShortenStreak(front: seq<seq<real>>, shorter: seq<real>, n: real, tol: real)
    requires |shorter| > 0
    requires NoEmptyStreak(front + [shorter + [n]]) && StepsJoin(front + [shorter + [n]], tol)
    requires BoundariesBreak(front + [shorter + [n]], tol)
    ensures NoEmptyStreak(front + [shorter]) && StepsJoin(front + [shorter], tol)
    ensures BoundariesBreak(front + [shorter], tol)
    ensures n != 0.0 && Joins(Last(shorter), n, tol)
  {
    var ss := front + [shorter + [n]];
    var r := front + [shorter];
    forall k | 0 <= k < |front|
      ensures r[k] == ss[k]
    {
    }
    forall k, i | 0 <= k < |r| && 1 <= i < |r[k]|
      ensures r[k][i] != 0.0 && Joins(r[k][i - 1], r[k][i], tol)
    {
      assert r[k][i] == ss[k][i] && r[k][i - 1] == ss[k][i - 1];
    }
    forall k | 1 <= k < |r| && |r[k]| > 0 && |r[k - 1]| > 0
      ensures r[k][0] != 0.0 && !Joins(Last(r[k - 1]), r[k][0], tol)
    {
      assert r[k][0] == ss[k][0] && r[k - 1] == ss[k - 1];
    }
    assert ss[|front|][|shorter|] == n && ss[|front|][|shorter| - 1] == Last(shorter);
  }

  /** The split fails exactly when a divisor is zero. */
  lemma {:induction false} SplitOkIff(xs: seq<real>, tol: real)
    ensures Split(xs, tol).Ok? <==> DivisorsNonZero(xs)
    decreases |xs|
  {
    if xs != [] {
      var init := xs[..|xs| - 1];
      SplitOkIff(init, tol);
      assert DivisorsNonZero(xs) <==> DivisorsNonZero(init) && (|xs| == 1 || xs[|xs| - 1] != 0.0) by {
        assert forall i :: 1 <= i < |init| ==> init[i] == xs[i];
      }
    }
  }

  /** The only exception the loop raises is the division by zero. */
  lemma {:induction false} SplitRaisesOnlyZeroDivision(xs: seq<real>, tol: real)
    ensures Split(xs, tol).Raise? ==> Split(xs, tol).error == ZeroDivisionError
    decreases |xs|
  {
    if xs != [] {
      SplitRaisesOnlyZeroDivision(xs[..|xs| - 1], tol);
    }
  }

  /** One more element at the end: `Split(init + [n])` from `Split(init)`. */
  lemma SplitSnoc(init: seq<real>, n: real, tol: real)
    requires init != []
    ensures Split(init + [n], tol) ==
      match Split(init, tol)
      case Raise(e) => Raise(e)
      case Ok(ss) =>
        if n == 0.0 then Raise(ZeroDivisionError)
        else if Joins(Last(init), n, tol) then Ok(ss[..|ss| - 1] + [ss[|ss| - 1] + [n]])
        else Ok(ss + [[n]])
  {
    assert (init + [n])[..|init|] == init;
  }

  /** Every successful split is a streak decomposition. */
  lemma {:induction false} SplitIsStreakSplit(xs: seq<real>, tol: real)
    requires Split(xs, tol).Ok?
    ensures IsStreakSplit(xs, Split(xs, tol).value, tol)
    decreases |xs|
  {
    if xs == [] {
      assert Concat([[]]) == Concat([]) + [];
    } else if |xs| == 1 {
      assert xs[..0] == [] && xs == [xs[0]];
      assert Split(xs, tol) == Ok([xs]);
      ConcatAppend([], xs);
    } else {
      var init := xs[..|xs| - 1];
      var n := xs[|xs| - 1];
      assert xs == init + [n];
      SplitSnoc(init, n, tol);
      SplitIsStreakSplit(init, tol);
      SnocStreakSplit(init, n, tol, Split(init, tol).value);
    }
  }

  /** The loop's step on one more element keeps the description. */
  lemma SnocStreakSplit(init: seq<real>, n: real, tol: real, ss: seq<seq<real>>)
    requires init != [] && n != 0.0 && IsStreakSplit(init, ss, tol)
    ensures Joins(Last(init), n, tol) ==> IsStreakSplit(init + [n], ss[..|ss| - 1] + [ss[|ss| - 1] + [n]], tol)
    ensures !Joins(Last(init), n, tol) ==> IsStreakSplit(init + [n], ss + [[n]], tol)
  {
    if Joins(Last(init), n, tol) {
      SnocExtends(init, n, tol, ss[..|ss| - 1], ss[|ss| - 1]);
    } else {
      SnocOpens(init, n, tol, ss);
    }
  }

  lemma SnocExtends(init: seq<real>, n: real, tol: real, front: seq<seq<real>>, last: seq<real>)
    requires init != [] && n != 0.0 && IsStreakSplit(init, front + [last], tol)
    requires Joins(Last(init), n, tol)
    ensures IsStreakSplit(init + [n], front + [last + [n]], tol)
  {
    var ss := front + [last];
    assert ss[|ss| - 1] == last;
    LastOfConcat(ss);
    ConcatAppend(front, last);
    ConcatAppend(front, last + [n]);
    ExtendStreak(front, last, n, tol);
  }

  lemma SnocOpens(init: seq<real>, n: real, tol: real, ss: seq<seq<real>>)
    requires init != [] && n != 0.0 && IsStreakSplit(init, ss, tol)
    requires !Joins(Last(init), n, tol)
    ensures IsStreakSplit(init + [n], ss + [[n]], tol)
  {
    LastOfConcat(ss);
    ConcatAppend(ss, [n]);
    OpenStreak(ss, n, tol);
  }

  /** A streak decomposition is unique: whatever satisfies the description
      is what the loop computes. */
  lemma {:induction false} StreakSplitIsSplit(xs: seq<real>, ss: seq<seq<real>>, tol: real)
    requires IsStreakSplit(xs, ss, tol)
    ensures Split(xs, tol) == Ok(ss)
    decreases |xs|
  {
    if xs != [] {
      var init := xs[..|xs| - 1];
      var n := xs[|xs| - 1];
      var front := ss[..|ss| - 1];
      var last := ss[|ss| - 1];
      assert ss == front + [last];
      ConcatAppend(front, last);
      assert |last| > 0;
      assert xs == Concat(front) + last;
      assert Last(last) == n;
      if |last| == 1 {
        assert last == [n];
        assert Concat(front) == init;
        if front == [] {
          assert init == [];
        } else {
          DropStreak(front, n, tol);
          assert IsStreakSplit(init, front, tol);
          StreakSplitIsSplit(init, front, tol);
          LastOfConcat(front);
        }
      } else {
        var shorter := last[..|last| - 1];
        assert last == shorter + [n];
        var ss' := front + [shorter];
        ConcatAppend(front, shorter);
        assert Concat(ss') == init;
        ShortenStreak(front, shorter, n, tol);
        assert IsStreakSplit(init, ss', tol);
        StreakSplitIsSplit(init, ss', tol);
        LastOfConcat(ss');
        assert ss'[..|ss'| - 1] == front;
      }
    }
  }

  /** `Split` computes exactly the streak decomposition. */
  lemma SplitCharacterised(xs: seq<real>, ss: seq<seq<real>>, tol: real)
    ensures Split(xs, tol) == Ok(ss) <==> IsStreakSplit(xs, ss, tol)
  {
    if Split(xs, tol) == Ok(ss) {
      SplitIsStreakSplit(xs, tol);
    }
    if IsStreakSplit(xs, ss, tol) {
      StreakSplitIsSplit(xs, ss, tol);
    }
  }

  /** `sorted(streaks, key=lambda s: -len(s))[0]`: a stable sort by
      decreasing length puts first the earliest of the longest streaks. */
  function LongestIndex(ss: seq<seq<real>>): (w: nat)
    requires |ss| > 0
    ensures w < |ss|
    ensures forall k :: 0 <= k < |ss| ==> |ss[k]| <= |ss[w]|
    ensures forall k :: 0 <= k < w ==> |ss[k]| < |ss[w]|
  {
    if |ss| == 1 then 0
    else
      var w := LongestIndex(ss[..|ss| - 1]);
      assert forall k :: 0 <= k < |ss| - 1 ==> ss[..|ss| - 1][k] == ss[k];
      if |ss[|ss| - 1]| > |ss[w]| then |ss| - 1 else w
  }

  /** `sorted(streaks, key=lambda s: -len(s))[1]`: the earliest of the
      longest streaks other than the winner `w`. */
  function RunnerUpIndex(ss: seq<seq<real>>, w: nat): (v: nat)
    requires |ss| > 1 && w < |ss|
    ensures v < |ss| && v != w
    ensures forall k :: 0 <= k < |ss| && k != w ==> |ss[k]| <= |ss[v]|
    ensures forall k :: 0 <= k < v && k != w ==> |ss[k]| < |ss[v]|
    decreases |ss|
  {
    if |ss| == 2 then 1 - w
    else if w == |ss| - 1 then
      LongestIndex(ss[..|ss| - 1])
    else
      var v := RunnerUpIndex(ss[..|ss| - 1], w);
      assert forall k :: 0 <= k < |ss| - 1 ==> ss[..|ss| - 1][k] == ss[k];
      if |ss[|ss| - 1]| > |ss[v]| then |ss| - 1 else v
  }
}

=== FILE: strings.dfy ===
/** The string operations the handlers rely on: `str.lower()`, the `in`
    substring test, and Python's ordering of strings (code point by code
    point, a proper prefix first). */
module Strings {

  /** `str.lower()` on one character; only ASCII letters are mapped. */
  function LowerChar(c: char): char
  {
    if 'A' <= c <= 'Z' then (c as int + 32) as char else c
  }

  function Lower(s: string): (r: string)
    ensures |r| == |s|
    ensures forall i :: 0 <= i < |s| ==> r[i] == LowerChar(s[i])
  {
    seq(|s|, i requires 0 <= i < |s| => LowerChar(s[i]))
  }

  /** Lower-casing twice is lower-casing once. */
  lemma LowerIdempotent(s: string)
    ensures Lower(Lower(s)) == Lower(s)
  {
  }

  /** `sub` occurs in `s` at position `i`. */
  predicate OccursAt(s: string, sub: string, i: int)
  {
    0 <= i <= |s| - |sub| && s[i..i + |sub|] == sub
  }

  /** `sub in s`. */
  predicate Contains(s: string, sub: string)
  {
    exists i :: 0 <= i <= |s| - |sub| && OccursAt(s, sub, i)
  }

  /** `a < b` on Python strings. */
  predicate StrLess(a: string, b: string)
    decreases |a|
  {
    if a == [] then b != []
    else if b == [] then false
    else if a[0] != b[0] then a[0] < b[0]
    else StrLess(a[1..], b[1..])
  }

  /** `a <= b` on Python strings. */
  predicate StrLe(a: string, b: string)
  {
    !StrLess(b, a)
  }

  /** The ordering is strict and total: exactly one of `a < b`, `a == b`,
      `b < a` holds. */
  lemma {:induction false} StrLessTrichotomy(a: string, b: string)
    ensures !(StrLess(a, b) && StrLess(b, a))
    ensures !StrLess(a, a)
    ensures a != b ==> StrLess(a, b) || StrLess(b, a)
    decreases |a|
  {
    if a != [] && b != [] && a[0] == b[0] {
      StrLessTrichotomy(a[1..], b[1..]);
      assert a == [a[0]] + a[1..] && b == [b[0]] + b[1..];
    } else if a != [] {
      StrLessTrichotomy(a[1..], a[1..]);
    }
  }

  lemma {:induction false} StrLessTransitive(a: string, b: string, c: string)
    requires StrLess(a, b) && StrLess(b, c)
    ensures StrLess(a, c)
    decreases |a|
  {
    if a != [] && b != [] && c != [] && a[0] == b[0] && b[0] == c[0] {
      StrLessTransitive(a[1..], b[1..], c[1..]);
    }
  }

  /** `<=` on strings is total and transitive. */
  lemma StrLeIsTotalPreorder(a: string, b: string, c: string)
    ensures StrLe(a, b) || StrLe(b, a)
    ensures StrLe(a, b) && StrLe(b, c) ==> StrLe(a, c)
  {
    StrLessTrichotomy(a, b);
    StrLessTrichotomy(b, c);
    StrLessTrichotomy(a, c);
    if StrLe(a, b) && StrLe(b, c) && a != b && b != c {
      StrLessTransitive(a, b, c);
    }
  }
}

=== FILE: system_fit.dfy ===
/** analzye-system.py: fitting the orbits of all stations of one system from
    the fitted station pairs. Every pair contributes two radius candidates
    to each of its stations and its synodic period to a symmetric table;
    each station's radius is the mean of its most similar candidates; the
    stations are ordered by radius, given initial periods on an even grid,
    and `leastsq` minimises the residuals of `metric`. The optimiser is a
    parameter: the model takes its result as given. */
module SystemFit {
  import opened Wrappers
  import opened Numeric
  import opened Sorting
  import opened Streaks
  import opened Model

  /** Relative tolerance of `find_similar_numbers`. */
  const SimilarTolerance: real := 0.005

  /** Scale of the Kepler residual. */
  const KeplerScale: real := 1000000.0

  /** The streak `find_similar_numbers` centres on: the earliest of the
      longest streaks of the sorted candidates. It must have more than one
      element. */
  function WinningStreak(l: seq<real>): (r: Result<seq<real>>)
    ensures r.Raise? ==> r.error == ZeroDivisionError || r.error == AssertionError
    ensures r.Ok? ==> |r.value| > 1 && multiset(r.value) <= multiset(l)
  {
    SplitRaisesOnlyZeroDivision(Sort(l), SimilarTolerance);
    var ss :- Split(Sort(l), SimilarTolerance);
    var w := LongestIndex(ss);
    if |ss[w]| <= 1 then Raise(AssertionError)
    else
      StreakInInput(l, ss, w);
      Ok(ss[w])
  }

  lemma StreakInInput(l: seq<real>, ss: seq<seq<real>>, w: nat)
    requires Split(Sort(l), SimilarTolerance) == Ok(ss) && w < |ss|
    ensures multiset(ss[w]) <= multiset(l)
  {
    SplitIsStreakSplit(Sort(l), SimilarTolerance);
    ConcatContains(ss, w);
  }

  lemma {:induction false} ConcatContains(ss: seq<seq<real>>, w: nat)
    requires w < |ss|
    ensures multiset(ss[w]) <= multiset(Concat(ss))
    decreases |ss|
  {
    var init := ss[..|ss| - 1];
    assert Concat(ss) == Concat(init) + ss[|ss| - 1];
    if w < |ss| - 1 {
      ConcatContains(init, w);
      assert init[w] == ss[w];
    }
  }

  /** `avg`: the mean of the winning streak. */
  function SimilarCenter(l: seq<real>): (r: Result<real>)
    ensures r.Raise? ==> r.error == ZeroDivisionError || r.error == AssertionError
    ensures r.Ok? ==> |l| > 0 && MinOf(l) <= r.value <= MaxOf(l)
  {
    var streak :- WinningStreak(l);
    StreakWithinRange(l, streak);
    Ok(Mean(streak))
  }

  lemma StreakWithinRange(l: seq<real>, streak: seq<real>)
    requires |streak| > 0 && multiset(streak) <= multiset(l)
    ensures |l| > 0
    ensures MinOf(l) <= Mean(streak) <= MaxOf(l)
  {
    assert streak[0] in multiset(l);
    forall i | 0 <= i < |streak|
      ensures MinOf(l) <= streak[i] <= MaxOf(l)
    {
      assert streak[i] in multiset(l);
    }
    MeanBounds(streak, MinOf(l), MaxOf(l));
  }

  /** `key=lambda n: abs(n - avg)` as an ordering. */
  function Closer(avg: real): (real, real) -> bool
  {
    (a: real, b: real) => Abs(a - avg) <= Abs(b - avg)
  }

  lemma CloserIsTotalPreorder(avg: real)
    ensures TotalPreorder(Closer(avg))
  {
  }

  /** `find_similar_numbers(l)`: the half of all candidates (rounded down)
      closest to the mean of the winning streak, closest first. */
  function FindSimilarNumbers(l: seq<real>): (r: Result<seq<real>>)
    ensures r.Raise? <==> SimilarCenter(l).Raise?
    ensures r.Raise? ==> r.error == SimilarCenter(l).error
    ensures r.Ok? ==> |r.value| == |l| / 2 && |r.value| >= 1
    ensures r.Ok? ==> multiset(r.value) <= multiset(l)
  {
    var avg :- SimilarCenter(l);
    var byProximity := SortBy(l, Closer(avg));
    PrefixSubMultiset(byProximity, |l| / 2);
    Ok(byProximity[..|l| / 2])
  }

  lemma PrefixSubMultiset(xs: seq<real>, h: nat)
    requires h <= |xs|
    ensures multiset(xs[..h]) <= multiset(xs)
  {
    assert xs == xs[..h] + xs[h..];
  }

  /** Every value of `kept` is at least as close to `avg` as every value of
      `l` left out of it, counting repeated values by multiplicity. */
  ghost predicate KeepsClosest(kept: seq<real>, l: seq<real>, avg: real)
  {
    forall x, y :: x in multiset(kept) && y in multiset(l) - multiset(kept) ==> Abs(x - avg) <= Abs(y - avg)
  }

  /** `find_similar_numbers` keeps the candidates closest to the centre. */
  lemma FindSimilarKeepsClosest(l: seq<real>)
    requires FindSimilarNumbers(l).Ok?
    ensures KeepsClosest(FindSimilarNumbers(l).value, l, SimilarCenter(l).value)
  {
    var avg := SimilarCenter(l).value;
    var byProximity := SortBy(l, Closer(avg));
    assert FindSimilarNumbers(l).value == byProximity[..|l| / 2];
    SortedByCloser(l, avg);
    SortedHalves(l, byProximity, avg, |l| / 2);
  }

  lemma SortedByCloser(l: seq<real>, avg: real)
    ensures SortedBy(SortBy(l, Closer(avg)), Closer(avg))
  {
    CloserIsTotalPreorder(avg);
  }

  lemma SortedHalves(l: seq<real>, xs: seq<real>, avg: real, h: nat)
    requires SortedBy(xs, Closer(avg)) && h <= |xs| && multiset(xs) == multiset(l)
    ensures KeepsClosest(xs[..h], l, avg)
  {
    MultisetHalves(l, xs, h);
    OrderedHalves(xs, avg, h);
    forall x, y | x in multiset(xs[..h]) && y in multiset(l) - multiset(xs[..h])
      ensures Abs(x - avg) <= Abs(y - avg)
    {
      assert x in xs[..h];
      assert y in multiset(xs[h..]);
      assert y in xs[h..];
    }
  }

  lemma MultisetHalves(l: seq<real>, xs: seq<real>, h: nat)
    requires multiset(xs) == multiset(l) && h <= |xs|
    ensures multiset(l) - multiset(xs[..h]) == multiset(xs[h..])
  {
    assert xs == xs[..h] + xs[h..];
  }

  lemma OrderedHalves(xs: seq<real>, avg: real, h: nat)
    requires SortedBy(xs, Closer(avg)) && h <= |xs|
    ensures forall x, y :: x in xs[..h] && y in xs[h..] ==> Abs(x - avg) <= Abs(y - avg)
  {
    forall x, y | x in xs[..h] && y in xs[h..]
      ensures Abs(x - avg) <= Abs(y - avg)
    {
      var i :| 0 <= i < h && xs[..h][i] == x;
      var j :| 0 <= j < |xs| - h && xs[h..][j] == y;
      assert Closer(avg)(xs[i], xs[h + j]);
    }
  }

  /** The winning streak is the first of the longest streaks, and a tie for
      the longest is accepted (the fuel script would reject it). */
  lemma FindSimilarAcceptsTies(l: seq<real>)
    requires Split(Sort(l), SimilarTolerance).Ok?
    ensures var ss := Split(Sort(l), SimilarTolerance).value;
      var w := LongestIndex(ss);
      && (forall k :: 0 <= k < |ss| ==> |ss[k]| <= |ss[w]|)
      && (forall k :: 0 <= k < w ==> |ss[k]| < |ss[w]|)
      && (FindSimilarNumbers(l).Ok? <==> |ss[w]| > 1)
      && (|ss[w]| > 1 ==> SimilarCenter(l) == Ok(Mean(ss[w])))
  {
  }

  /** The fields of a fitted pair the script reads; the query keeps only
      pairs of the system with a period. */
  datatype FittedPair = FittedPair(a: int, b: int, period: real, minDistance: Option<real>, maxDistance: Option<real>)

  /** The fitted fields of a stored pair that has a period. */
  function AsFitted(p: StationPair): FittedPair
    requires p.fit.period.Some?
  {
    FittedPair(p.stationA, p.stationB, p.fit.period.value, p.fit.minDistance, p.fit.maxDistance)
  }

  function Fitted(pairs: seq<StationPair>, systemId: int): (r: seq<FittedPair>)
    ensures |r| <= |pairs|
    ensures forall q :: q in r <==>
      exists i :: 0 <= i < |pairs| && pairs[i].systemId == systemId && pairs[i].fit.period.Some? && q == AsFitted(pairs[i])
  {
    if pairs == [] then []
    else
      var p := pairs[|pairs| - 1];
      var r := Fitted(pairs[..|pairs| - 1], systemId);
      if p.systemId == systemId && p.fit.period.Some? then
        r + [AsFitted(p)]
      else r
  }

  /** The two radius candidates of a pair; arithmetic on a missing distance
      raises TypeError. */
  function Radii(p: FittedPair): (r: Result<seq<real>>)
    ensures r.Raise? <==> p.minDistance.None? || p.maxDistance.None?
    ensures r.Raise? ==> r.error == TypeError
    ensures r.Ok? ==> |r.value| == 2
    ensures r.Ok? ==> r.value[0] + r.value[1] == p.maxDistance.value && r.value[1] - r.value[0] == p.minDistance.value
  {
    if p.minDistance.None? || p.maxDistance.None? then Raise(TypeError)
    else
      var (lo, hi) := (p.minDistance.value, p.maxDistance.value);
      Ok([(hi - lo) / 2.0, (hi + lo) / 2.0])
  }

  /** The tables the pair loop builds: the stations in order of first
      appearance, each station's radius candidates, and the relative
      periods keyed by ordered station pairs. */
  datatype Collected = Collected(order: seq<int>, candidates: map<int, seq<real>>, relative: map<(int, int), real>)

  function AddStation(order: seq<int>, s: int): seq<int>
  {
    if s in order then order else order + [s]
  }

  function AddCandidates(m: map<int, seq<real>>, s: int, radii: seq<real>): map<int, seq<real>>
  {
    m[s := (if s in m then m[s] else []) + radii]
  }

  /** The pair loop, one pair at a time. */
  function Collect(pairs: seq<FittedPair>): Result<Collected>
  {
    if pairs == [] then Ok(Collected([], map[], map[]))
    else
      var c :- Collect(pairs[..|pairs| - 1]);
      var p := pairs[|pairs| - 1];
      var radii :- Radii(p);
      Ok(Collected(
        AddStation(AddStation(c.order, p.a), p.b),
        AddCandidates(AddCandidates(c.candidates, p.a, radii), p.b, radii),
        c.relative[(p.a, p.b) := p.period][(p.b, p.a) := p.period]))
  }

  /** A station's candidates: both radii of every pair it belongs to, in
      pair order, twice for a pair of the station with itself. */
  function CandidatesOf(pairs: seq<FittedPair>, s: int): seq<real>
  {
    if pairs == [] then []
    else
      var p := pairs[|pairs| - 1];
      var radii := if Radii(p).Ok? then Radii(p).value else [];
      CandidatesOf(pairs[..|pairs| - 1], s)
        + (if p.a == s then radii else [])
        + (if p.b == s then radii else [])
  }

  predicate Touches(pairs: seq<FittedPair>, s: int)
  {
    exists i :: 0 <= i < |pairs| && (pairs[i].a == s || pairs[i].b == s)
  }

  /** `p` links `x` to `y` in either direction. */
  predicate Links(p: FittedPair, x: int, y: int)
  {
    (p.a == x && p.b == y) || (p.a == y && p.b == x)
  }

  /** The pair loop fails exactly when some pair lacks a distance, with a
      TypeError. */
  lemma {:induction false} CollectRaises(pairs: seq<FittedPair>)
    ensures Collect(pairs).Raise? <==> exists i :: 0 <= i < |pairs| && Radii(pairs[i]).Raise?
    ensures Collect(pairs).Raise? ==> Collect(pairs).error == TypeError
    decreases |pairs|
  {
    if pairs != [] {
      var init := pairs[..|pairs| - 1];
      CollectRaises(init);
      assert forall i :: 0 <= i < |init| ==> init[i] == pairs[i];
      if Collect(init).Raise? {
        var i :| 0 <= i < |init| && Radii(init[i]).Raise?;
        assert Radii(pairs[i]).Raise?;
      } else if Radii(pairs[|pairs| - 1]).Raise? {
      } else {
        forall i | 0 <= i < |pairs|
          ensures Radii(pairs[i]).Ok?
        {
          if i < |init| {
            assert Radii(init[i]).Ok?;
          }
        }
      }
    }
  }

  /** The stations listed are the stations of the pairs, each once, and
      they are exactly the stations holding candidates. */
  lemma {:induction false} CollectStations(pairs: seq<FittedPair>)
    requires Collect(pairs).Ok?
    ensures var c := Collect(pairs).value;
      && (forall s :: s in c.order <==> Touches(pairs, s))
      && (forall i, j :: 0 <= i < j < |c.order| ==> c.order[i] != c.order[j])
      && (forall s :: s in c.candidates <==> s in c.order)
    decreases |pairs|
  {
    if pairs != [] {
      var init := pairs[..|pairs| - 1];
      var p := pairs[|pairs| - 1];
      CollectSnoc(pairs);
      CollectStations(init);
      var c := Collect(init).value;
      StationsStep(c, p, Radii(p).value, Collect(pairs).value);
      forall s
        ensures Touches(pairs, s) <==> Touches(init, s) || p.a == s || p.b == s
      {
        TouchesSnoc(pairs, s);
      }
    }
  }

  /** One step of the pair loop, from the tables of all pairs but the last. */
  lemma CollectSnoc(pairs: seq<FittedPair>)
    requires pairs != [] && Collect(pairs).Ok?
    ensures Collect(pairs[..|pairs| - 1]).Ok? && Radii(pairs[|pairs| - 1]).Ok?
    ensures var c := Collect(pairs[..|pairs| - 1]).value;
      var p := pairs[|pairs| - 1];
      var radii := Radii(p).value;
      Collect(pairs).value == Collected(
        AddStation(AddStation(c.order, p.a), p.b),
        AddCandidates(AddCandidates(c.candidates, p.a, radii), p.b, radii),
        c.relative[(p.a, p.b) := p.period][(p.b, p.a) := p.period])
  {
  }

  /** A pair's step adds its two stations, once each, to the list and to
      the candidate table. */
  lemma StationsStep(c: Collected, p: FittedPair, radii: seq<real>, c': Collected)
    requires forall i, j :: 0 <= i < j < |c.order| ==> c.order[i] != c.order[j]
    requires forall s :: s in c.candidates <==> s in c.order
    requires c'.order == AddStation(AddStation(c.order, p.a), p.b)
    requires c'.candidates == AddCandidates(AddCandidates(c.candidates, p.a, radii), p.b, radii)
    ensures forall s :: s in c'.order <==> s in c.order || s == p.a || s == p.b
    ensures forall i, j :: 0 <= i < j < |c'.order| ==> c'.order[i] != c'.order[j]
    ensures forall s :: s in c'.candidates <==> s in c'.order
  {
    AddStationDistinct(c.order, p.a);
    AddStationDistinct(AddStation(c.order, p.a), p.b);
  }

  lemma AddStationDistinct(order: seq<int>, s: int)
    requires forall i, j :: 0 <= i < j < |order| ==> order[i] != order[j]
    ensures forall t :: t in AddStation(order, s) <==> t in order || t == s
    ensures var r := AddStation(order, s);
      forall i, j :: 0 <= i < j < |r| ==> r[i] != r[j]
  {
  }

  lemma TouchesSnoc(pairs: seq<FittedPair>, s: int)
    requires pairs != []
    ensures Touches(pairs, s) <==>
      Touches(pairs[..|pairs| - 1], s) || pairs[|pairs| - 1].a == s || pairs[|pairs| - 1].b == s
  {
    var init := pairs[..|pairs| - 1];
    if Touches(pairs, s) {
      var i :| 0 <= i < |pairs| && (pairs[i].a == s || pairs[i].b == s);
      if i < |init| {
        assert init[i] == pairs[i];
      }
    }
    if Touches(init, s) {
      var i :| 0 <= i < |init| && (init[i].a == s || init[i].b == s);
      assert pairs[i] == init[i];
    }
  }

  function Get(m: map<int, seq<real>>, s: int): seq<real>
  {
    if s in m then m[s] else []
  }

  /** Each station holds exactly its candidates. */
  lemma {:induction false} CollectCandidates(pairs: seq<FittedPair>)
    requires Collect(pairs).Ok?
    ensures forall s :: Get(Collect(pairs).value.candidates, s) == CandidatesOf(pairs, s)
    decreases |pairs|
  {
    if pairs != [] {
      CollectCandidates(pairs[..|pairs| - 1]);
    }
  }

  /** Two stations have a relative period, looked up either way round,
      exactly when a pair links them. */
  lemma {:induction false} CollectRelativeDomain(pairs: seq<FittedPair>)
    requires Collect(pairs).Ok?
    ensures forall x, y :: (x, y) in Collect(pairs).value.relative <==> Linked(pairs, x, y)
    decreases |pairs|
  {
    if pairs != [] {
      var init := pairs[..|pairs| - 1];
      CollectRelativeDomain(init);
      forall x, y
        ensures (x, y) in Collect(pairs).value.relative <==> Linked(pairs, x, y)
      {
        if Linked(pairs, x, y) {
          var i :| 0 <= i < |pairs| && Links(pairs[i], x, y);
          if i < |init| {
            assert Links(init[i], x, y);
          }
        }
        if Linked(init, x, y) {
          var i :| 0 <= i < |init| && Links(init[i], x, y);
          assert Links(pairs[i], x, y);
        }
      }
    }
  }

  /** Some pair links `x` and `y`. */
  predicate Linked(pairs: seq<FittedPair>, x: int, y: int)
  {
    exists i :: 0 <= i < |pairs| && Links(pairs[i], x, y)
  }

  /** The relative period of two stations is the period of the last pair
      linking them. */
  lemma {:induction false} CollectRelativeLast(pairs: seq<FittedPair>)
    requires Collect(pairs).Ok?
    ensures var rel := Collect(pairs).value.relative;
      forall x, y :: (x, y) in rel ==> LastLink(pairs, x, y, rel[(x, y)])
    decreases |pairs|
  {
    if pairs != [] {
      var init := pairs[..|pairs| - 1];
      CollectSnoc(pairs);
      CollectRelativeLast(init);
      RelativeLastStep(pairs, Collect(init).value.relative, Collect(pairs).value.relative);
    }
  }

  lemma RelativeLastStep(pairs: seq<FittedPair>, rel: map<(int, int), real>, rel': map<(int, int), real>)
    requires pairs != []
    requires var p := pairs[|pairs| - 1];
      rel' == rel[(p.a, p.b) := p.period][(p.b, p.a) := p.period]
    requires forall x, y :: (x, y) in rel ==> LastLink(pairs[..|pairs| - 1], x, y, rel[(x, y)])
    ensures forall x, y :: (x, y) in rel' ==> LastLink(pairs, x, y, rel'[(x, y)])
  {
    var init := pairs[..|pairs| - 1];
    var p := pairs[|pairs| - 1];
    forall x, y | (x, y) in rel'
      ensures LastLink(pairs, x, y, rel'[(x, y)])
    {
      if Links(p, x, y) {
        assert LastLinkAt(pairs, x, y, rel'[(x, y)], |pairs| - 1);
      } else {
        var i :| LastLinkAt(init, x, y, rel[(x, y)], i);
        assert LastLinkAt(pairs, x, y, rel'[(x, y)], i);
      }
    }
  }

  ghost predicate LastLinkAt(pairs: seq<FittedPair>, x: int, y: int, period: real, i: int)
  {
    0 <= i < |pairs| && Links(pairs[i], x, y) && period == pairs[i].period
    && forall k :: i < k < |pairs| ==> !Links(pairs[k], x, y)
  }

  /** `period` is the period of the last pair linking `x` and `y`. */
  ghost predicate LastLink(pairs: seq<FittedPair>, x: int, y: int, period: real)
  {
    exists i :: LastLinkAt(pairs, x, y, period, i)
  }

  /** The relative-period table is symmetric. */
  lemma RelativeSymmetric(pairs: seq<FittedPair>)
    requires Collect(pairs).Ok?
    ensures var rel := Collect(pairs).value.relative;
      forall x, y :: (x, y) in rel ==> (y, x) in rel && rel[(y, x)] == rel[(x, y)]
  {
    CollectRelativeDomain(pairs);
    CollectRelativeLast(pairs);
    var rel := Collect(pairs).value.relative;
    forall x, y | (x, y) in rel
      ensures (y, x) in rel && rel[(y, x)] == rel[(x, y)]
    {
      var i :| LastLinkAt(pairs, x, y, rel[(x, y)], i);
      assert Links(pairs[i], y, x);
      var j :| LastLinkAt(pairs, y, x, rel[(y, x)], j);
      assert Links(pairs[j], x, y);
    }
  }

  /** The radius loop, in the order the stations were first seen, with
      `stationRadius` computing one station's radius from its candidates
      (the script passes `StationRadius`). */
  function Radius(order: seq<int>, candidates: map<int, seq<real>>, stationRadius: seq<real> -> Result<real>): Result<map<int, real>>
  {
    if order == [] then Ok(map[])
    else
      var m :- Radius(order[..|order| - 1], candidates, stationRadius);
      var s := order[|order| - 1];
      var r :- stationRadius(Get(candidates, s));
      Ok(m[s := r])
  }

  /** `np.average(find_similar_numbers(radii))`: a radius within the range
      of the candidates. */
  function StationRadius(candidates: seq<real>): (r: Result<real>)
    ensures r.Ok? <==> FindSimilarNumbers(candidates).Ok?
    ensures r.Ok? ==> InRange(candidates, r.value)
  {
    var similar :- FindSimilarNumbers(candidates);
    StreakWithinRange(candidates, similar);
    Ok(Mean(similar))
  }

  /** The loop fails exactly when some station's candidates have no
      non-trivial streak or hit a zero divisor. */
  lemma {:induction false} RadiusOkIff(order: seq<int>, candidates: map<int, seq<real>>, stationRadius: seq<real> -> Result<real>)
    ensures Radius(order, candidates, stationRadius).Ok? <==>
      forall i :: 0 <= i < |order| ==> stationRadius(Get(candidates, order[i])).Ok?
    decreases |order|
  {
    if order != [] {
      var init := order[..|order| - 1];
      RadiusOkIff(init, candidates, stationRadius);
      assert forall i :: 0 <= i < |init| ==> init[i] == order[i];
    }
  }

  /** `r` lies within the range of the non-empty list `c`. */
  predicate InRange(c: seq<real>, r: real)
  {
    c != [] && MinOf(c) <= r <= MaxOf(c)
  }

  /** A station's radius lies within the range of its candidates. */
  predicate WithinCandidates(radius: map<int, real>, candidates: map<int, seq<real>>, s: int)
    requires s in radius
  {
    InRange(Get(candidates, s), radius[s])
  }

  /** When the loop succeeds every listed station has a radius, within the
      range of the station's candidates. */
  lemma {:induction false} RadiusValues(order: seq<int>, candidates: map<int, seq<real>>, stationRadius: seq<real> -> Result<real>)
    requires forall c :: stationRadius(c).Ok? ==> InRange(c, stationRadius(c).value)
    requires Radius(order, candidates, stationRadius).Ok?
    ensures var radius := Radius(order, candidates, stationRadius).value;
      && (forall s :: s in radius <==> s in order)
      && (forall s :: s in radius ==> WithinCandidates(radius, candidates, s))
    decreases |order|
  {
    if order != [] {
      var init := order[..|order| - 1];
      var s := order[|order| - 1];
      RadiusValues(init, candidates, stationRadius);
      assert order == init + [s];
      var prev := Radius(init, candidates, stationRadius).value;
      var r := stationRadius(Get(candidates, s)).value;
      assert Radius(order, candidates, stationRadius).value == prev[s := r];
      RadiusStep(prev, candidates, s, r, prev[s := r]);
    }
  }

  lemma RadiusStep(prev: map<int, real>, candidates: map<int, seq<real>>, s: int, r: real, radius: map<int, real>)
    requires InRange(Get(candidates, s), r)
    requires forall t :: t in prev ==> WithinCandidates(prev, candidates, t)
    requires radius == prev[s := r]
    ensures forall t :: t in radius ==> WithinCandidates(radius, candidates, t)
  {
    forall t | t in radius
      ensures WithinCandidates(radius, candidates, t)
    {
      if t != s {
        assert WithinCandidates(prev, candidates, t);
      }
    }
  }

  /** `key=lambda x: radius_by_id[x][0]` as an ordering. */
  function ByRadius(radius: map<int, real>): (int, int) -> bool
  {
    (x: int, y: int) => (if x in radius then radius[x] else 0.0) <= (if y in radius then radius[y] else 0.0)
  }

  lemma ByRadiusIsTotalPreorder(radius: map<int, real>)
    ensures TotalPreorder(ByRadius(radius))
  {
  }

  /** `all_periods`. */
  function Periods(pairs: seq<FittedPair>): (r: seq<real>)
    ensures |r| == |pairs|
    ensures forall i :: 0 <= i < |pairs| ==> r[i] == pairs[i].period
  {
    seq(|pairs|, i requires 0 <= i < |pairs| => pairs[i].period)
  }

  /** What the script has ready for `leastsq`. */
  datatype Setup = Setup(stationIds: seq<int>, radius: map<int, real>, relative: map<(int, int), real>, initial: seq<real>)

  /** Everything before the optimiser: the pair loop, the radius loop, the
      station order and the initial periods (`np.min` of no periods raises
      ValueError). */
  function Analyze(pairs: seq<FittedPair>): Result<Setup>
  {
    var c :- Collect(pairs);
    var radius :- Radius(c.order, c.candidates, StationRadius);
    var ids := SortBy(c.order, ByRadius(radius));
    if pairs == [] then Raise(ValueError)
    else
      var periods := Periods(pairs);
      Ok(Setup(ids, radius, c.relative, Linspace(MinOf(periods), MaxOf(periods), |ids|)))
  }

  /** The stations are those of the pairs, each once, and each has a
      radius. */
  lemma AnalyzeStations(pairs: seq<FittedPair>)
    requires Analyze(pairs).Ok?
    ensures var setup := Analyze(pairs).value;
      && multiset(setup.stationIds) == multiset(Collect(pairs).value.order)
      && (forall s :: s in setup.stationIds <==> Touches(pairs, s))
      && (forall s :: s in setup.stationIds ==> s in setup.radius)
  {
    var c := Collect(pairs).value;
    var setup := Analyze(pairs).value;
    CollectStations(pairs);
    RadiusValues(c.order, c.candidates, StationRadius);
    PermutationMembers(setup.stationIds, c.order);
    PermutationMembers(c.order, setup.stationIds);
  }

  /** Every station of `ids` has a radius, and they ascend. */
  predicate OrderedByRadius(ids: seq<int>, radius: map<int, real>)
  {
    forall i, j :: 0 <= i < j < |ids| ==> ids[i] in radius && ids[j] in radius && radius[ids[i]] <= radius[ids[j]]
  }

  /** The stations are in ascending order of radius. */
  lemma AnalyzeOrdersByRadius(pairs: seq<FittedPair>)
    requires Analyze(pairs).Ok?
    ensures OrderedByRadius(Analyze(pairs).value.stationIds, Analyze(pairs).value.radius)
  {
    AnalyzeParts(pairs);
    var c := Collect(pairs).value;
    RadiusDomain(c.order, c.candidates, StationRadius);
    SortedSetup(Analyze(pairs).value, c.order);
  }

  lemma SortedSetup(setup: Setup, order: seq<int>)
    requires setup.stationIds == SortBy(order, ByRadius(setup.radius))
    requires forall i :: 0 <= i < |order| ==> order[i] in setup.radius
    ensures OrderedByRadius(setup.stationIds, setup.radius)
  {
    SortedByRadius(order, setup.radius);
  }

  /** The radius loop gives a radius to exactly the listed stations. */
  lemma {:induction false} RadiusDomain(order: seq<int>, candidates: map<int, seq<real>>, stationRadius: seq<real> -> Result<real>)
    requires Radius(order, candidates, stationRadius).Ok?
    ensures forall s :: s in Radius(order, candidates, stationRadius).value <==> s in order
    ensures forall i :: 0 <= i < |order| ==> order[i] in Radius(order, candidates, stationRadius).value
    decreases |order|
  {
    if order != [] {
      RadiusDomain(order[..|order| - 1], candidates, stationRadius);
      assert order == order[..|order| - 1] + [order[|order| - 1]];
    }
  }

  /** How the result of the analysis is assembled from the pair loop, the
      radius loop and the sort. */
  lemma AnalyzeParts(pairs: seq<FittedPair>)
    requires Analyze(pairs).Ok?
    ensures Collect(pairs).Ok?
    ensures Radius(Collect(pairs).value.order, Collect(pairs).value.candidates, StationRadius).Ok?
    ensures Analyze(pairs).value.radius == Radius(Collect(pairs).value.order, Collect(pairs).value.candidates, StationRadius).value
    ensures Analyze(pairs).value.stationIds == SortBy(Collect(pairs).value.order, ByRadius(Analyze(pairs).value.radius))
  {
  }

  lemma SortedByRadius(order: seq<int>, radius: map<int, real>)
    requires forall i :: 0 <= i < |order| ==> order[i] in radius
    ensures OrderedByRadius(SortBy(order, ByRadius(radius)), radius)
  {
    var ids := SortBy(order, ByRadius(radius));
    ByRadiusIsTotalPreorder(radius);
    PermutationMembers(ids, order);
    forall i, j | 0 <= i < j < |ids|
      ensures ids[i] in radius && ids[j] in radius && radius[ids[i]] <= radius[ids[j]]
    {
      assert ByRadius(radius)(ids[i], ids[j]);
    }
  }

  /** The initial guess has one period per station (at least one), running
      from the least to the greatest pair period. */
  lemma AnalyzeInitialGrid(pairs: seq<FittedPair>)
    requires Analyze(pairs).Ok?
    ensures pairs != []
    ensures var setup := Analyze(pairs).value;
      && |setup.initial| == |setup.stationIds| >= 1
      && setup.initial[0] == MinOf(Periods(pairs))
      && (|setup.initial| >= 2 ==> setup.initial[|setup.initial| - 1] == MaxOf(Periods(pairs)))
      && (forall i :: 0 <= i < |setup.initial| ==> MinOf(Periods(pairs)) <= setup.initial[i] <= MaxOf(Periods(pairs)))
  {
    AnalyzeStations(pairs);
    var setup := Analyze(pairs).value;
    assert Touches(pairs, pairs[0].a);
    assert pairs[0].a in setup.stationIds;
    var periods := Periods(pairs);
    assert MinOf(periods) <= periods[0] <= MaxOf(periods);
  }

  /** The index pairs `(i, j)`, `i < j < n`, in the order of the nested
      loops of `metric`. */
  function IndexPairs(n: nat): seq<(nat, nat)>
  {
    PairsFrom(0, n)
  }

  function PairsFrom(i: nat, n: nat): seq<(nat, nat)>
    decreases n - i
  {
    if i + 1 >= n then []
    else seq(n - i - 1, k requires 0 <= k < n - i - 1 => (i, i + 1 + k)) + PairsFrom(i + 1, n)
  }

  lemma {:induction false} PairsFromMembers(i: nat, n: nat)
    ensures forall a, b :: (a, b) in PairsFrom(i, n) <==> i <= a < b < n
    decreases n - i
  {
    if i + 1 < n {
      PairsFromMembers(i + 1, n);
      var row := seq(n - i - 1, k requires 0 <= k < n - i - 1 => (i, i + 1 + k));
      forall a, b | i <= a < b < n && a == i
        ensures (a, b) in row
      {
        assert row[b - i - 1] == (a, b);
      }
    }
  }

  /** Every index pair with `i < j < n` occurs, and nothing else. */
  lemma IndexPairsMembers(n: nat)
    ensures forall a, b :: (a, b) in IndexPairs(n) <==> 0 <= a < b < n
  {
    PairsFromMembers(0, n);
  }

  function Cube(x: real): real
  {
    x * x * x
  }

  /** The two residuals of stations with periods `ti`, `tj`, radii `ri`,
      `rj` and relative period `t`: the synodic-period error and the scaled
      difference of `T^2 / r^3`. None where numpy would produce an infinite
      or undefined value (a division by zero). */
  function Residuals(ti: real, tj: real, t: real, ri: real, rj: real): (r: Option<seq<real>>)
    ensures r.Some? <==> ti != 0.0 && tj != 0.0 && 1.0 / ti != 1.0 / tj && Cube(ri) != 0.0 && Cube(rj) != 0.0
    ensures r.Some? ==> |r.value| == 2
  {
    if ti == 0.0 || tj == 0.0 || 1.0 / ti == 1.0 / tj || Cube(ri) == 0.0 || Cube(rj) == 0.0 then None
    else Some([1.0 / (1.0 / ti - 1.0 / tj) - t, KeplerScale * (Square(ti) / Cube(ri) - Square(tj) / Cube(rj))])
  }

  /** Both residuals vanish exactly when `t` is the synodic period of `ti`
      and `tj` and the two orbits obey Kepler's third law with the same
      constant. */
  lemma ResidualsZeroIff(ti: real, tj: real, t: real, ri: real, rj: real)
    requires Residuals(ti, tj, t, ri, rj).Some?
    ensures Residuals(ti, tj, t, ri, rj) == Some([0.0, 0.0]) <==>
      t == 1.0 / (1.0 / ti - 1.0 / tj) && Square(ti) / Cube(ri) == Square(tj) / Cube(rj)
  {
  }

  /** A pair of distinct non-zero periods always has a synodic residual. */
  lemma DistinctPeriodsHaveResiduals(ti: real, tj: real, t: real, ri: real, rj: real)
    requires ti != 0.0 && tj != 0.0 && ti != tj && Cube(ri) != 0.0 && Cube(rj) != 0.0
    ensures Residuals(ti, tj, t, ri, rj).Some?
  {
    if 1.0 / ti == 1.0 / tj {
      assert ti * (1.0 / ti) == 1.0 && tj * (1.0 / tj) == 1.0;
      ReciprocalInjective(ti, tj);
    }
  }

  lemma ReciprocalInjective(a: real, b: real)
    requires a != 0.0 && b != 0.0 && 1.0 / a == 1.0 / b
    ensures a == b
  {
    assert a == 1.0 / (1.0 / a) && b == 1.0 / (1.0 / b);
  }

  /** The linked index pairs: those whose stations have a relative period. */
  function LinkedPairs(ids: seq<int>, relative: map<(int, int), real>, ps: seq<(nat, nat)>): (r: seq<(nat, nat)>)
    requires forall k :: 0 <= k < |ps| ==> ps[k].0 < |ids| && ps[k].1 < |ids|
    ensures forall k :: 0 <= k < |r| ==> r[k] in ps && (ids[r[k].0], ids[r[k].1]) in relative
    ensures forall k :: 0 <= k < |ps| && (ids[ps[k].0], ids[ps[k].1]) in relative ==> ps[k] in r
  {
    if ps == [] then []
    else
      var init := ps[..|ps| - 1];
      var (i, j) := ps[|ps| - 1];
      var r := LinkedPairs(ids, relative, init);
      assert forall k :: 0 <= k < |init| ==> init[k] == ps[k];
      if (ids[i], ids[j]) in relative then r + [(i, j)] else r
  }

  /** `metric(times)` over the index pairs `ps`: for each linked pair the two
      residuals, in loop order. None where some residual is not finite. */
  function MetricOver(times: seq<real>, ids: seq<int>, relative: map<(int, int), real>,
                      radius: map<int, real>, ps: seq<(nat, nat)>): Option<seq<real>>
    requires |times| == |ids| && forall i :: 0 <= i < |ids| ==> ids[i] in radius
    requires forall k :: 0 <= k < |ps| ==> ps[k].0 < |ids| && ps[k].1 < |ids|
  {
    if ps == [] then Some([])
    else
      var prev :- MetricOver(times, ids, relative, radius, ps[..|ps| - 1]);
      var (i, j) := ps[|ps| - 1];
      if (ids[i], ids[j]) !in relative then Some(prev)
      else
        var two :- Residuals(times[i], times[j], relative[(ids[i], ids[j])], radius[ids[i]], radius[ids[j]]);
        Some(prev + two)
  }

  /** The residuals of the index pair `p`. */
  function PairResiduals(times: seq<real>, ids: seq<int>, relative: map<(int, int), real>,
                         radius: map<int, real>, p: (nat, nat)): Option<seq<real>>
    requires |times| == |ids| && forall i :: 0 <= i < |ids| ==> ids[i] in radius
    requires p.0 < |ids| && p.1 < |ids| && (ids[p.0], ids[p.1]) in relative
  {
    Residuals(times[p.0], times[p.1], relative[(ids[p.0], ids[p.1])], radius[ids[p.0]], radius[ids[p.1]])
  }

  /** `metric` emits exactly two residuals per linked index pair, in order,
      and nothing for a pair without a relative period. */
  lemma {:induction false} MetricOverShape(times: seq<real>, ids: seq<int>, relative: map<(int, int), real>,
                                           radius: map<int, real>, ps: seq<(nat, nat)>)
    requires |times| == |ids| && forall i :: 0 <= i < |ids| ==> ids[i] in radius
    requires forall k :: 0 <= k < |ps| ==> ps[k].0 < |ids| && ps[k].1 < |ids|
    requires MetricOver(times, ids, relative, radius, ps).Some?
    ensures var r := MetricOver(times, ids, relative, radius, ps).value;
      var linked := LinkedPairs(ids, relative, ps);
      && |r| == 2 * |linked|
      && forall k :: 0 <= k < |linked| ==>
           PairResiduals(times, ids, relative, radius, linked[k]) == Some([r[2 * k], r[2 * k + 1]])
    decreases |ps|
  {
    if ps != [] {
      var init := ps[..|ps| - 1];
      MetricOverShape(times, ids, relative, radius, init);
      var prev := MetricOver(times, ids, relative, radius, init).value;
      var linked := LinkedPairs(ids, relative, init);
      var (i, j) := ps[|ps| - 1];
      if (ids[i], ids[j]) in relative {
        var two := PairResiduals(times, ids, relative, radius, (i, j)).value;
        var r := prev + two;
        var linked' := linked + [(i, j)];
        forall k | 0 <= k < |linked'|
          ensures PairResiduals(times, ids, relative, radius, linked'[k]) == Some([r[2 * k], r[2 * k + 1]])
        {
          if k < |linked| {
            assert linked'[k] == linked[k];
          } else {
            assert r[2 * k] == two[0] && r[2 * k + 1] == two[1];
          }
        }
      }
    }
  }

  /** `metric(times)` over all index pairs of the stations. */
  function Metric(times: seq<real>, setup: Setup): (r: Option<seq<real>>)
    requires |times| == |setup.stationIds|
    requires forall i :: 0 <= i < |setup.stationIds| ==> setup.stationIds[i] in setup.radius
  {
    IndexPairsMembers(|setup.stationIds|);
    MetricOver(times, setup.stationIds, setup.relative, setup.radius, IndexPairs(|setup.stationIds|))
  }

  /** The magnitudes of the residuals. */
  function Magnitudes(xs: seq<real>): (r: seq<real>)
    ensures |r| == |xs|
    ensures forall i :: 0 <= i < |xs| ==> r[i] == Abs(xs[i])
  {
    seq(|xs|, i requires 0 <= i < |xs| => Abs(xs[i]))
  }

  /** `np.average(np.abs(residuals))`; None for no residuals, where numpy
      gives NaN. */
  function FitError(residuals: seq<real>): (r: Option<real>)
    ensures r.Some? <==> residuals != []
    ensures r.Some? ==> r.value >= 0.0
  {
    if residuals == [] then None
    else
      SumNonNegative(Magnitudes(residuals));
      Some(Mean(Magnitudes(residuals)))
  }

  /** The fit error is zero exactly when every residual is. */
  lemma FitErrorZeroIff(residuals: seq<real>)
    requires residuals != []
    ensures FitError(residuals) == Some(0.0) <==> forall i :: 0 <= i < |residuals| ==> residuals[i] == 0.0
  {
    var m := Magnitudes(residuals);
    SumZeroIff(m);
    var n := |m| as real;
    assert Mean(m) == Sum(m) / n;
    if Sum(m) != 0.0 {
      assert Sum(m) > 0.0 by {
        SumNonNegative(m);
      }
      assert Sum(m) / n > 0.0;
    }
  }

  /** A sum of non-negative values is zero exactly when every value is. */
  lemma {:induction false} SumZeroIff(xs: seq<real>)
    requires forall i :: 0 <= i < |xs| ==> xs[i] >= 0.0
    ensures Sum(xs) == 0.0 <==> forall i :: 0 <= i < |xs| ==> xs[i] == 0.0
  {
    if xs != [] {
      var init := xs[..|xs| - 1];
      SumZeroIff(init);
      SumNonNegative(init);
      assert forall i :: 0 <= i < |init| ==> init[i] == xs[i];
    }
  }
}

=== FILE: vendor.dfy ===
/** The vendor-inventory handler of utt/vendor.py,
    `add_vendory_inventory`: a submission names a vendor at a station and
    lists the items it sells. The handler keeps one inventory row per
    distinct item set the vendor has been seen with: an unchanged set
    moves the latest inventory's `last_seen` forward, a changed one starts
    a new inventory. The database is a value (`VendorState`); the token
    check and the clock are parameters. */
module Vendors {
  import opened Wrappers
  import opened Payload
  import opened Model

  datatype Vendor = Vendor(id: int, stationId: int, name: string)

  /** One inventory state of a vendor, seen from `firstSeen` to `lastSeen`. */
  datatype Inventory = Inventory(id: int, vendorId: int, tokenId: int, firstSeen: int, lastSeen: int)

  /** A row linking an inventory to an item, the item given by its slug. */
  datatype InventoryItem = InventoryItem(inventoryId: int, slug: string)

  /** The tables the handler reads and writes; `known` holds the slugs of
      the item table. */
  datatype VendorState = VendorState(
    db: Db,
    vendors: seq<Vendor>,
    inventories: seq<Inventory>,
    inventoryItems: set<InventoryItem>,
    known: set<string>)

  /** Every item row belongs to a stored inventory and every inventory to
      a stored vendor, as the foreign keys demand. */
  predicate Valid(s: VendorState)
  {
    && (forall x | x in s.inventoryItems :: x.inventoryId in InventoryIds(s.inventories))
    && (forall i | 0 <= i < |s.inventories| :: s.inventories[i].vendorId in VendorIds(s.vendors))
  }

  function InventoryIds(invs: seq<Inventory>): seq<int>
  {
    seq(|invs|, i requires 0 <= i < |invs| => invs[i].id)
  }

  function VendorIds(vendors: seq<Vendor>): seq<int>
  {
    seq(|vendors|, i requires 0 <= i < |vendors| => vendors[i].id)
  }

  /** The slugs of an inventory's items. */
  function ItemSlugs(rows: set<InventoryItem>, inventoryId: int): set<string>
  {
    set x | x in rows && x.inventoryId == inventoryId :: x.slug
  }

  // ------------------------------------------------------------ the slug set

  /** The slug that never counts as part of an inventory. */
  const IgnoredSlug: string := "vip-3"

  /** `iv['slug']` for one submitted entry: an object without the key
      raises KeyError, anything that is not an object TypeError. */
  function SlugOf(v: Json): Result<string>
  {
    match v
    case Obj(entries) =>
      (match Lookup(entries, "slug")
       case None => Raise(KeyError)
       case Some(slug) => AsString(slug))
    case _ => Raise(TypeError)
  }

  /** The set comprehension over a submitted list: the slugs of all
      entries, or the error of the first entry without one. */
  function CollectSlugs(items: seq<Json>): (r: Result<set<string>>)
    ensures r.Ok? <==> forall i :: 0 <= i < |items| ==> SlugOf(items[i]).Ok?
    ensures r.Ok? ==> forall x :: x in r.value <==> exists i :: 0 <= i < |items| && SlugOf(items[i]) == Ok(x)
    ensures r.Raise? ==> exists i :: 0 <= i < |items| && SlugOf(items[i]) == Raise(r.error) &&
                                       forall j :: 0 <= j < i ==> SlugOf(items[j]).Ok?
    decreases |items|
  {
    if items == [] then Ok({})
    else
      var slug :- SlugOf(items[0]);
      var rest :- CollectSlugs(items[1..]);
      assert forall i :: 1 <= i < |items| ==> items[1..][i - 1] == items[i];
      Ok({slug} + rest)
  }

  /** The slugs of `payload['inventory']` without the ignored one.
      Iterating an object yields its keys and a string its characters,
      both strings that cannot be indexed by `'slug'`; any other value is
      not iterable. */
  function Slugs(inventory: Json): (r: Result<set<string>>)
    ensures r.Ok? ==> IgnoredSlug !in r.value
    ensures inventory.Arr? ==>
      (r.Ok? <==> forall i :: 0 <= i < |inventory.items| ==> SlugOf(inventory.items[i]).Ok?)
    ensures inventory.Arr? && r.Ok? ==> forall x :: x in r.value <==>
      x != IgnoredSlug && exists i :: 0 <= i < |inventory.items| && SlugOf(inventory.items[i]) == Ok(x)
  {
    var all :- match inventory
      case Arr(items) => CollectSlugs(items)
      case Obj(entries) => if entries == [] then Ok({}) else Raise(TypeError)
      case Str(chars) => if chars == [] then Ok({}) else Raise(TypeError)
      case _ => Raise(TypeError);
    Ok(all - {IgnoredSlug})
  }

  /** The slug set depends only on which entries occur, not on their order
      or on how often each is repeated. */
  lemma SlugsOrderFree(items: seq<Json>, items': seq<Json>)
    requires forall v :: v in items <==> v in items'
    ensures Slugs(Arr(items)).Ok? <==> Slugs(Arr(items')).Ok?
    ensures Slugs(Arr(items)).Ok? ==> Slugs(Arr(items)).value == Slugs(Arr(items')).value
  {
    SlugsSubsume(items, items');
    SlugsSubsume(items', items);
  }

  lemma SlugsSubsume(items: seq<Json>, items': seq<Json>)
    requires forall v :: v in items' ==> v in items
    ensures Slugs(Arr(items)).Ok? ==> Slugs(Arr(items')).Ok?
    ensures Slugs(Arr(items)).Ok? ==> Slugs(Arr(items')).value <= Slugs(Arr(items)).value
  {
    if Slugs(Arr(items)).Ok? {
      forall i | 0 <= i < |items'|
        ensures SlugOf(items'[i]).Ok?
      {
        assert items'[i] in items';
        var j :| 0 <= j < |items| && items[j] == items'[i];
      }
      forall x | x in Slugs(Arr(items')).value
        ensures x in Slugs(Arr(items)).value
      {
        var i :| 0 <= i < |items'| && SlugOf(items'[i]) == Ok(x);
        assert items'[i] in items';
        var j :| 0 <= j < |items| && items[j] == items'[i];
        assert SlugOf(items[j]) == Ok(x);
      }
    }
  }

  // ------------------------------------------------------------ vendors

  /** The first vendor of the station with exactly that name. */
  function FindVendor(vendors: seq<Vendor>, stationId: int, name: string): (r: Option<Vendor>)
    ensures r.Some? ==> r.value in vendors && r.value.stationId == stationId && r.value.name == name
    ensures r.None? <==> forall i :: 0 <= i < |vendors| ==> !(vendors[i].stationId == stationId && vendors[i].name == name)
    decreases |vendors|
  {
    if vendors == [] then None
    else if vendors[0].stationId == stationId && vendors[0].name == name then Some(vendors[0])
    else FindVendor(vendors[1..], stationId, name)
  }

  /** The vendor row the submission is filed under, created when the
      station has none of that name; the flag tells whether it was. */
  function VendorFor(vendors: seq<Vendor>, stationId: int, name: string): (r: (seq<Vendor>, Vendor, bool))
    ensures r.1 in r.0 && r.1.stationId == stationId && r.1.name == name
    ensures r.2 <==> FindVendor(vendors, stationId, name).None?
    ensures !r.2 ==> r.0 == vendors
    ensures r.2 ==> r.0 == vendors + [r.1] && r.1.id !in VendorIds(vendors)
    ensures r.1.id in VendorIds(r.0)
    ensures forall x :: x in VendorIds(vendors) ==> x in VendorIds(r.0)
  {
    match FindVendor(vendors, stationId, name)
    case Some(v) =>
      var k :| 0 <= k < |vendors| && vendors[k] == v;
      assert VendorIds(vendors)[k] == v.id;
      (vendors, v, false)
    case None =>
      var v := Vendor(FreshId(VendorIds(vendors)), stationId, name);
      assert VendorIds(vendors + [v]) == VendorIds(vendors) + [v.id];
      (vendors + [v], v, true)
  }

  /** Once a vendor is filed, looking it up again finds it. */
  lemma {:induction false} FindVendorAppend(vendors: seq<Vendor>, v: Vendor)
    requires FindVendor(vendors, v.stationId, v.name).None?
    ensures FindVendor(vendors + [v], v.stationId, v.name) == Some(v)
    decreases |vendors|
  {
    if vendors != [] {
      assert (vendors + [v])[1..] == vendors[1..] + [v];
      FindVendorAppend(vendors[1..], v);
    }
  }

  // ------------------------------------------------------------ inventories

  /** The index of the vendor's inventory with the greatest `last_seen`,
      the first of them in table order on a tie. */
  function Latest(invs: seq<Inventory>, vendorId: int): (r: Option<nat>)
    ensures r.None? <==> forall j :: 0 <= j < |invs| ==> invs[j].vendorId != vendorId
    ensures r.Some? ==> r.value < |invs| && invs[r.value].vendorId == vendorId
    ensures r.Some? ==> forall j :: 0 <= j < |invs| && invs[j].vendorId == vendorId ==> invs[j].lastSeen <= invs[r.value].lastSeen
    ensures r.Some? ==> forall j :: 0 <= j < r.value && invs[j].vendorId == vendorId ==> invs[j].lastSeen < invs[r.value].lastSeen
    decreases |invs|
  {
    if invs == [] then None
    else
      var front := invs[..|invs| - 1];
      var last := |invs| - 1;
      var prev := Latest(front, vendorId);
      assert forall j :: 0 <= j < last ==> front[j] == invs[j];
      if invs[last].vendorId == vendorId && (prev.None? || invs[last].lastSeen > invs[prev.value].lastSeen)
      then Some(last)
      else prev
  }

  /** The JSON answer of `add_vendory_inventory`. A recorded answer's
      message is its parts joined by spaces. */
  datatype Response =
    | NotRecorded(unknown: set<string>)
    | Recorded(messages: seq<string>)

  const VendorCreated: string := "Vendor created."
  const TimestampUpdated: string := "Updated inventory timestamp."
  const InventoryRecorded: string := "New inventory state recorded."

  /** The inventory update once every slug is known: the latest inventory
      is kept if its items are exactly the submitted ones, otherwise a new
      inventory holding them is added. */
  function Store(s: VendorState, vendorId: int, tokenId: int, slugs: set<string>, created: bool, now: int): (VendorState, Response)
  {
    var head := if created then [VendorCreated] else [];
    var latest := Latest(s.inventories, vendorId);
    if latest.Some? && ItemSlugs(s.inventoryItems, s.inventories[latest.value].id) == slugs then
      var i := latest.value;
      (s.(inventories := s.inventories[i := s.inventories[i].(lastSeen := now)]),
       Recorded(head + [TimestampUpdated]))
    else
      var id := FreshId(InventoryIds(s.inventories));
      (s.(inventories := s.inventories + [Inventory(id, vendorId, tokenId, now, now)],
          inventoryItems := s.inventoryItems + set slug | slug in slugs :: InventoryItem(id, slug)),
       Recorded(head + [InventoryRecorded]))
  }

  /** What the handler has gathered before it checks the slugs: the
      database after the station lookup, the vendor table after the vendor
      lookup, the vendor, whether it is new, the token and the slug set. */
  datatype Submission = Submission(db: Db, vendors: seq<Vendor>, vendor: Vendor, created: bool, tokenId: int, slugs: set<string>)

  /** A string argument of `get_station`, whose `.lower()` needs a string. */
  function NameArg(v: Json): Result<string>
  {
    if v.Str? then Ok(v.s) else Raise(AttributeError)
  }

  /** The handler up to the slug check. `token` is the outcome of the
      token verification: the id of the token row, or the error it raises. */
  function Prepare(s: VendorState, payload: map<string, Json>, token: Result<int>): Result<Submission>
  {
    var tokenArg :- Field(payload, "token");
    var tokenId :- token;
    var systemArg :- Field(payload, "system");
    var stationArg :- Field(payload, "station");
    var systemName :- NameArg(systemArg);
    var stationName :- NameArg(stationArg);
    var (db, station) :- GetStation(s.db, systemName, stationName, true);
    var vendorArg :- Field(payload, "vendor");
    var vendorName :- AsString(vendorArg);
    var (vendors, vendor, created) := VendorFor(s.vendors, station.id, vendorName);
    var inventoryArg :- Field(payload, "inventory");
    var slugs :- Slugs(inventoryArg);
    Ok(Submission(db, vendors, vendor, created, tokenId, slugs))
  }

  /** `add_vendory_inventory`. `now` is the time of the request. An
      unknown slug ends the request without a commit, and so does a raised
      error: nothing is stored on either path. */
  function Add(s: VendorState, payload: map<string, Json>, token: Result<int>, now: int): Result<(VendorState, Response)>
  {
    var p :- Prepare(s, payload, token);
    if p.slugs - s.known != {} then Ok((s, NotRecorded(p.slugs - s.known)))
    else Ok(Store(s.(db := p.db, vendors := p.vendors), p.vendor.id, p.tokenId, p.slugs, p.created, now))
  }

  // ------------------------------------------------------------ properties

  /** What the handler gathers is read off the request: the vendor is the
      one of that name at the station `get_station` returns, it is created
      exactly when the station has no vendor of that name, and the slug set
      is that of the submitted inventory. */
  lemma PrepareFields(s: VendorState, payload: map<string, Json>, token: Result<int>)
    requires Prepare(s, payload, token).Ok?
    ensures var p := Prepare(s, payload, token).value;
      && token == Ok(p.tokenId)
      && "system" in payload && payload["system"].Str?
      && "station" in payload && payload["station"].Str?
      && "vendor" in payload && payload["vendor"] == Str(p.vendor.name)
      && "inventory" in payload && Slugs(payload["inventory"]) == Ok(p.slugs)
      && (exists st: Station :: GetStation(s.db, payload["system"].s, payload["station"].s, true) == Ok((p.db, st)) &&
                       st.id == p.vendor.stationId)
      && (p.created <==> FindVendor(s.vendors, p.vendor.stationId, p.vendor.name).None?)
      && (p.created ==> p.vendors == s.vendors + [p.vendor] && p.vendor.id !in VendorIds(s.vendors))
      && (!p.created ==> p.vendors == s.vendors && p.vendor in s.vendors)
      && VendorFor(s.vendors, p.vendor.stationId, p.vendor.name) == (p.vendors, p.vendor, p.created)
  {
  }

  /** A slug the item table lacks makes the answer "not recorded", listing
      exactly the unknown slugs, and nothing is stored: not the vendor,
      the station or any inventory. Otherwise the submission is recorded. */
  lemma AddUnknownItems(s: VendorState, payload: map<string, Json>, token: Result<int>, now: int)
    requires Prepare(s, payload, token).Ok?
    ensures var p := Prepare(s, payload, token).value;
      var r := Add(s, payload, token, now);
      && r.Ok?
      && (r.value.1.NotRecorded? <==> exists x :: x in p.slugs && x !in s.known)
      && (r.value.1.NotRecorded? ==>
            r.value.0 == s && forall x :: x in r.value.1.unknown <==> x in p.slugs && x !in s.known)
  {
    var p := Prepare(s, payload, token).value;
    if exists x :: x in p.slugs && x !in s.known {
      var x :| x in p.slugs && x !in s.known;
      assert x in p.slugs - s.known;
    } else {
      assert p.slugs - s.known == {};
    }
  }

  /** A recorded answer opens with "Vendor created." exactly when the
      vendor was new. */
  lemma AddMessages(s: VendorState, payload: map<string, Json>, token: Result<int>, now: int)
    requires Prepare(s, payload, token).Ok?
    requires Add(s, payload, token, now).Ok? && Add(s, payload, token, now).value.1.Recorded?
    ensures var p := Prepare(s, payload, token).value;
      var msgs := Add(s, payload, token, now).value.1.messages;
      && |msgs| == (if p.created then 2 else 1)
      && (p.created <==> msgs[0] == VendorCreated)
      && msgs[|msgs| - 1] in {TimestampUpdated, InventoryRecorded}
  {
  }

  /** When the vendor's latest inventory holds exactly the submitted items,
      only that inventory's `last_seen` moves to the request time: no
      inventory and no item row is added, and every other inventory is
      kept. */
  lemma AddRefreshesLatest(s: VendorState, payload: map<string, Json>, token: Result<int>, now: int)
    requires Prepare(s, payload, token).Ok?
    requires Prepare(s, payload, token).value.slugs <= s.known
    requires var p := Prepare(s, payload, token).value;
      var l := Latest(s.inventories, p.vendor.id);
      l.Some? && ItemSlugs(s.inventoryItems, s.inventories[l.value].id) == p.slugs
    ensures var p := Prepare(s, payload, token).value;
      var i := Latest(s.inventories, p.vendor.id).value;
      var (s', resp) := Add(s, payload, token, now).value;
      && resp.Recorded? && resp.messages[|resp.messages| - 1] == TimestampUpdated
      && s'.db == p.db && s'.vendors == p.vendors && s'.known == s.known
      && s'.inventoryItems == s.inventoryItems
      && |s'.inventories| == |s.inventories|
      && (forall j :: 0 <= j < |s.inventories| && j != i ==> s'.inventories[j] == s.inventories[j])
      && s'.inventories[i] == s.inventories[i].(lastSeen := now)
  {
    var p := Prepare(s, payload, token).value;
    assert p.slugs - s.known == {};
  }

  /** Otherwise a new inventory of the vendor is added, first and last seen
      at the request time, with a fresh id and one item row per submitted
      slug; the earlier inventories and item rows are kept. */
  lemma AddNewInventory(s: VendorState, payload: map<string, Json>, token: Result<int>, now: int)
    requires Valid(s)
    requires Prepare(s, payload, token).Ok?
    requires Prepare(s, payload, token).value.slugs <= s.known
    requires var p := Prepare(s, payload, token).value;
      var l := Latest(s.inventories, p.vendor.id);
      l.None? || ItemSlugs(s.inventoryItems, s.inventories[l.value].id) != p.slugs
    ensures var p := Prepare(s, payload, token).value;
      var (s', resp) := Add(s, payload, token, now).value;
      && resp.Recorded? && resp.messages[|resp.messages| - 1] == InventoryRecorded
      && s'.db == p.db && s'.vendors == p.vendors && s'.known == s.known
      && |s'.inventories| == |s.inventories| + 1
      && s'.inventories[..|s.inventories|] == s.inventories
      && var inv := s'.inventories[|s.inventories|];
         && inv.id !in InventoryIds(s.inventories)
         && inv.vendorId == p.vendor.id && inv.tokenId == p.tokenId
         && inv.firstSeen == now && inv.lastSeen == now
         && ItemSlugs(s'.inventoryItems, inv.id) == p.slugs
         && s.inventoryItems <= s'.inventoryItems
         && (forall x :: x in s'.inventoryItems && x !in s.inventoryItems ==> x.inventoryId == inv.id)
  {
    var p := Prepare(s, payload, token).value;
    assert p.slugs - s.known == {};
    var s1 := s.(db := p.db, vendors := p.vendors);
    var id := FreshId(InventoryIds(s.inventories));
    FreshItemRows(s, id, p.slugs);
  }

  /** The item rows of a fresh inventory are exactly the ones added for it. */
  lemma FreshItemRows(s: VendorState, id: int, slugs: set<string>)
    requires Valid(s)
    requires id !in InventoryIds(s.inventories)
    ensures ItemSlugs(s.inventoryItems + set slug | slug in slugs :: InventoryItem(id, slug), id) == slugs
  {
    var rows := s.inventoryItems + set slug | slug in slugs :: InventoryItem(id, slug);
    forall x | x in s.inventoryItems
      ensures x.inventoryId != id
    {
    }
    forall slug | slug in slugs
      ensures slug in ItemSlugs(rows, id)
    {
      assert InventoryItem(id, slug) in rows;
    }
  }

  /** Every answer keeps item rows and inventories attached to stored rows. */
  lemma AddPreservesValid(s: VendorState, payload: map<string, Json>, token: Result<int>, now: int)
    requires Valid(s)
    requires Add(s, payload, token, now).Ok?
    ensures Valid(Add(s, payload, token, now).value.0)
  {
    var p := Prepare(s, payload, token).value;
    PrepareFields(s, payload, token);
    if p.slugs - s.known == {} {
      var s1 := s.(db := p.db, vendors := p.vendors);
      StorePreservesValid(s1, p.vendor.id, p.tokenId, p.slugs, p.created, now);
    }
  }

  lemma StorePreservesValid(s: VendorState, vendorId: int, tokenId: int, slugs: set<string>, created: bool, now: int)
    requires Valid(s) && vendorId in VendorIds(s.vendors)
    ensures Valid(Store(s, vendorId, tokenId, slugs, created, now).0)
  {
    var s' := Store(s, vendorId, tokenId, slugs, created, now).0;
    var latest := Latest(s.inventories, vendorId);
    if latest.Some? && ItemSlugs(s.inventoryItems, s.inventories[latest.value].id) == slugs {
      assert InventoryIds(s'.inventories) == InventoryIds(s.inventories);
    } else {
      var ids := InventoryIds(s.inventories);
      assert InventoryIds(s'.inventories) == ids + [s'.inventories[|s.inventories|].id];
    }
  }

  /** A second look-up with what a successful first one gathered finds the
      same station and vendor, now as an existing one. */
  lemma PrepareAgain(s: VendorState, payload: map<string, Json>, token: Result<int>, t: VendorState)
    requires Prepare(s, payload, token).Ok?
    requires t.db == Prepare(s, payload, token).value.db && t.vendors == Prepare(s, payload, token).value.vendors
    ensures Prepare(t, payload, token) == Ok(Prepare(s, payload, token).value.(created := false))
  {
    var p := Prepare(s, payload, token).value;
    var systemName, stationName := payload["system"].s, payload["station"].s;
    GetStationIdempotent(s.db, systemName, stationName, true, true);
    var (db, station) := GetStation(s.db, systemName, stationName, true).value;
    assert GetStation(t.db, systemName, stationName, true) == Ok((db, station));
    if p.created {
      FindVendorAppend(s.vendors, p.vendor);
    }
    assert VendorFor(t.vendors, station.id, payload["vendor"].s) == (p.vendors, p.vendor, false);
  }

  /** Submitting the same inventory again later only moves a timestamp: a
      recorded submission followed by an identical one answers "Updated
      inventory timestamp." and adds no vendor, station, inventory or item
      row. The clock must have moved past every stored `last_seen`. */
  lemma AddRepeatedRefreshes(s: VendorState, payload: map<string, Json>, token: Result<int>, now: int, now': int)
    requires Valid(s)
    requires forall i :: 0 <= i < |s.inventories| ==> s.inventories[i].lastSeen < now
    requires Add(s, payload, token, now).Ok? && Add(s, payload, token, now).value.1.Recorded?
    ensures var s1 := Add(s, payload, token, now).value.0;
      var r := Add(s1, payload, token, now');
      && r.Ok? && r.value.1 == Recorded([TimestampUpdated])
      && r.value.0.db == s1.db && r.value.0.vendors == s1.vendors
      && r.value.0.inventoryItems == s1.inventoryItems
      && |r.value.0.inventories| == |s1.inventories|
  {
    var p := Prepare(s, payload, token).value;
    var s1 := Add(s, payload, token, now).value.0;
    var k := NewestAfterAdd(s, payload, token, now);
    PrepareAgain(s, payload, token, s1);
    assert Add(s1, payload, token, now') == Ok(Store(s1, p.vendor.id, p.tokenId, p.slugs, false, now'));
    StoreRefreshesNewest(s1, p.vendor.id, p.tokenId, p.slugs, now', k);
  }

  /** After a recorded submission the vendor's inventory holding the
      submitted items is the one seen last, strictly after all others. */
  lemma NewestAfterAdd(s: VendorState, payload: map<string, Json>, token: Result<int>, now: int) returns (k: nat)
    requires Valid(s)
    requires forall i :: 0 <= i < |s.inventories| ==> s.inventories[i].lastSeen < now
    requires Add(s, payload, token, now).Ok? && Add(s, payload, token, now).value.1.Recorded?
    ensures var p := Prepare(s, payload, token).value;
      var s1 := Add(s, payload, token, now).value.0;
      && s1.db == p.db && s1.vendors == p.vendors && s1.known == s.known && p.slugs <= s.known
      && k < |s1.inventories| && s1.inventories[k].vendorId == p.vendor.id
      && ItemSlugs(s1.inventoryItems, s1.inventories[k].id) == p.slugs
      && forall j :: 0 <= j < |s1.inventories| && j != k ==> s1.inventories[j].lastSeen < s1.inventories[k].lastSeen
  {
    var p := Prepare(s, payload, token).value;
    assert p.slugs <= s.known by {
      AddUnknownItems(s, payload, token, now);
    }
    var l := Latest(s.inventories, p.vendor.id);
    if l.Some? && ItemSlugs(s.inventoryItems, s.inventories[l.value].id) == p.slugs {
      AddRefreshesLatest(s, payload, token, now);
      k := l.value;
    } else {
      AddNewInventory(s, payload, token, now);
      k := |s.inventories|;
    }
  }

  /** Storing the items of the vendor's newest inventory again only moves
      that inventory's `last_seen`. */
  lemma StoreRefreshesNewest(s: VendorState, vendorId: int, tokenId: int, slugs: set<string>, now: int, k: nat)
    requires k < |s.inventories| && s.inventories[k].vendorId == vendorId
    requires ItemSlugs(s.inventoryItems, s.inventories[k].id) == slugs
    requires forall j :: 0 <= j < |s.inventories| && j != k ==> s.inventories[j].lastSeen < s.inventories[k].lastSeen
    ensures var (s', resp) := Store(s, vendorId, tokenId, slugs, false, now);
      && resp == Recorded([TimestampUpdated])
      && s' == s.(inventories := s.inventories[k := s.inventories[k].(lastSeen := now)])
  {
    LatestIsNewest(s.inventories, vendorId, k);
  }

  /** An inventory seen strictly later than all others is the latest. */
  lemma LatestIsNewest(invs: seq<Inventory>, vendorId: int, k: nat)
    requires k < |invs| && invs[k].vendorId == vendorId
    requires forall j :: 0 <= j < |invs| && j != k ==> invs[j].lastSeen < invs[k].lastSeen
    ensures Latest(invs, vendorId) == Some(k)
  {
  }
}

=== FILE: wrappers.dfy ===
/** Failure-compatible datatypes shared by every module of the model.

    The original program is Python: a failing operation raises an exception
    that ends the script or the web request. `Result` carries either the
    value or the kind of exception that would have been raised, so that each
    error path of the source is an ordinary value here. */
module Wrappers {

  datatype Option<+T> = None | Some(value: T) {
    predicate IsFailure() {
      None?
    }

    function PropagateFailure<U>(): Option<U>
      requires None?
    {
      None
    }

    function Extract(): T
      requires Some?
    {
      value
    }

    function GetOr(default: T): T {
      match this
      case Some(v) => v
      case None => default
    }
  }

  /** The Python exceptions that the modelled code can raise. */
  datatype PyError =
    | ZeroDivisionError
    | IndexError
    | AssertionError
    | ValueError   // min()/max() of an empty list, math.sqrt of a negative number
    | TypeError    // arithmetic on None
    | SystemExit   // sys.exit(1)
    | KeyError     // a missing dict key
    | AttributeError // a method called on a value of the wrong type
    | IntegrityError // a row that breaks a unique column, raised at the next flush

  datatype Result<+T> = Ok(value: T) | Raise(error: PyError) {
    predicate IsFailure() {
      Raise?
    }

    function PropagateFailure<U>(): Result<U>
      requires Raise?
    {
      Raise(error)
    }

    function Extract(): T
      requires Ok?
    {
      value
    }
  }
}
